=== FILE: README.md ===
# Crowdfunding storefront: a Dafny model of its client-side logic

This project models the browser-side logic of a React crowdfunding storefront. The logic covers:

- the authentication client and its Redux slice;
- the route guards;
- the four-step "create campaign" wizard and its validator;
- the admin's update form, dashboard and overview cards;
- the two discover pages and the campaign card;
- the profile editor and the profile's paged lists.

Each source file or concept is one Dafny module. Each event handler is a pure function from the component's state, plus the reply the server gave, to the next state. The properties each handler promises are proved as `ensures` clauses and lemmas.

The authentication slice has no failed state, no start-up restore and no request ordering:

- There is no separate "failed" state. A rejected action only sets `error` and clears `isLoading`.
- Nothing restores a session at start-up beyond reading the two stored tokens.
- Nothing orders concurrent requests. A later reply does not cancel an earlier one.

Modules:

| module | models |
|---|---|
| `Common` | `Option`/`Result`, JavaScript `trim`, ASCII `toLowerCase`, `includes`, `new Set` de-duplication, `filter`, index removal, decimal digits |
| `AuthApi` | `src/lib/auth.js`: the request interceptor and the token storage of `login`, `refreshToken`, `logout`, `activateAccount` and `resendActivation` |
| `AuthSlice` | `src/store/auth.js`: the four thunks, the reducer and the selector |
| `AuthGuard` | `src/components/auth/AuthGuard.jsx` |
| `Validation` | `src/lib/validation.js`, `validateFormData` |
| `CreateCampaign` | `src/pages/campaign/CreateCampaignPage.jsx`: tags, images, step navigation and submit routing |
| `UpdateProject` | `src/pages/admin/components/UpdateProjectForm.jsx` |
| `CampaignForm` | `src/components/campaign/CampaignForm.jsx` |
| `EditProfile` | `src/pages/profile/EditProfile.jsx` |
| `Dashboard`, `StateOverview` | `src/pages/admin/Dashboard.jsx`, `src/pages/admin/components/StateOverview.jsx` |
| `CampaignDiscover` | `src/pages/campaign/DiscoverPage.jsx` |
| `StaticDiscover` | `src/pages/DiscoverPage.jsx` |
| `CampaignCard` | `src/pages/campaign/components/CampaignCard.jsx` and `src/lib/helpers.js` |
| `ProfileLists`, `SinceLabel` | `src/pages/profile/components/Campaign.jsx` and `Donations.jsx` |

## Model

| member | source | states |
|---|---|---|
| AuthApi.ErrorBodyOr | src/lib/auth.js:68 | a failed call rethrows the server's error body when it is truthy, otherwise a `{detail}` object with the fallback text; what is rethrown is always truthy |
| AuthApi.Intercept | src/lib/auth.js:5-16 | a truthy stored access token adds exactly one header, `Authorization: Bearer <token>`; every other header and the URL are kept; without a truthy token the request is unchanged |
| AuthApi.InterceptCarriesStoredToken | src/lib/auth.js:7-9 | the attached header reads back as `Bearer ` followed by exactly the stored token |
| AuthApi.StoreTokens | src/lib/auth.js:23-24 | after the write, both tokens read back as the reply's; storage gains only those two keys; every other key is kept |
| AuthApi.StoreTokensIdempotent | src/lib/auth.js:23-24 | storing the same pair twice gives the same storage as storing it once |
| AuthApi.Login | src/lib/auth.js:18-26 | after a successful `jwt/create`, storage holds the reply's access and refresh tokens |
| AuthApi.RefreshRequest | src/lib/auth.js:49-52 | the request carries the stored refresh token exactly when one is stored |
| AuthApi.RefreshToken | src/lib/auth.js:49-56 | both tokens are overwritten with the refresh reply's; every other key is kept |
| AuthApi.Logout | src/lib/auth.js:44-47 | removes only the `token` key and the default `Authorization` header; everything else stays |
| AuthApi.LogoutKeepsSessionTokens | src/lib/auth.js:44-47 | the client's logout leaves both session tokens in place, so the interceptor still sends the old bearer |
| AuthApi.ActivateAccount | src/lib/auth.js:59-70 | succeeds exactly when the server does and returns its body; a failure rethrows the server's truthy body or `{detail: "Activation failed"}` |
| AuthApi.ResendActivation | src/lib/auth.js:72-79 | the same with `{detail: "Failed to resend activation email"}` |
| AuthSlice.LoginThunk | src/store/auth.js:11-45 | fulfils exactly when the server grants tokens and the access token decodes; tokens reach storage whenever granted, even if decoding then fails; a refusal leaves storage alone |
| AuthSlice.RegisterThunk | src/store/auth.js:47-70 | fulfils exactly on registration; a rejection always carries a truthy reason |
| AuthSlice.LogoutThunk | src/store/auth.js:72-86 | always fulfils; removes the `token` key and keeps every other key |
| AuthSlice.FetchUserThunk | src/store/auth.js:88-97 | fulfils exactly when `users/me` answers, carrying that user |
| AuthSlice.InitialState | src/store/auth.js:99-108 | both tokens are read from storage, so the first state mirrors it; nobody is logged in, nothing loads, there is no error and no registration success |
| AuthSlice.IsAuthenticated | src/store/auth.js:186 | authenticated exactly when the access token is present and non-empty |
| AuthSlice.Reduce | src/store/auth.js:110-180 | only a finished logout touches storage, removing exactly the two token keys; pending cases start loading and every settled case stops it; a rejection stores its reason and every other case but a fetched user clears the error; user and tokens change only on login, logout and (for the user) a fetched user, which stores exactly the fetched user and keeps the tokens; `registrationSuccess` is set by a registration and never reset |
| AuthSlice.InitialStateFromStorage | src/store/auth.js:99-108 | the first state mirrors storage: nobody loaded, not loading, no error; authenticated exactly when a non-empty access token is stored |
| AuthSlice.PendingOnlyStartsLoading | src/store/auth.js:121-124 | every pending case sets `isLoading`, clears `error` and changes nothing else |
| AuthSlice.ResetErrorOnlyClearsError | src/store/auth.js:114-116 | `resetError` clears the error and nothing else |
| AuthSlice.OnlyLoginLogoutAndFetchTouchUser | src/store/auth.js:119-178 | every case except login, logout and fetch-user fulfilment leaves user, tokens, storage and the selector alone |
| AuthSlice.LoginSuccess | src/store/auth.js:125-130 | a granted, decodable login puts both tokens in storage and in state, clears the error and makes the session authenticated |
| AuthSlice.LoginRefusedKeepsSession | src/store/auth.js:131-134 | a refused login records the reason and keeps user, tokens and storage |
| AuthSlice.UndecodableTokenSplitsSession | src/store/auth.js:16-19 | a granted token that does not decode is stored, yet the slice's tokens do not change: storage and state disagree |
| AuthSlice.RegisterLeavesSession | src/store/auth.js:136-148 | neither register case touches user, tokens or storage; only success sets `registrationSuccess` |
| AuthSlice.LogoutEndsSession | src/store/auth.js:150-161 | logout clears user and tokens, removes all three token keys from storage and turns the selector false |
| AuthSlice.LogoutIdempotent | src/store/auth.js:154-161 | logging out twice ends in the same session as logging out once |
| AuthSlice.FailuresKeepAuthentication | src/store/auth.js:162-178 | a rejected logout or user fetch keeps an authenticated session authenticated |
| AuthSlice.SelectorIgnoresUser | src/store/auth.js:186 | the selector depends only on a non-empty access token, never on `user` |
| AuthSlice.FlowsPreserveMirror | src/store/auth.js:11-178 | every thunk, dispatched with its reducer cases, keeps state tokens and stored tokens in agreement when they agreed before |
| AuthSlice.LoginKeepsMirror | src/store/auth.js:121-134 | a login keeps state and storage in agreement, whether granted or refused |
| AuthSlice.FetchUserKeepsTokens | src/store/auth.js:166-178 | fetching the user never changes tokens or storage |
| AuthSlice.RefreshBreaksMirror | src/lib/auth.js:49-56 | the client's refresh rewrites storage behind the slice, so state and storage disagree after it |
| AuthGuard.RedirectIfAuthenticated | src/components/auth/AuthGuard.jsx:6-17 | renders its children exactly when nobody is signed in; otherwise renders nothing and navigates to `/dashboard`; never both |
| AuthGuard.RedirectIfNotAuthenticated | src/components/auth/AuthGuard.jsx:20-31 | renders its children exactly when signed in; otherwise renders nothing and navigates to `/login` |
| AuthGuard.ExactlyOneGuardRenders | src/components/auth/AuthGuard.jsx:6-31 | for every session exactly one of the two guards shows its children |
| AuthGuard.LogoutLocksProtectedPages | src/components/auth/AuthGuard.jsx:20-31 | after logout every protected page sends the visitor to `/login` and the login page renders |
| Validation.ParseUnsignedPositiveIff | src/lib/validation.js:16 | an unsigned decimal is greater than zero exactly when one of its digits is not zero |
| Validation.QuotientPositiveIff | src/lib/validation.js:16 | a decimal with digits n and a positive scale p is positive exactly when n is |
| Validation.TitleError | src/lib/validation.js:6-12 | empty is "required"; under 5 or over 100 characters gets the matching message; otherwise no error |
| Validation.TargetError | src/lib/validation.js:14-18 | empty is "required"; a value that is not a number, or is at most zero, is "must be positive"; otherwise no error |
| Validation.TargetAcceptedIff | src/lib/validation.js:14-18 | a goal is accepted exactly when it is a decimal (optionally signed, padded with blanks) with a non-zero digit and no minus sign |
| Validation.ParseNumber | src/lib/validation.js:16 | blank text is 0; a negative value needs a leading minus, and a leading minus never gives a positive value |
| Validation.DateErrors | src/lib/validation.js:20-48 | a missing date gets its "required" message; with both dates, a start before today gets "cannot be in the past", an end on or before the start gets "must be after start date", and a span of more than 90 rounded days gets the duration message; neither date fails otherwise |
| Validation.DurationTooLongIff | src/lib/validation.js:44-47 | the rounded duration exceeds 90 days exactly when the span is at least ninety and a half days |
| Validation.RoundDays | src/lib/validation.js:44-47 | `Math.round` of the span in days: within half a day of the exact span, halves going up |
| Validation.DetailsError | src/lib/validation.js:52-60 | empty is "required"; under 50 or over 5000 characters gets the matching message |
| Validation.ImagesError | src/lib/validation.js:63-75 | no images, more than five, or any file over 5 MiB each get their message, checked in that order |
| Validation.AssembleReportsExactly | src/lib/validation.js:1-78 | in the ordered writes, a field has an entry exactly when the step checks it and its check failed, with that check's message |
| Validation.ValidateReportsExactly | src/lib/validation.js:1-78 | for a draft, a field carries an error exactly when the step checks it and its check fails |
| Validation.AssembleMatchesReference | src/lib/validation.js:1-78 | the writes made in source order equal the declarative reference error object |
| Validation.Validate | src/lib/validation.js:1-78 | `validateFormData` equals the reference object (an entry for exactly the checked, failing fields, with their messages) for every draft, step and day |
| Validation.ErrorKeysValidated | src/lib/validation.js:1-78 | only the six validated fields ever carry an error; thumbnail, tags and category never do |
| Validation.StepKeys | src/lib/validation.js:5-75 | step 1 reports only title, goal and dates; step 2 only details; step 3 only images |
| Validation.StepFourIsUnion | src/lib/validation.js:5-75 | step 4 reports exactly the union of steps 1 to 3; any other step number reports nothing |
| Validation.IgnoresUnvalidatedFields | src/lib/validation.js:1-78 | changing category, tags or thumbnail never changes the result |
| CreateCampaign.Initial | src/pages/campaign/CreateCampaignPage.jsx:18-31 | the page opens on step 1 with no tags, no images and no errors |
| CreateCampaign.AddTag | src/pages/campaign/CreateCampaignPage.jsx:56-84 | either the trimmed input is appended and the input cleared, or nothing changes; a valid tag list stays valid; every other field's notice is kept, text included |
| CreateCampaign.AddTagAcceptsIff | src/pages/campaign/CreateCampaignPage.jsx:56-84 | a tag is accepted exactly when its trimmed text is non-empty, not already held, and fewer than ten tags exist |
| CreateCampaign.FirstTagClearsNotice | src/pages/campaign/CreateCampaignPage.jsx:71-83 | the first tag added clears a pending "tag required" notice |
| CreateCampaign.RemoveTag | src/pages/campaign/CreateCampaignPage.jsx:86-96 | drops exactly index i and keeps the others in order; emptying a one-tag list raises "tag required"; every other notice is kept |
| CreateCampaign.RemoveTagKeepsTagsOk | src/pages/campaign/CreateCampaignPage.jsx:86-96 | removing a tag keeps the list duplicate-free and within ten |
| CreateCampaign.AddImages | src/pages/campaign/CreateCampaignPage.jsx:135-152 | appends the files; the images notice is set exactly when more than five are held; other notices are untouched |
| CreateCampaign.RemoveImage | src/pages/campaign/CreateCampaignPage.jsx:154-164 | drops exactly index i; the images notice clears once at most five would remain; every other notice is kept, text included |
| CreateCampaign.NextStep | src/pages/campaign/CreateCampaignPage.jsx:232-271 | shows the step's validation; advances by one exactly when none of the step's own fields has an error |
| CreateCampaign.NextStepAdvancesIff | src/pages/campaign/CreateCampaignPage.jsx:232-271 | on steps 1 to 3 the wizard advances exactly when the validator reports nothing for the step |
| CreateCampaign.PrevStep | src/pages/campaign/CreateCampaignPage.jsx:273-276 | goes back one step and changes nothing else |
| CreateCampaign.ErrorStep | src/pages/campaign/CreateCampaignPage.jsx:177-189 | the route goes to step 1, 2 or 3, or stays; an error of a step-1 field always routes to step 1 |
| CreateCampaign.HandleSubmit | src/pages/campaign/CreateCampaignPage.jsx:166-190 | sends exactly when the full validation is empty; otherwise shows every error and never sends |
| CreateCampaign.RejectedSubmitShowsFailingStep | src/pages/campaign/CreateCampaignPage.jsx:177-189 | a rejected submit lands on the first step whose own fields fail, and every earlier step is clean |
| CreateCampaign.RouteOfChecks | src/pages/campaign/CreateCampaignPage.jsx:177-189 | for any failing outcome of the checks, the route is the earliest step with a failing block |
| CreateCampaign.StepKeepsGood | src/pages/campaign/CreateCampaignPage.jsx:56-276 | every enabled control keeps the step within 1 to 4 and the tag list valid |
| CreateCampaign.Enabled | src/pages/campaign/CreateCampaignPage.jsx:332-770 | the description panel offers only Back and Continue, the review panel only Back; no control exists outside steps 1 to 4 |
| CreateCampaign.Step | src/pages/campaign/CreateCampaignPage.jsx:52-274 | only Continue and Back change the panel, by one at most; no handler here touches the typed fields; only the tag controls change the tags and only the image controls change the images |
| CreateCampaign.SubmitKeepsGood | src/pages/campaign/CreateCampaignPage.jsx:166-190 | a submission keeps the page in range |
| CreateCampaign.RunKeepsGood | src/pages/campaign/CreateCampaignPage.jsx:56-276 | any run of enabled controls keeps the step and the tag list valid |
| CreateCampaign.InitialIsGood | src/pages/campaign/CreateCampaignPage.jsx:18-31 | the first render satisfies that invariant |
| UpdateProject.Loaded | src/pages/admin/components/UpdateProjectForm.jsx:36-44 | looking up `title`, `details`, `total_target`, `start_time`, `end_time` and `category` in the loaded form gives back the loaded values |
| UpdateProject.LoadedIsWellKeyed | src/pages/admin/components/UpdateProjectForm.jsx:15-44 | the loaded form's keys are distinct and clear of `tags`, `thumbnail` and `images` |
| UpdateProject.Set | src/pages/admin/components/UpdateProjectForm.jsx:112-118 | object spread replaces the key's value in place, or appends the key; other entries are kept |
| UpdateProject.HandleChange | src/pages/admin/components/UpdateProjectForm.jsx:112-118 | a checkbox stores `checked`, any other input stores `value`; nothing else changes |
| UpdateProject.HandleChangeKeepsWellKeyed | src/pages/admin/components/UpdateProjectForm.jsx:112-118 | edits through the page's inputs keep the keys distinct and clear of the body's own names |
| UpdateProject.AddTag | src/pages/admin/components/UpdateProjectForm.jsx:124-132 | appends the trimmed input when it is non-empty and fewer than ten tags exist, then clears the input; otherwise changes nothing |
| UpdateProject.AddTagAllowsDuplicates | src/pages/admin/components/UpdateProjectForm.jsx:124-132 | a tag already held is appended again, so the list repeats it |
| UpdateProject.RemoveTag | src/pages/admin/components/UpdateProjectForm.jsx:134-139 | drops exactly index i, keeping the other tags in order |
| UpdateProject.Seeded | src/pages/admin/components/UpdateProjectForm.jsx:47-50 | after load the previews are the server's image URLs and no file is chosen |
| UpdateProject.AddImages | src/pages/admin/components/UpdateProjectForm.jsx:141-148 | one new preview and one new file per chosen file, at the end, keeping previews aligned with files |
| UpdateProject.RemoveImageAsWritten | src/pages/admin/components/UpdateProjectForm.jsx:150-153 | index i is removed from both the previews and the new files |
| UpdateProject.RemoveImageAsWrittenDropsWrongFile | src/pages/admin/components/UpdateProjectForm.jsx:150-153 | with one server image and one new file, removing the server image's preview drops the new file from the upload while its preview stays |
| UpdateProject.RemoveImage | src/pages/admin/components/UpdateProjectForm.jsx:150-153 | the corrected removal takes the preview at i, and the new file only when i is past the server images |
| UpdateProject.RemoveKeepsAligned | src/pages/admin/components/UpdateProjectForm.jsx:150-153 | the corrected removal keeps each new file's preview in step with it |
| UpdateProject.RemoveImageDropsClickedFile | src/pages/admin/components/UpdateProjectForm.jsx:150-153 | the corrected removal drops exactly the clicked file, and no file when a server image is clicked |
| UpdateProject.PayloadTextsNamed | src/pages/admin/components/UpdateProjectForm.jsx:67-96 | the texts under a name are that entry's value, then the tags when the name is `tags` |
| UpdateProject.PayloadFilesNamed | src/pages/admin/components/UpdateProjectForm.jsx:67-96 | the files under a name are the thumbnail when the name is `thumbnail`, then the new files when it is `images` |
| UpdateProject.Payload | src/pages/admin/components/UpdateProjectForm.jsx:67-96 | one part per entry, per tag, for the thumbnail if chosen and per new file; the new files come last, in order, under `images` |
| UpdateProject.PayloadEntryOnce | src/pages/admin/components/UpdateProjectForm.jsx:75-79 | each form key carries exactly its one rendered value |
| UpdateProject.PayloadTags | src/pages/admin/components/UpdateProjectForm.jsx:82-84 | `tags` carries exactly the tag list, in order |
| UpdateProject.PayloadThumbnail | src/pages/admin/components/UpdateProjectForm.jsx:87-89 | `thumbnail` carries a file exactly when one was chosen |
| UpdateProject.PayloadImages | src/pages/admin/components/UpdateProjectForm.jsx:92-96 | `images` carries exactly the new files, in order |
| UpdateProject.PayloadStartsWithEntries | src/pages/admin/components/UpdateProjectForm.jsx:75-96 | the entries come first, in key order, ahead of every tag and file |
| CampaignForm.Initial | src/components/campaign/CampaignForm.jsx:45-53 | every text field starts empty and the duration at 30 |
| CampaignForm.HandleChange | src/components/campaign/CampaignForm.jsx:55-61 | the named field takes the value; every other field is kept |
| CampaignForm.HandleCategoryChange | src/components/campaign/CampaignForm.jsx:63-68 | only `category` changes |
| CampaignForm.HandleSubmit | src/components/campaign/CampaignForm.jsx:70-88 | navigates home exactly when all six required fields are truthy; otherwise refuses |
| CampaignForm.SubmitIgnoresDuration | src/components/campaign/CampaignForm.jsx:74-78 | the duration is never checked: changing it never changes the outcome |
| CampaignForm.InitialIsRefused | src/components/campaign/CampaignForm.jsx:45-78 | a fresh form is refused |
| CampaignForm.FillingRequiredFieldsSubmits | src/components/campaign/CampaignForm.jsx:55-88 | from any state, writing non-empty values into the six required fields is enough to submit |
| CampaignForm.CategoryChangeIsChange | src/components/campaign/CampaignForm.jsx:55-68 | the category handler is the generic handler for `category` |
| EditProfile.MatchesIff | src/pages/profile/EditProfile.jsx:12-23 | an anchored fixed-length pattern accepts exactly the strings of its length whose every character is in the class at its position |
| EditProfile.MobilePatternIff | src/pages/profile/EditProfile.jsx:12-23 | the mobile rule accepts exactly 11 digits starting `010`, `011`, `012` or `015` |
| EditProfile.DatePatternIff | src/pages/profile/EditProfile.jsx:12-23 | the date rule accepts exactly strings shaped `dddd-dd-dd` |
| EditProfile.DateShapeIgnoresCalendar | src/pages/profile/EditProfile.jsx:12-23 | a month 13 date passes the rule |
| EditProfile.CheckWith | src/pages/profile/EditProfile.jsx:12-23 | a field has an error exactly when its rule fails, and every error is that field's own message from the schema |
| EditProfile.CheckAsWritten | src/pages/profile/EditProfile.jsx:12-23 | the schema as written: a present birthdate must be date-shaped, even when empty |
| EditProfile.Check | src/pages/profile/EditProfile.jsx:12-23 | the corrected schema: an empty birthdate counts as absent |
| EditProfile.Prefill | src/pages/profile/EditProfile.jsx:42-53 | each editable field takes the user's value, or `""` when the user has none |
| EditProfile.BlankBirthdateRefusedAsWritten | src/pages/profile/EditProfile.jsx:20-49 | for every user without a birthdate, the prefilled `""` is rejected with "Enter a valid date (YYYY-MM-DD)" by the schema as written |
| EditProfile.NoBirthdateBlocksSubmitAsWritten | src/pages/profile/EditProfile.jsx:12-53 | a user with valid name, mobile and Facebook link but no birthdate gets a prefilled form that the schema as written rejects on the birthdate alone, while the corrected schema accepts it |
| EditProfile.CorrectedAcceptsPrefilledBlank | src/pages/profile/EditProfile.jsx:12-53 | the corrected schema accepts the prefilled blank birthdate and otherwise agrees with the one as written |
| EditProfile.SubmitEntries | src/pages/profile/EditProfile.jsx:55-63 | sends, in order, exactly the truthy entries; a file list is always sent |
| EditProfile.SubmitEntriesExtremes | src/pages/profile/EditProfile.jsx:55-63 | all truthy entries are all sent; with none truthy, nothing is sent |
| Dashboard.FilteredCampaigns | src/pages/admin/Dashboard.jsx:127-133 | a subsequence of the rows holding exactly those whose title contains the search, ignoring case, and whose status matches the select |
| Dashboard.NoFilterShowsAll | src/pages/admin/Dashboard.jsx:127-133 | an empty search with `all` shows every row |
| Dashboard.UnknownStatusShowsNothing | src/pages/admin/Dashboard.jsx:127-133 | a status value the select does not offer matches no row |
| Dashboard.ApprovedAndPendingPartition | src/pages/admin/Dashboard.jsx:127-133 | with no search, the approved and pending views split the list between them |
| Dashboard.ApproveCampaign | src/pages/admin/Dashboard.jsx:136-140 | rows with the id get status `approved`; other rows are untouched |
| Dashboard.HandleStatusUpdate | src/pages/admin/Dashboard.jsx:168-181 | on success, rows with the id take the new flag; a failed call changes nothing |
| Dashboard.SetActive | src/pages/admin/Dashboard.jsx:168-181 | each row with the id has its active flag set; other rows are untouched |
| Dashboard.DeleteCampaign | src/pages/admin/Dashboard.jsx:143-149 | the selected campaign and its reported comments go; everything else stays in order |
| Dashboard.TotalRaised | src/pages/admin/Dashboard.jsx:184-188 | the sum of donations, counting a missing value as zero |
| Dashboard.TotalRaisedBoundsEach | src/pages/admin/Dashboard.jsx:184-188 | every campaign's donations are at most the total |
| Dashboard.TotalRaisedZeroIff | src/pages/admin/Dashboard.jsx:184-188 | the total is zero exactly when no row has donations |
| Dashboard.Statistics | src/pages/admin/Dashboard.jsx:184-188 | pending plus approved is the total; the raised card is the donation sum |
| Dashboard.ApproveLeavesStatistics | src/pages/admin/Dashboard.jsx:136-140 | approving sets `status`, but the cards count `is_active`, so the cards do not move |
| Dashboard.SameActivityCounts | src/pages/admin/Dashboard.jsx:184-188 | lists that agree row by row on the active flag have equal pending and approved counts |
| Dashboard.SameDonationsTotal | src/pages/admin/Dashboard.jsx:184-188 | lists that agree row by row on donations have the same total |
| StateOverview.StateOverview | src/pages/admin/components/StateOverview.jsx:16-20 | total is the server's count; active and featured are the numbers of active and featured rows, each at most the page size |
| StateOverview.ActiveCountExtremes | src/pages/admin/components/StateOverview.jsx:16-20 | all rows active gives the page size; none active gives zero |
| StateOverview.EmptyPageCounts | src/pages/admin/components/StateOverview.jsx:16-20 | an empty page shows zero active and zero featured, whatever the total |
| StateOverview.ActiveMatchesDashboardApproved | src/pages/admin/components/StateOverview.jsx:16-20 | the active count equals the dashboard's approved card over the same rows |
| CampaignDiscover.FindPage | src/pages/campaign/DiscoverPage.jsx:50-54 | finds the leftmost `page=` followed by a digit, or reports that there is none |
| CampaignDiscover.PageNumber | src/pages/campaign/DiscoverPage.jsx:50-54 | a falsy URL or one without a match is page 1; otherwise the digits after the leftmost match |
| CampaignDiscover.CurrentPage | src/pages/campaign/DiscoverPage.jsx:34-40 | the page shown is never 0, and is the parsed number when that is not 0 |
| CampaignDiscover.PageNumberRoundTrip | src/pages/campaign/DiscoverPage.jsx:50-54 | reading `<base>?page=<n>` back gives n when the base holds no `page=` |
| CampaignDiscover.NoPageParameterIsFirstPage | src/pages/campaign/DiscoverPage.jsx:50-54 | a link without `page=<digits>` is page 1 |
| CampaignDiscover.RequestUrl | src/pages/campaign/DiscoverPage.jsx:25 | a truthy URL is requested as given; otherwise the default projects URL is requested |
| CampaignDiscover.FailureMessage | src/pages/campaign/DiscoverPage.jsx:28-43 | a response that is not ok gives "Failed to fetch campaigns"; a thrown network error gives its own message |
| CampaignDiscover.InitialPage | src/pages/campaign/DiscoverPage.jsx:8-19 | the page starts loading, with no rows, no error, count 0, no links and page 1 |
| CampaignDiscover.Loaded | src/pages/campaign/DiscoverPage.jsx:32-40 | a successful reply replaces the rows and the pagination with the reply's, keeps the error, search and selection, and ends loading |
| CampaignDiscover.FetchAsWritten | src/pages/campaign/DiscoverPage.jsx:21-47 | success is exactly `Loaded` with the reply: rows, count, links and page replaced, the old error, search and selection kept; failure sets the error and keeps rows, pagination, search and selection; loading always ends |
| CampaignDiscover.Fetch | src/pages/campaign/DiscoverPage.jsx:21-47 | as above, except that success also clears the error |
| CampaignDiscover.FetchAgreesWhileNoError | src/pages/campaign/DiscoverPage.jsx:21-47 | while no error is recorded, the fetch as written and the corrected one give the same page |
| CampaignDiscover.Render | src/pages/campaign/DiscoverPage.jsx:124-135 | spinner while loading, then a truthy error, then the filtered cards or the empty notice |
| CampaignDiscover.RetryStillShowsErrorAsWritten | src/pages/campaign/DiscoverPage.jsx:21-47 | after a failed fetch, a successful retry still shows the error screen |
| CampaignDiscover.SuccessLeavesErrorView | src/pages/campaign/DiscoverPage.jsx:21-47 | with the correction, any successful response leaves the error screen |
| CampaignDiscover.Categories | src/pages/campaign/DiscoverPage.jsx:61 | each truthy category object once; empty for an empty page |
| CampaignDiscover.FirstRow | src/pages/campaign/DiscoverPage.jsx:61 | the index of the first row holding a given category object |
| CampaignDiscover.RefsFollowRows | src/pages/campaign/DiscoverPage.jsx:61 | the mapped, filtered category list meets two objects in the order the rows first hold them |
| CampaignDiscover.CategoriesInFirstOccurrenceOrder | src/pages/campaign/DiscoverPage.jsx:61 | of two category buttons, the earlier one's object first appears in an earlier row |
| CampaignDiscover.Filtered | src/pages/campaign/DiscoverPage.jsx:63-71 | a subsequence of the rows holding exactly those matching the search and the selected category |
| CampaignDiscover.MatchesSearchIff | src/pages/campaign/DiscoverPage.jsx:63-71 | the search accepts a row exactly when the lower-cased term occurs in its lower-cased title or details |
| CampaignDiscover.NoFilterShowsAll | src/pages/campaign/DiscoverPage.jsx:63-71 | no search and the All button show every row |
| CampaignDiscover.EveryCategoryButtonSelectsSomething | src/pages/campaign/DiscoverPage.jsx:61-71 | without a search, every category button offered selects at least one row |
| CampaignDiscover.HandleNextPage | src/pages/campaign/DiscoverPage.jsx:73-77 | with a `next` link, a successful reply is exactly `Loaded` with that link (the reply's rows, count and links, that link's page number, the error, search and selection kept), and a failure records it while keeping rows, pagination, search and selection; without a link nothing happens. Built on the fetch as written; the button renders only when no error shows (lines 128-165) |
| CampaignDiscover.HandlePrevPage | src/pages/campaign/DiscoverPage.jsx:79-83 | the same for the `previous` link, also on the fetch as written |
| CampaignDiscover.NextLinkSetsPage | src/pages/campaign/DiscoverPage.jsx:34-83 | following a `next` link `<base>?page=<n>` lands on page n with the reply's rows, count and links, keeping the search and the selection |
| CampaignDiscover.PageSize | src/pages/campaign/DiscoverPage.jsx:86 | the number of rows shown, or 10 for an empty page; never 0 |
| CampaignDiscover.CeilDivIsLeastCover | src/pages/campaign/DiscoverPage.jsx:86 | the ceiling is the least number of pages of that size that hold every row |
| CampaignDiscover.TotalPages | src/pages/campaign/DiscoverPage.jsx:86 | the pages cover the count and one page fewer would not |
| StaticDiscover.Categories | src/pages/DiscoverPage.jsx:12 | each category name once, exactly the names that occur |
| StaticDiscover.CategoriesInFirstOccurrenceOrder | src/pages/DiscoverPage.jsx:12 | the buttons follow the order of first occurrence |
| StaticDiscover.Filtered | src/pages/DiscoverPage.jsx:15-23 | a subsequence of the rows holding exactly those matching the search and the category |
| StaticDiscover.MatchesSearchIff | src/pages/DiscoverPage.jsx:15-23 | the search accepts a row exactly when the lower-cased term occurs in its lower-cased title or description |
| StaticDiscover.ClearFilters | src/pages/DiscoverPage.jsx:80-83 | both inputs go back to empty |
| StaticDiscover.ClearFiltersShowsAll | src/pages/DiscoverPage.jsx:80-83 | after Clear Filters every campaign is shown |
| StaticDiscover.CategoryButtonShowsItsCampaigns | src/pages/DiscoverPage.jsx:43-60 | a category button shows only that category's campaigns, and at least one |
| CampaignCard.Raised | src/pages/campaign/components/CampaignCard.jsx:9 | a missing or zero donation total counts as 0 |
| CampaignCard.Goal | src/pages/campaign/components/CampaignCard.jsx:10 | a missing or zero goal becomes 1, so the goal is always positive |
| CampaignCard.RoundPercent | src/pages/campaign/components/CampaignCard.jsx:11-14 | `Math.round(raised / goal * 100)`: within half a point of the exact percentage, halves going up |
| CampaignCard.NothingRaisedRoundsToZero | src/pages/campaign/components/CampaignCard.jsx:11-14 | nothing raised rounds to 0 for every goal |
| CampaignCard.RoundPercentFullIff | src/pages/campaign/components/CampaignCard.jsx:11-14 | the rounded percentage reaches 100 exactly when at least 99.5% of the goal is raised |
| CampaignCard.RoundPercentMonotone | src/pages/campaign/components/CampaignCard.jsx:11-14 | raising more never rounds to less |
| CampaignCard.PercentRaised | src/pages/campaign/components/CampaignCard.jsx:11-14 | at most 100; 100 exactly when at least 99.5% of the goal is raised, so always once it is reached; 0 with nothing raised; below 100 it is the nearest percentage |
| CampaignCard.PercentRaisedMonotone | src/pages/campaign/components/CampaignCard.jsx:11-14 | for one goal, more raised never shows a lower percentage |
| CampaignCard.CalculateDaysLeft | src/lib/helpers.js:1-8 | "N/A" exactly without an end date; 0 exactly once the end has passed; otherwise the least number of whole days that reaches the end |
| CampaignCard.CeilDays | src/lib/helpers.js:1-8 | `Math.ceil` of the remaining time in days: the least whole number of days that reaches the end |
| CampaignCard.DaysLeftMonotone | src/pages/campaign/components/CampaignCard.jsx:16-23 | as time passes the days left never go up |
| CampaignCard.WholeDaysShowExactly | src/lib/helpers.js:1-8 | an end exactly n whole days ahead shows n |
| CampaignCard.Backers | src/pages/campaign/components/CampaignCard.jsx:25 | a missing backer count shows 0 |
| CampaignCard.CardFigures | src/pages/campaign/components/CampaignCard.jsx:9-25 | the goal is positive; the percentage is capped at 100 and full once the goal is reached; days left is "N/A" exactly without an end |
| ProfileLists.Initial | src/pages/profile/components/Campaign.jsx:66-71 | nothing loaded, loading set, no error and no next link |
| ProfileLists.InitialUrl | src/pages/profile/components/Donations.jsx:64-69 | the first page is the user's four projects, or the user's four donations |
| ProfileLists.Merge | src/pages/profile/components/Campaign.jsx:46-64 | with rows already seen, the page is appended after the current list; with none, it replaces the list |
| ProfileLists.MergeSequential | src/pages/profile/components/Campaign.jsx:46-64 | without an update in between, every page is appended |
| ProfileLists.Receive | src/pages/profile/components/Donations.jsx:44-62 | loading always ends; success takes the `next` link; failure keeps the rows and link and sets the error |
| ProfileLists.ReceiveAppends | src/pages/profile/components/Campaign.jsx:46-64 | a received page always ends up after the rows already held |
| ProfileLists.Mount | src/pages/profile/components/Campaign.jsx:66-71 | with a user, the first page is fetched; without one, nothing happens |
| ProfileLists.LoadMore | src/pages/profile/components/Campaign.jsx:73-78 | with a truthy next link, it is fetched with loading set; otherwise nothing happens |
| ProfileLists.LoadMoreKeepsRows | src/pages/profile/components/Donations.jsx:71-76 | loading more keeps every row in place and adds the new page after them |
| ProfileLists.Render | src/pages/profile/components/Campaign.jsx:81-117 | the loading notice exactly while loading with no rows; otherwise the rows, with Load More exactly when a next link exists |
| ProfileLists.ErrorNeverRendered | src/pages/profile/components/Donations.jsx:79-116 | two states that differ only in the error look the same |
| ProfileLists.NoUserKeepsLoading | src/pages/profile/components/Campaign.jsx:66-82 | without a user the loading notice stays |
| ProfileLists.FailedFirstFetchShowsEmptyList | src/pages/profile/components/Donations.jsx:44-80 | a failed first fetch shows an empty list without Load More, not the loading notice |
| SinceLabel.DiffInDays | src/pages/profile/components/Campaign.jsx:14-18 | the whole days elapsed, rounded down |
| SinceLabel.SinceAsWritten | src/pages/profile/components/Campaign.jsx:14-36 | days under 7, weeks under 28 days, months under 12 calendar months, years after that; each unit chosen exactly in its range; the number is the whole days, the whole weeks, the calendar-month difference or the calendar-year difference |
| SinceLabel.ZeroMonthsAsWritten | src/pages/profile/components/Campaign.jsx:25-33 | a moment four weeks old in the same calendar month reads "0 months ago" |
| SinceLabel.Since | src/pages/profile/components/Campaign.jsx:14-36 | the corrected label, which neither Campaign.jsx nor Donations.jsx has (Donations.jsx:28-31 repeats the zero-months code): the same unit, counting at least one month in the months bucket; days, weeks and years counted as written |
| SinceLabel.SinceRangesAsWritten | src/pages/profile/components/Campaign.jsx:14-36 | days 0 to 6, weeks 1 to 3, months 0 to 11, years at least 1: the months bucket can say 0 |
| SinceLabel.SinceRanges | src/pages/profile/components/Campaign.jsx:14-36 | with the correction, every label past the days bucket counts at least one; neither file has it |
| SinceLabel.Text | src/pages/profile/components/Campaign.jsx:20-35 | the label begins with the number |
| SinceLabel.TextPluralIff | src/pages/profile/components/Campaign.jsx:20-35 | the unit is plural exactly when the number is not one |
| SinceLabel.TextNumberRoundTrip | src/pages/profile/components/Donations.jsx:19-34 | the number at the head of the label reads back as the count |

## Left out

- Network, HTTP and the browser. Every call to the server becomes a parameter: the reply it produced, or the failure. Toasts, navigation side effects, blob URLs and DOM attributes such as `accept` or `maxLength` are not modelled.
- JWT decoding is a parameter (`decodeUserId`). A token either decodes to a user id or does not.
- Time. The clock is a parameter, and dates are epoch milliseconds. Parsing date strings, time zones, and `setHours(0, 0, 0, 0)` are left out: the validator receives "today" as the start of the local day. The calendar year and month of an instant are inputs to `SinceLabel`.
- Floating point. `Number`, divisions and `Math.round`/`Math.ceil` are computed exactly, on rationals or integers. Results that differ only by binary rounding are not modelled.
- Validation.TargetError: `Number` is modelled for decimal text with an optional sign and fraction. Exponents, hex, `Infinity`, and the JavaScript whitespace set beyond the one `trim` models are not.
- `toLowerCase` is ASCII-only. String lengths count code units of the Dafny string, not UTF-16.
- `null` and `undefined` are one `None` wherever the source treats them alike. Explicit `errors.x = undefined` is key removal.
- Some wizard handlers are not modelled, although they also write `errors`. `handleBlur` (lines 98-105) re-runs the validator and copies the blurred field's entry. `handleCategoryChange` (lines 43-50) copies the category entry. `handleThumbnailChange` (lines 108-120) clears the thumbnail entry. `removeThumbnail` (lines 123-133) sets "Thumbnail is required" once the thumbnail was touched. The `touched` map is left out with them. `handleInputChange` (lines 37-41) only copies the input into the draft. The create page's request body is not modelled either.
- EditProfile.CheckWith: the `facebook_profile` URL rule is not modelled. Only the patterns, the required fields and the birthdate rule are. In the source, the prefilled `""` for a user without a Facebook link fails `.url()` just as the blank birthdate fails its pattern; the model does not show that second case.
- UpdateProject.HandleChange requires the input's name to be one the page renders. The page only ever passes those names.
- Dashboard totals are numbers. A `total_donations` sent as a string would be concatenated by `+` in the source; that is not modelled.
- CampaignDiscover categories are compared by object identity. Each category object is a reference number. A parsed JSON reply gives every row its own category object. So for object categories, `new Set` removes nothing, and each row that has a category gets its own button. Sharing a reference number between rows models objects the reply does not actually share.
- ProfileLists.Merge: React's deferred application of updaters is modelled only by passing the closed-over list and the current one separately. Interleaving of two fetches is not modelled.
- Rendering beyond what each `Render` function returns: markup, styles and the card image placeholder.
- `parseInt` of a page number is exact for any number of digits. JavaScript loses precision past 2^53.
- ProfileLists: the error the fetch stores is never displayed (`ErrorNeverRendered`). The model keeps it, but no view shows it.

## Findings

| source | as written | input that shows it | evidently intended | confidence | as-written member | corrected member |
|---|---|---|---|---|---|---|
| src/pages/profile/EditProfile.jsx:20-53 | the prefill writes `""` for a missing birthdate, and the optional date rule rejects `""` | a user with no birthdate, a valid name and mobile and a Facebook URL opens the editor and saves; a user with no `facebook_profile` hits the same defect on line 21, since `.url()` also rejects `""` | a blank birthdate counts as not given | high, not executed | EditProfile.NoBirthdateBlocksSubmitAsWritten | EditProfile.CorrectedAcceptsPrefilledBlank |
| src/pages/admin/components/UpdateProjectForm.jsx:150-153 | the preview index is also used as an index into the new files, but the previews start with the server images | one server image and one new file; removing preview 0 (the server image) drops the new file, whose preview stays on screen | remove the new file at index i minus the number of server images, and only when i is past them | high, not executed | UpdateProject.RemoveImageAsWrittenDropsWrongFile | UpdateProject.RemoveImageDropsClickedFile |
| src/pages/campaign/DiscoverPage.jsx:21-47 | a successful fetch never clears `error` | a first fetch fails, then Try Again (line 131, the only control the error screen offers) succeeds: the error screen stays | clear the error when a fetch succeeds | high, not executed | CampaignDiscover.RetryStillShowsErrorAsWritten | CampaignDiscover.SuccessLeavesErrorView |
| src/pages/profile/components/Campaign.jsx:25-33 | 28 days or more in the same calendar month falls into the months bucket with a count of 0 | created 1 February 2024, now 29 February 2024 | "1 month ago" | medium, not executed | SinceLabel.ZeroMonthsAsWritten | SinceLabel.SinceRanges |

=== FILE: AuthApi.dfy ===
/**
  The authentication client (`src/lib/auth.js`): the request interceptor that
  attaches the stored access token, and the effects of `login`,
  `refreshToken`, `logout`, `activateAccount` and `resendActivation` on the
  tab's session storage and on the error values they rethrow.

  The HTTP calls themselves are not modelled: each operation receives the
  server's reply as an argument.
*/
module AuthApi {
  import opened Common

  /** `sessionStorage`: string keys to string values. */
  type Storage = map<string, string>

  const AccessKey: string := "accessToken"
  const RefreshKey: string := "refreshToken"
  /** The key the client's `logout` removes (no other code writes it). */
  const LegacyTokenKey: string := "token"
  const AuthorizationHeader: string := "Authorization"

  /** `sessionStorage.getItem(key)`: `null` when the key is absent. */
  function GetItem(st: Storage, key: string): Option<string> {
    if key in st then Some(st[key]) else None
  }

  /** A JSON value as the server sends it in a reply body. */
  datatype Json =
    | JNull
    | JBool(b: bool)
    | JNum(n: int)
    | JStr(s: string)
    | JArr(items: seq<Json>)
    | JObj(fields: map<string, Json>)

  /** JavaScript truthiness of a decoded JSON value (objects and arrays are always truthy). */
  predicate JsonTruthy(j: Json) {
    match j
    case JNull => false
    case JBool(b) => b
    case JNum(n) => n != 0
    case JStr(s) => s != ""
    case JArr(_) => true
    case JObj(_) => true
  }

  /** An object with the single field `detail`. */
  function DetailObject(message: string): Json {
    JObj(map["detail" := JStr(message)])
  }

  /** `error.response?.data || { detail: fallback }`: the value a failed call rethrows. */
  function ErrorBodyOr(data: Option<Json>, fallback: string): (r: Json)
    ensures data.Some? && JsonTruthy(data.value) ==> r == data.value
    ensures !(data.Some? && JsonTruthy(data.value)) ==> r == DetailObject(fallback)
    ensures JsonTruthy(r)
  {
    if data.Some? && JsonTruthy(data.value) then data.value else DetailObject(fallback)
  }

  // ---------------------------------------------------------------------------
  // Request interceptor
  // ---------------------------------------------------------------------------

  datatype RequestConfig = RequestConfig(url: string, headers: map<string, string>)

  /** The request interceptor: a truthy stored access token becomes a bearer header. */
  function Intercept(st: Storage, config: RequestConfig): (r: RequestConfig)
    ensures r.url == config.url
    ensures forall h :: h in config.headers && h != AuthorizationHeader ==>
      h in r.headers && r.headers[h] == config.headers[h]
    ensures Truthy(GetItem(st, AccessKey)) ==>
      r.headers.Keys == config.headers.Keys + {AuthorizationHeader}
      && r.headers[AuthorizationHeader] == "Bearer " + st[AccessKey]
    ensures !Truthy(GetItem(st, AccessKey)) ==> r == config
  {
    match GetItem(st, AccessKey)
    case Some(token) =>
      if token != "" then config.(headers := config.headers[AuthorizationHeader := "Bearer " + token])
      else config
    case None => config
  }

  /** The header the interceptor attaches carries exactly the stored token after the `Bearer ` prefix. */
  lemma InterceptCarriesStoredToken(st: Storage, config: RequestConfig)
    requires Truthy(GetItem(st, AccessKey))
    ensures var h := Intercept(st, config).headers[AuthorizationHeader];
      |h| > 7 && h[..7] == "Bearer " && h[7..] == GetItem(st, AccessKey).value
  {
  }

  // ---------------------------------------------------------------------------
  // Token storage
  // ---------------------------------------------------------------------------

  /** The `{ access, refresh }` pair returned by the token endpoints. */
  datatype TokenPair = TokenPair(access: string, refresh: string)

  /** Writes both tokens of a reply under their storage keys. */
  function StoreTokens(st: Storage, pair: TokenPair): (r: Storage)
    ensures GetItem(r, AccessKey) == Some(pair.access)
    ensures GetItem(r, RefreshKey) == Some(pair.refresh)
    ensures r.Keys == st.Keys + {AccessKey, RefreshKey}
    ensures forall k :: k in st && k != AccessKey && k != RefreshKey ==> r[k] == st[k]
  {
    st[AccessKey := pair.access][RefreshKey := pair.refresh]
  }

  /** Writing the same pair twice leaves the same storage as writing it once. */
  lemma StoreTokensIdempotent(st: Storage, pair: TokenPair)
    ensures StoreTokens(StoreTokens(st, pair), pair) == StoreTokens(st, pair)
  {
  }

  /** `login`: after a successful `jwt/create` reply, storage holds the reply's tokens. */
  function Login(st: Storage, reply: TokenPair): (r: Storage)
    ensures GetItem(r, AccessKey) == Some(reply.access)
    ensures GetItem(r, RefreshKey) == Some(reply.refresh)
  {
    StoreTokens(st, reply)
  }

  /** The body field `refresh` that `refreshToken` sends: the stored refresh token, or `null`. */
  function RefreshRequest(st: Storage): (refresh: Option<string>)
    ensures refresh.Some? <==> RefreshKey in st
    ensures refresh.Some? ==> refresh.value == st[RefreshKey]
  {
    GetItem(st, RefreshKey)
  }

  /** `refreshToken`: both stored tokens are overwritten with the `jwt/refresh` reply. */
  function RefreshToken(st: Storage, reply: TokenPair): (r: Storage)
    ensures GetItem(r, AccessKey) == Some(reply.access)
    ensures GetItem(r, RefreshKey) == Some(reply.refresh)
    ensures forall k :: k in st && k != AccessKey && k != RefreshKey ==> k in r && r[k] == st[k]
  {
    StoreTokens(st, reply)
  }

  /** Storage and the axios default headers, the two things the client's `logout` touches. */
  datatype ClientState = ClientState(storage: Storage, defaultHeaders: map<string, string>)

  /** `logout` of the client: removes only the `token` key and the default `Authorization` header. */
  function Logout(c: ClientState): (r: ClientState)
    ensures LegacyTokenKey !in r.storage
    ensures AuthorizationHeader !in r.defaultHeaders
    ensures forall k :: k in c.storage && k != LegacyTokenKey ==> k in r.storage && r.storage[k] == c.storage[k]
    ensures forall h :: h in c.defaultHeaders && h != AuthorizationHeader ==>
      h in r.defaultHeaders && r.defaultHeaders[h] == c.defaultHeaders[h]
    ensures r.storage.Keys <= c.storage.Keys && r.defaultHeaders.Keys <= c.defaultHeaders.Keys
  {
    ClientState(c.storage - {LegacyTokenKey}, c.defaultHeaders - {AuthorizationHeader})
  }

  /** The client's `logout` leaves both session tokens in storage: the interceptor still sends the old bearer. */
  lemma LogoutKeepsSessionTokens(c: ClientState, config: RequestConfig)
    ensures GetItem(Logout(c).storage, AccessKey) == GetItem(c.storage, AccessKey)
    ensures GetItem(Logout(c).storage, RefreshKey) == GetItem(c.storage, RefreshKey)
    ensures Intercept(Logout(c).storage, config) == Intercept(c.storage, config)
  {
    assert AccessKey != LegacyTokenKey;
    assert RefreshKey != LegacyTokenKey;
  }

  // ---------------------------------------------------------------------------
  // Account activation
  // ---------------------------------------------------------------------------

  /** What a call to the server produced: the reply body, or a failure carrying `error.response?.data`. */
  datatype Reply = Ok(body: Json) | Failed(errorData: Option<Json>)

  /** `activateAccount`: resolves with the reply body, or rethrows the server's error body or a default detail. */
  function ActivateAccount(reply: Reply): (r: Result<Json, Json>)
    ensures reply.Ok? <==> r.Success?
    ensures reply.Ok? ==> r.value == reply.body
    ensures reply.Failed? ==> JsonTruthy(r.error)
    ensures reply.Failed? && (reply.errorData.None? || !JsonTruthy(reply.errorData.value)) ==>
      r.error == DetailObject("Activation failed")
    ensures reply.Failed? && reply.errorData.Some? && JsonTruthy(reply.errorData.value) ==> r.error == reply.errorData.value
  {
    match reply
    case Ok(body) => Success(body)
    case Failed(data) => Failure(ErrorBodyOr(data, "Activation failed"))
  }

  /** `resendActivation`: like activation, with its own default detail. */
  function ResendActivation(reply: Reply): (r: Result<Json, Json>)
    ensures reply.Ok? <==> r.Success?
    ensures reply.Ok? ==> r.value == reply.body
    ensures reply.Failed? ==> JsonTruthy(r.error)
    ensures reply.Failed? && (reply.errorData.None? || !JsonTruthy(reply.errorData.value)) ==>
      r.error == DetailObject("Failed to resend activation email")
    ensures reply.Failed? && reply.errorData.Some? && JsonTruthy(reply.errorData.value) ==> r.error == reply.errorData.value
  {
    match reply
    case Ok(body) => Success(body)
    case Failed(data) => Failure(ErrorBodyOr(data, "Failed to resend activation email"))
  }
}

=== FILE: AuthGuard.dfy ===
/**
  The two route guards (`src/components/auth/AuthGuard.jsx`) as pure
  decisions. Each guard renders either its children or nothing, and its
  effect navigates to a fixed path in the state where it renders nothing.
*/
module AuthGuard {
  import opened Common
  import AuthSlice

  /** What a guard renders. */
  datatype View = Children | Nothing

  /** A guard's decision: what it renders and where its effect navigates, if anywhere. */
  datatype Decision = Decision(view: View, navigateTo: Option<string>)

  const DashboardPath: string := "/dashboard"
  const LoginPath: string := "/login"

  /** A guard never both renders its children and navigates away. */
  predicate NoFlash(d: Decision) {
    d.view == Children <==> d.navigateTo.None?
  }

  /** `RedirectIfAuthenticated`: the login and registration pages are for anonymous visitors only. */
  function RedirectIfAuthenticated(isAuthenticated: bool): (d: Decision)
    ensures d.view == Children <==> !isAuthenticated
    ensures d.navigateTo.Some? <==> isAuthenticated
    ensures d.navigateTo.Some? ==> d.navigateTo.value == DashboardPath
    ensures NoFlash(d)
  {
    if isAuthenticated then Decision(Nothing, Some(DashboardPath)) else Decision(Children, None)
  }

  /** `RedirectIfNotAuthenticated`: protected pages need an authenticated session. */
  function RedirectIfNotAuthenticated(isAuthenticated: bool): (d: Decision)
    ensures d.view == Children <==> isAuthenticated
    ensures d.navigateTo.Some? <==> !isAuthenticated
    ensures d.navigateTo.Some? ==> d.navigateTo.value == LoginPath
    ensures NoFlash(d)
  {
    if isAuthenticated then Decision(Children, None) else Decision(Nothing, Some(LoginPath))
  }

  /** For every session exactly one of the two guards renders its children. */
  lemma ExactlyOneGuardRenders(isAuthenticated: bool)
    ensures (RedirectIfAuthenticated(isAuthenticated).view == Children)
        != (RedirectIfNotAuthenticated(isAuthenticated).view == Children)
  {
  }

  /** After logout every protected page sends the visitor to the login page. */
  lemma {:induction false} LogoutLocksProtectedPages(sess: AuthSlice.Session)
    ensures var s := AuthSlice.RunLogout(sess);
      RedirectIfNotAuthenticated(AuthSlice.IsAuthenticated(s.state)) == Decision(Nothing, Some(LoginPath))
      && RedirectIfAuthenticated(AuthSlice.IsAuthenticated(s.state)) == Decision(Children, None)
  {
    AuthSlice.LogoutEndsSession(sess);
  }
}

=== FILE: AuthSlice.dfy ===
/**
  The Redux auth slice (`src/store/auth.js`): the state record, the reducer
  cases for the four async thunks and `resetError`, the selector
  `selectIsAuthenticated`, and the thunks' own effects on session storage.

  A `Session` pairs the slice state with the tab's session storage, because
  two places write storage: the `login` thunk and the `logout.fulfilled`
  reducer case. The server's replies and the token decoder are arguments.
*/
module AuthSlice {
  import opened Common
  import opened AuthApi

  /** `state.tokens`: each token may be `null`. */
  datatype Tokens = Tokens(access: Option<string>, refresh: Option<string>)

  /** `state.auth`. */
  datatype AuthState = AuthState(
    user: Option<Json>,
    tokens: Tokens,
    isLoading: bool,
    error: Option<Json>,
    registrationSuccess: bool)

  /** The slice state together with the tab's session storage. */
  datatype Session = Session(state: AuthState, storage: Storage)

  /** The actions the slice handles; rejected payloads are `undefined` when `None`. */
  datatype Action =
    | LoginPending
    | LoginFulfilled(tokens: TokenPair, loggedIn: Json)
    | LoginRejected(loginReason: Option<Json>)
    | RegisterPending
    | RegisterFulfilled
    | RegisterRejected(registerReason: Option<Json>)
    | LogoutPending
    | LogoutFulfilled
    | LogoutRejected(logoutReason: Option<Json>)
    | FetchUserPending
    | FetchUserFulfilled(current: Json)
    | FetchUserRejected(fetchReason: Option<Json>)
    | ResetError

  predicate IsPending(a: Action) {
    a.LoginPending? || a.RegisterPending? || a.LogoutPending? || a.FetchUserPending?
  }

  /** `initialState`: both tokens read from storage, nobody logged in, nothing loading. */
  function InitialState(st: Storage): (r: AuthState)
    ensures MirrorsStorage(Session(r, st))
    ensures r.user.None? && !r.isLoading && r.error.None? && !r.registrationSuccess
  {
    AuthState(None, Tokens(GetItem(st, AccessKey), GetItem(st, RefreshKey)), false, None, false)
  }

  function InitialSession(st: Storage): Session {
    Session(InitialState(st), st)
  }

  /** `selectIsAuthenticated`: `Boolean(state.auth.tokens.access)`. */
  function IsAuthenticated(s: AuthState): (b: bool)
    ensures b <==> s.tokens.access.Some? && s.tokens.access.value != ""
  {
    Truthy(s.tokens.access)
  }

  /** The slice state's tokens are exactly the tokens in storage. */
  predicate MirrorsStorage(sess: Session) {
    && sess.state.tokens.access == GetItem(sess.storage, AccessKey)
    && sess.state.tokens.refresh == GetItem(sess.storage, RefreshKey)
  }

  /** The reducer, including the storage removal in `logout.fulfilled`. */
  function Reduce(sess: Session, a: Action): (r: Session)
    // Only a finished logout touches storage, and it removes exactly the two token keys.
    ensures !a.LogoutFulfilled? ==> r.storage == sess.storage
    ensures a.LogoutFulfilled? ==>
      && AccessKey !in r.storage && RefreshKey !in r.storage && MirrorsStorage(r)
      && forall k :: k in sess.storage && k != AccessKey && k != RefreshKey ==> k in r.storage && r.storage[k] == sess.storage[k]
    // Pending actions start loading; every settled action stops it; `resetError` leaves it.
    ensures r.state.isLoading <==> IsPending(a) || (a.ResetError? && sess.state.isLoading)
    // A rejection stores its reason; every other action but `fetchUser.fulfilled` clears the error.
    ensures a.LoginRejected? ==> r.state.error == a.loginReason
    ensures a.RegisterRejected? ==> r.state.error == a.registerReason
    ensures a.LogoutRejected? ==> r.state.error == a.logoutReason
    ensures a.FetchUserRejected? ==> r.state.error == a.fetchReason
    ensures a.FetchUserFulfilled? ==> r.state.error == sess.state.error
    ensures IsPending(a) || a.ResetError? || a.LoginFulfilled? || a.RegisterFulfilled? || a.LogoutFulfilled? ==> r.state.error.None?
    // The user and the tokens change only on login, logout and `fetchUser.fulfilled`.
    ensures r.state.user != sess.state.user ==> a.LoginFulfilled? || a.LogoutFulfilled? || a.FetchUserFulfilled?
    ensures r.state.tokens != sess.state.tokens ==> a.LoginFulfilled? || a.LogoutFulfilled?
    ensures a.LogoutFulfilled? ==> r.state.user.None? && !IsAuthenticated(r.state)
    ensures a.LoginFulfilled? ==> r.state.user == Some(a.loggedIn) && r.state.tokens.access == Some(a.tokens.access)
    ensures a.FetchUserFulfilled? ==> r.state.user == Some(a.current) && r.state.tokens == sess.state.tokens
    // `registrationSuccess` is latched by a successful registration and never reset.
    ensures r.state.registrationSuccess <==> sess.state.registrationSuccess || a.RegisterFulfilled?
  {
    var s := sess.state;
    match a
    case ResetError => sess.(state := s.(error := None))
    case LoginPending => sess.(state := s.(isLoading := true, error := None))
    case LoginFulfilled(pair, u) =>
      sess.(state := s.(isLoading := false, user := Some(u),
                        tokens := Tokens(Some(pair.access), Some(pair.refresh)), error := None))
    case LoginRejected(reason) => sess.(state := s.(isLoading := false, error := reason))
    case RegisterPending => sess.(state := s.(isLoading := true, error := None))
    case RegisterFulfilled => sess.(state := s.(isLoading := false, registrationSuccess := true, error := None))
    case RegisterRejected(reason) => sess.(state := s.(isLoading := false, error := reason))
    case LogoutPending => sess.(state := s.(isLoading := true, error := None))
    case LogoutFulfilled =>
      Session(s.(isLoading := false, user := None, tokens := Tokens(None, None), error := None),
              sess.storage - {AccessKey, RefreshKey})
    case LogoutRejected(reason) => sess.(state := s.(isLoading := false, error := reason))
    case FetchUserPending => sess.(state := s.(isLoading := true, error := None))
    case FetchUserFulfilled(u) => sess.(state := s.(isLoading := false, user := Some(u)))
    case FetchUserRejected(reason) => sess.(state := s.(isLoading := false, error := reason))
  }

  // ---------------------------------------------------------------------------
  // Thunks: what each async action does before it settles
  // ---------------------------------------------------------------------------

  /** The reply to `jwt/create`: tokens, a refusal with `error.response.data.detail`, or no response at all. */
  datatype LoginReply = Granted(pair: TokenPair) | Refused(detail: Option<Json>) | NoResponse

  /**
    The `login` thunk: the client stores the tokens, the thunk stores them
    again and decodes the user id from the access token. `decodeUserId`
    stands for `JSON.parse(atob(access.split('.')[1])).user_id`; `None` is a
    token it cannot decode, which throws after the tokens were stored and
    rejects with an `undefined` payload (the `catch` block itself throws on
    `error.response.data`). A missing response rejects the same way.
  */
  function LoginThunk(st: Storage, reply: LoginReply, decodeUserId: string -> Option<Json>): (r: (Storage, Action))
    ensures r.1.LoginFulfilled? || r.1.LoginRejected?
    ensures r.1.LoginFulfilled? <==> reply.Granted? && decodeUserId(reply.pair.access).Some?
    ensures reply.Granted? ==> r.0 == StoreTokens(st, reply.pair)
    ensures !reply.Granted? ==> r.0 == st
  {
    match reply
    case Granted(pair) =>
      var st' := StoreTokens(Login(st, pair), pair);
      var id := decodeUserId(pair.access);
      if id.Some? then (st', LoginFulfilled(pair, JObj(map["id" := id.value])))
      else (st', LoginRejected(None))
    case Refused(detail) => (st, LoginRejected(detail))
    case NoResponse => (st, LoginRejected(None))
  }

  /** The reply to the registration call. */
  datatype RegisterReply = Registered(created: Json) | RegistrationFailed(errorData: Option<Json>)

  /** The `register` thunk: rejects with the server's error body, or with a default detail. */
  function RegisterThunk(reply: RegisterReply): (a: Action)
    ensures a.RegisterFulfilled? <==> reply.Registered?
    ensures a.RegisterRejected? <==> reply.RegistrationFailed?
    ensures a.RegisterRejected? ==> a.registerReason.Some? && JsonTruthy(a.registerReason.value)
  {
    match reply
    case Registered(_) => RegisterFulfilled
    case RegistrationFailed(data) =>
      RegisterRejected(Some(ErrorBodyOr(data, "Registration failed. Please try again.")))
  }

  /**
    The `logout` thunk: the client's `logout` only removes the `token` key
    and cannot throw, so the thunk always fulfils.
  */
  function LogoutThunk(st: Storage): (r: (Storage, Action))
    ensures r.1 == LogoutFulfilled
    ensures LegacyTokenKey !in r.0
    ensures forall k :: k in st && k != LegacyTokenKey ==> k in r.0 && r.0[k] == st[k]
  {
    (Logout(ClientState(st, map[])).storage, LogoutFulfilled)
  }

  /** The reply to `users/me`: the user, or the error's `message`. */
  datatype UserReply = CurrentUser(me: Json) | UserFailed(message: Json)

  function FetchUserThunk(reply: UserReply): (a: Action)
    ensures a.FetchUserFulfilled? <==> reply.CurrentUser?
    ensures a.FetchUserFulfilled? ==> a.current == reply.me
  {
    match reply
    case CurrentUser(me) => FetchUserFulfilled(me)
    case UserFailed(message) => FetchUserRejected(Some(message))
  }

  // ---------------------------------------------------------------------------
  // Dispatching a thunk: pending, the thunk body, then the settled action
  // ---------------------------------------------------------------------------

  function RunLogin(sess: Session, reply: LoginReply, decodeUserId: string -> Option<Json>): Session {
    var s1 := Reduce(sess, LoginPending);
    var (st, settled) := LoginThunk(s1.storage, reply, decodeUserId);
    Reduce(s1.(storage := st), settled)
  }

  function RunRegister(sess: Session, reply: RegisterReply): Session {
    Reduce(Reduce(sess, RegisterPending), RegisterThunk(reply))
  }

  function RunLogout(sess: Session): Session {
    var s1 := Reduce(sess, LogoutPending);
    var (st, settled) := LogoutThunk(s1.storage);
    Reduce(s1.(storage := st), settled)
  }

  function RunFetchUser(sess: Session, reply: UserReply): Session {
    Reduce(Reduce(sess, FetchUserPending), FetchUserThunk(reply))
  }

  // ---------------------------------------------------------------------------
  // Properties
  // ---------------------------------------------------------------------------

  /** The initial state mirrors storage: authenticated exactly when a non-empty access token is stored. */
  lemma InitialStateFromStorage(st: Storage)
    ensures MirrorsStorage(InitialSession(st))
    ensures InitialState(st).user.None? && !InitialState(st).isLoading && InitialState(st).error.None?
    ensures !InitialState(st).registrationSuccess
    ensures IsAuthenticated(InitialState(st)) <==> AccessKey in st && st[AccessKey] != ""
  {
  }

  /** Every pending case sets `isLoading`, clears `error`, and changes nothing else. */
  lemma PendingOnlyStartsLoading(sess: Session, a: Action)
    requires IsPending(a)
    ensures Reduce(sess, a).state == sess.state.(isLoading := true, error := None)
    ensures Reduce(sess, a).storage == sess.storage
  {
  }

  /** `resetError` clears the error and nothing else. */
  lemma ResetErrorOnlyClearsError(sess: Session)
    ensures Reduce(sess, ResetError).state == sess.state.(error := None)
    ensures Reduce(sess, ResetError).storage == sess.storage
  {
  }

  /** Every case other than the three that write the session leaves `user` and `tokens` alone. */
  lemma OnlyLoginLogoutAndFetchTouchUser(sess: Session, a: Action)
    requires !a.LoginFulfilled? && !a.LogoutFulfilled? && !a.FetchUserFulfilled?
    ensures Reduce(sess, a).state.user == sess.state.user
    ensures Reduce(sess, a).state.tokens == sess.state.tokens
    ensures Reduce(sess, a).storage == sess.storage
    ensures IsAuthenticated(Reduce(sess, a).state) == IsAuthenticated(sess.state)
  {
  }

  /** A granted, decodable login writes both tokens to storage and into the state, and clears the error. */
  lemma {:induction false} LoginSuccess(sess: Session, pair: TokenPair, decodeUserId: string -> Option<Json>)
    requires decodeUserId(pair.access).Some?
    ensures var s := RunLogin(sess, Granted(pair), decodeUserId);
      && GetItem(s.storage, AccessKey) == Some(pair.access)
      && GetItem(s.storage, RefreshKey) == Some(pair.refresh)
      && s.state.tokens == Tokens(Some(pair.access), Some(pair.refresh))
      && s.state.user == Some(JObj(map["id" := decodeUserId(pair.access).value]))
      && s.state.error.None? && !s.state.isLoading
      && MirrorsStorage(s)
      && (IsAuthenticated(s.state) <==> pair.access != "")
  {
    var s1 := Reduce(sess, LoginPending);
    var r := LoginThunk(s1.storage, Granted(pair), decodeUserId);
    assert r.1 == LoginFulfilled(pair, JObj(map["id" := decodeUserId(pair.access).value]));
  }

  /** A refused login records the reason and keeps `user`, `tokens` and storage as they were. */
  lemma LoginRefusedKeepsSession(sess: Session, detail: Option<Json>, decodeUserId: string -> Option<Json>)
    ensures var s := RunLogin(sess, Refused(detail), decodeUserId);
      && s.state.error == detail && !s.state.isLoading
      && s.state.user == sess.state.user && s.state.tokens == sess.state.tokens
      && s.storage == sess.storage
  {
  }

  /**
    A token the decoder rejects still reaches storage, but not the state:
    storage and state disagree afterwards whenever the stored token was different.
  */
  lemma {:induction false} UndecodableTokenSplitsSession(sess: Session, pair: TokenPair, decodeUserId: string -> Option<Json>)
    requires decodeUserId(pair.access).None?
    requires sess.state.tokens.access != Some(pair.access)
    ensures var s := RunLogin(sess, Granted(pair), decodeUserId);
      && GetItem(s.storage, AccessKey) == Some(pair.access)
      && s.state.tokens == sess.state.tokens
      && !MirrorsStorage(s)
  {
    var s1 := Reduce(sess, LoginPending);
    var r := LoginThunk(s1.storage, Granted(pair), decodeUserId);
    assert r.1 == LoginRejected(None);
  }

  /** Neither register case touches `user`, `tokens` or storage; only success sets `registrationSuccess`. */
  lemma RegisterLeavesSession(sess: Session, reply: RegisterReply)
    ensures var s := RunRegister(sess, reply);
      && s.state.user == sess.state.user && s.state.tokens == sess.state.tokens
      && s.storage == sess.storage
      && (reply.Registered? ==> s.state.registrationSuccess && s.state.error.None?)
      && (reply.RegistrationFailed? ==> s.state.registrationSuccess == sess.state.registrationSuccess
                                         && s.state.error.Some?)
  {
  }

  /** Logout always succeeds: user and tokens are cleared, all three token keys leave storage, and the selector turns false. */
  lemma {:induction false} LogoutEndsSession(sess: Session)
    ensures var s := RunLogout(sess);
      && s.state.user.None? && s.state.tokens == Tokens(None, None)
      && s.state.error.None? && !s.state.isLoading
      && AccessKey !in s.storage && RefreshKey !in s.storage && LegacyTokenKey !in s.storage
      && !IsAuthenticated(s.state)
      && MirrorsStorage(s)
      && s.state.registrationSuccess == sess.state.registrationSuccess
  {
    var s1 := Reduce(sess, LogoutPending);
    var r := LogoutThunk(s1.storage);
    assert r.1 == LogoutFulfilled;
  }

  /** Logging out twice ends in the same session as logging out once. */
  lemma {:induction false} LogoutIdempotent(sess: Session)
    ensures RunLogout(RunLogout(sess)) == RunLogout(sess)
  {
    var once := RunLogout(sess);
    LogoutEndsSession(sess);
    LogoutEndsSession(once);
    var twice := RunLogout(once);
    assert twice.storage == once.storage;
  }

  /** A rejected logout or user fetch keeps the session: if it was authenticated, it still is. */
  lemma FailuresKeepAuthentication(sess: Session, reason: Option<Json>, message: Json)
    ensures var s := Reduce(Reduce(sess, LogoutPending), LogoutRejected(reason));
      s.state.user == sess.state.user && s.state.tokens == sess.state.tokens && s.storage == sess.storage
      && IsAuthenticated(s.state) == IsAuthenticated(sess.state)
    ensures var s := RunFetchUser(sess, UserFailed(message));
      s.state.user == sess.state.user && s.state.tokens == sess.state.tokens && s.storage == sess.storage
      && IsAuthenticated(s.state) == IsAuthenticated(sess.state)
  {
  }

  /** The selector depends on the access token only, never on `user`. */
  lemma SelectorIgnoresUser(s: AuthState, u: Option<Json>)
    ensures IsAuthenticated(s.(user := u)) == IsAuthenticated(s)
    ensures IsAuthenticated(s) <==> s.tokens.access.Some? && s.tokens.access.value != ""
  {
  }

  /** Every dispatched thunk keeps state and storage in agreement when they agreed before. */
  lemma {:induction false} FlowsPreserveMirror(sess: Session, login: LoginReply, decodeUserId: string -> Option<Json>,
                                               reg: RegisterReply, user: UserReply)
    requires MirrorsStorage(sess)
    requires login.Granted? ==> decodeUserId(login.pair.access).Some?
    ensures MirrorsStorage(RunLogin(sess, login, decodeUserId))
    ensures MirrorsStorage(RunRegister(sess, reg))
    ensures MirrorsStorage(RunLogout(sess))
    ensures MirrorsStorage(RunFetchUser(sess, user))
  {
    LoginKeepsMirror(sess, login, decodeUserId);
    RegisterLeavesSession(sess, reg);
    LogoutEndsSession(sess);
    FetchUserKeepsTokens(sess, user);
  }

  lemma LoginKeepsMirror(sess: Session, login: LoginReply, decodeUserId: string -> Option<Json>)
    requires MirrorsStorage(sess)
    requires login.Granted? ==> decodeUserId(login.pair.access).Some?
    ensures MirrorsStorage(RunLogin(sess, login, decodeUserId))
  {
    match login
    case Granted(pair) => LoginSuccess(sess, pair, decodeUserId);
    case Refused(detail) => LoginRefusedKeepsSession(sess, detail, decodeUserId);
    case NoResponse =>
  }

  lemma FetchUserKeepsTokens(sess: Session, reply: UserReply)
    ensures var s := RunFetchUser(sess, reply);
      s.state.tokens == sess.state.tokens && s.storage == sess.storage
  {
  }

  /** The client's `refreshToken` rewrites storage behind the slice's back, breaking the agreement. */
  lemma RefreshBreaksMirror(sess: Session, reply: TokenPair)
    requires MirrorsStorage(sess)
    requires sess.state.tokens.access != Some(reply.access)
    ensures !MirrorsStorage(sess.(storage := RefreshToken(sess.storage, reply)))
  {
  }
}

=== FILE: CampaignCard.dfy ===
/**
  The figures a campaign card shows (`src/pages/campaign/components/CampaignCard.jsx`)
  and the shared days-left helper (`src/lib/helpers.js`, of which the card
  keeps an identical local copy): the percentage of the goal raised, the
  days left before the end date, and the number of backers.

  Amounts are whole numbers of the currency; the floating-point division
  of the source is replaced by exact rational arithmetic, so the percentage
  is `Math.round` of the exact quotient. The clock is a parameter.
*/
module CampaignCard {
  import opened Common

  /** The card's inputs: `None` stands for a missing, null, zero or empty field. */
  datatype CardCampaign = CardCampaign(
    totalDonations: Option<nat>,
    totalTarget: Option<nat>,
    endTime: Option<int>,
    backersCount: Option<nat>)

  /** `campaign.total_donations || 0`. */
  function Raised(c: CardCampaign): (r: nat)
    ensures c.totalDonations.Some? && c.totalDonations.value != 0 ==> r == c.totalDonations.value
    ensures !(c.totalDonations.Some? && c.totalDonations.value != 0) ==> r == 0
  {
    c.totalDonations.GetOr(0)
  }

  /** `campaign.total_target || 1`: a missing or zero goal becomes 1, so the division is defined. */
  function Goal(c: CardCampaign): (g: nat)
    ensures g >= 1
    ensures c.totalTarget.Some? && c.totalTarget.value != 0 ==> g == c.totalTarget.value
  {
    match c.totalTarget
    case None => 1
    case Some(t) => if t == 0 then 1 else t
  }

  // ---------------------------------------------------------------------------
  // percentRaised
  // ---------------------------------------------------------------------------

  /** `Math.round(100 * raised / goal)` on the exact quotient: the nearest integer, halves up. */
  function RoundPercent(raised: nat, goal: nat): (p: nat)
    requires goal >= 1
    ensures Nearest(p, raised, goal)
  {
    var p := (200 * raised + goal) / (2 * goal);
    assert p * (2 * goal) <= 200 * raised + goal < (p + 1) * (2 * goal);
    p
  }

  /** `p` lies within half a point of the exact percentage `100 * raised / goal`, halves going up. */
  predicate Nearest(p: int, raised: int, goal: int) {
    2 * p * goal - goal <= 200 * raised < 2 * p * goal + goal
  }

  /** Rounding respects order: more raised never rounds to less. */
  lemma RoundPercentMonotone(a: nat, b: nat, goal: nat)
    requires goal >= 1 && a <= b
    ensures RoundPercent(a, goal) <= RoundPercent(b, goal)
  {
    var p := RoundPercent(a, goal);
    var q := RoundPercent(b, goal);
    var k := 2 * goal;
    assert p * k <= 200 * a + goal;
    assert 200 * b + goal < (q + 1) * k;
    assert p * k < (q + 1) * k;
    assert p < q + 1 by {
      MulLessCancel(p, q + 1, k);
    }
  }

  lemma MulLessCancel(x: int, y: int, k: int)
    requires k > 0 && x * k < y * k
    ensures x < y
  {
    MulMonotone(y, x, k);
  }

  lemma MulMonotone(x: int, y: int, k: int)
    requires k > 0
    ensures x <= y ==> x * k <= y * k
  {
  }

  /** Reaching the goal rounds to at least 100. */
  lemma GoalReachedRoundsToFull(raised: nat, goal: nat)
    requires goal >= 1 && raised >= goal
    ensures RoundPercent(raised, goal) >= 100
  {
    var n := 200 * raised + goal;
    var k := 2 * goal;
    var q := n / k;
    assert n >= 100 * k;
    assert q * k + n % k == n && n % k < k;
    assert 99 * k < q * k;
    MulLessCancel(99, q, k);
  }

  /** Nothing raised rounds to zero. */
  lemma NothingRaisedRoundsToZero(goal: nat)
    requires goal >= 1
    ensures RoundPercent(0, goal) == 0
  {
    var p := RoundPercent(0, goal);
    assert 2 * p * goal - goal <= 0;
    if p >= 1 {
      MulMonotone(1, p, goal);
    }
  }

  /** The percentage rounds to 100 or more exactly when at least 99.5% of the goal is raised. */
  lemma RoundPercentFullIff(raised: nat, goal: nat)
    requires goal >= 1
    ensures RoundPercent(raised, goal) >= 100 <==> 200 * raised >= 199 * goal
  {
    var p := RoundPercent(raised, goal);
    assert 2 * p * goal - goal <= 200 * raised < 2 * p * goal + goal;
    if p >= 100 {
      MulMonotone(100, p, goal);
    } else {
      MulMonotone(p, 99, goal);
    }
  }

  /** `percentRaised`: the rounded percentage, capped at 100. */
  function PercentRaised(c: CardCampaign): (p: nat)
    ensures p <= 100
    ensures Raised(c) >= Goal(c) ==> p == 100
    ensures Raised(c) == 0 ==> p == 0
    ensures p < 100 ==> Nearest(p, Raised(c), Goal(c))
    ensures p == 100 <==> 200 * Raised(c) >= 199 * Goal(c)
  {
    var a, g := Raised(c), Goal(c);
    var r := RoundPercent(a, g);
    RoundPercentFullIff(a, g);
    if a >= g then GoalReachedRoundsToFull(a, g); 100
    else if r < 100 then (if a == 0 then NothingRaisedRoundsToZero(g); r else r)
    else 100
  }

  /** A card never shows less for a campaign that has raised more towards the same goal. */
  lemma PercentRaisedMonotone(c: CardCampaign, d: CardCampaign)
    requires Goal(c) == Goal(d) && Raised(c) <= Raised(d)
    ensures PercentRaised(c) <= PercentRaised(d)
  {
    RoundPercentMonotone(Raised(c), Raised(d), Goal(c));
  }

  // ---------------------------------------------------------------------------
  // calculateDaysLeft
  // ---------------------------------------------------------------------------

  /** What the days-left helper returns: the string `"N/A"` or a count of days. */
  datatype DaysLeft = NotAvailable | Days(n: nat)

  /** `Math.ceil(ms / DayMs)`: the days needed to cover a span, rounded up. */
  function CeilDays(ms: int): (d: int)
    ensures (d - 1) * DayMs < ms <= d * DayMs
  {
    -((-ms) / DayMs)
  }

  /** `calculateDaysLeft`: `"N/A"` without an end date, otherwise the days to the end rounded up, and 0 once it has passed. */
  function CalculateDaysLeft(endTime: Option<int>, now: int): (r: DaysLeft)
    ensures endTime.None? <==> r.NotAvailable?
    ensures r.Days? ==> (r.n == 0 <==> endTime.value <= now)
    ensures r.Days? && r.n > 0 ==> (r.n - 1) * DayMs < endTime.value - now <= r.n * DayMs
  {
    match endTime
    case None => NotAvailable
    case Some(end) =>
      var d := CeilDays(end - now);
      if d > 0 then Days(d) else Days(0)
  }

  /** As time passes the days left never go up. */
  lemma DaysLeftMonotone(end: int, now: int, later: int)
    requires now <= later
    ensures CalculateDaysLeft(Some(end), later).n <= CalculateDaysLeft(Some(end), now).n
  {
    var a := CalculateDaysLeft(Some(end), now).n;
    var b := CalculateDaysLeft(Some(end), later).n;
    if b > 0 {
      assert end - now <= a * DayMs;
      assert (b - 1) * DayMs < a * DayMs;
    }
  }

  /** An end date exactly `n` whole days ahead shows `n`. */
  lemma WholeDaysShowExactly(now: int, n: nat)
    ensures CalculateDaysLeft(Some(now + n * DayMs), now) == Days(n)
  {
    var r := CalculateDaysLeft(Some(now + n * DayMs), now);
    if n > 0 {
      assert r.n > 0;
      assert (r.n - 1) * DayMs < n * DayMs <= r.n * DayMs;
    }
  }

  // ---------------------------------------------------------------------------
  // The card
  // ---------------------------------------------------------------------------

  /** `campaign.backers_count || 0`. */
  function Backers(c: CardCampaign): (n: nat)
    ensures c.backersCount.None? ==> n == 0
    ensures c.backersCount.Some? ==> n == c.backersCount.value
  {
    c.backersCount.GetOr(0)
  }

  datatype Figures = Figures(raised: nat, goal: nat, percent: nat, daysLeft: DaysLeft, backers: nat)

  /** The numbers one card shows. */
  function CardFigures(c: CardCampaign, now: int): (f: Figures)
    ensures f.goal >= 1 && f.percent <= 100
    ensures f.raised >= f.goal ==> f.percent == 100
    ensures f.daysLeft.NotAvailable? <==> c.endTime.None?
  {
    Figures(Raised(c), Goal(c), PercentRaised(c), CalculateDaysLeft(c.endTime, now), Backers(c))
  }
}

=== FILE: CampaignDiscover.dfy ===
/**
  The paginated discover page (`src/pages/campaign/DiscoverPage.jsx`): the
  fetch of one page of campaigns, the page number read back from the
  request URL, the category buttons built from the loaded rows, the search
  and category filter, the previous/next handlers and the page total.

  The network is a parameter: each fetch is given the `Response` the server
  would send. A campaign's `category` is whatever the server sent; an object
  is compared by reference, so it is modelled as an opaque reference.
*/
module CampaignDiscover {
  import opened Common

  /** `campaign.category`: a falsy value (`null`, missing) or an object, known by its reference. */
  datatype CategoryValue = NoCategory | CategoryObject(ref: nat)

  datatype DiscoverCampaign = DiscoverCampaign(id: int, title: string, details: string, category: CategoryValue)

  /** `selectedCategory`: the initial `''` (the All button) or one of the category objects. */
  datatype Selection = AllCategories | Only(ref: nat)

  // ---------------------------------------------------------------------------
  // getPageNumberFromUrl
  // ---------------------------------------------------------------------------

  const PagePrefix: string := "page="

  /** The literal `page=` starts at `i`. */
  predicate PrefixAt(u: string, i: int) {
    0 <= i && i + 5 <= |u| && u[i..i + 5] == PagePrefix
  }

  /** `/page=(\d+)/` matches at `i`: the literal `page=` followed by at least one digit. */
  predicate PageMatchAt(u: string, i: int) {
    PrefixAt(u, i) && i + 6 <= |u| && IsDigit(u[i + 5])
  }

  /** The leftmost match at or after `from`, as the regular expression search finds it. */
  function FindPage(u: string, from: nat): (r: Option<nat>)
    requires from <= |u|
    decreases |u| - from
    ensures r.Some? ==> from <= r.value && PageMatchAt(u, r.value)
    ensures r.Some? ==> forall j :: from <= j < r.value ==> !PageMatchAt(u, j)
    ensures r.None? ==> forall j :: from <= j ==> !PageMatchAt(u, j)
  {
    if from + 6 > |u| then None
    else if PageMatchAt(u, from) then Some(from)
    else FindPage(u, from + 1)
  }

  /** `parseInt` of the greedy `\d+` group that starts right after `page=` at `i`. */
  function GroupValue(u: string, i: nat): (n: nat)
    requires i + 5 <= |u|
  {
    var d := u[i + 5..];
    DigitsValue(d[..DigitRun(d)])
  }

  /** `getPageNumberFromUrl(url)`. */
  function PageNumber(url: Option<string>): (n: nat)
    ensures !Truthy(url) ==> n == 1
    ensures Truthy(url) && (forall j :: !PageMatchAt(url.value, j)) ==> n == 1
    ensures Truthy(url) ==> forall i: nat ::
      (PageMatchAt(url.value, i) && forall j :: 0 <= j < i ==> !PageMatchAt(url.value, j)) ==> n == GroupValue(url.value, i)
  {
    if !Truthy(url) then 1
    else
      match FindPage(url.value, 0)
      case None => 1
      case Some(i) => GroupValue(url.value, i)
  }

  /** `getPageNumberFromUrl(url) || 1`: the page shown, never 0. */
  function CurrentPage(url: Option<string>): (n: nat)
    ensures n >= 1
    ensures PageNumber(url) != 0 ==> n == PageNumber(url)
  {
    var p := PageNumber(url);
    if p == 0 then 1 else p
  }

  /** A URL with the page number appended as its query: `<base>?page=<n>`. */
  function PageUrl(base: string, n: nat): string {
    base + "?" + PagePrefix + NatToString(n)
  }

  /** In `<base>?page=…`, no match starts inside `base` when `base` itself holds no `page=`. */
  lemma NoMatchInBase(base: string, tail: string, j: int)
    requires forall i :: !PrefixAt(base, i)
    requires 0 <= j <= |base|
    ensures !PageMatchAt(base + "?" + tail, j)
  {
    var u := base + "?" + tail;
    if j + 5 <= |u| {
      if j + 5 <= |base| {
        assert u[j..j + 5] == base[j..j + 5];
        assert !PrefixAt(base, j);
      } else {
        assert u[j..j + 5][|base| - j] == '?';
        assert PagePrefix[|base| - j] != '?';
      }
    }
  }

  /** Reading the page number back from a URL built by `PageUrl` gives the number written into it. */
  lemma PageNumberRoundTrip(base: string, n: nat)
    requires forall i :: !PrefixAt(base, i)
    ensures PageNumber(Some(PageUrl(base, n))) == n
    ensures n >= 1 ==> CurrentPage(Some(PageUrl(base, n))) == n
  {
    var digits := NatToString(n);
    var u := PageUrl(base, n);
    var i := |base| + 1;
    assert u == base + "?" + (PagePrefix + digits);
    assert u[i..i + 5] == PagePrefix;
    assert u[i + 5] == digits[0];
    assert PageMatchAt(u, i);
    forall j | 0 <= j < i ensures !PageMatchAt(u, j) {
      NoMatchInBase(base, PagePrefix + digits, j);
    }
    var d := u[i + 5..];
    assert d == digits;
    assert DigitRun(d) == |d|;
    assert d[..DigitRun(d)] == digits;
    NatToStringRoundTrip(n);
  }

  /** A URL with no `page=<digits>` in it (the first page's `previous` link) is page 1. */
  lemma NoPageParameterIsFirstPage(url: string)
    requires forall j :: !PageMatchAt(url, j)
    ensures CurrentPage(Some(url)) == 1
  {
  }

  // ---------------------------------------------------------------------------
  // Fetching a page
  // ---------------------------------------------------------------------------

  datatype Pagination = Pagination(count: nat, next: Option<string>, previous: Option<string>, currentPage: nat)

  /** The JSON body of a successful response. */
  datatype PageData = PageData(results: seq<DiscoverCampaign>, count: nat, next: Option<string>, previous: Option<string>)

  /** What a fetch yields: a body, a response that is not ok, or a thrown network error. */
  datatype Response = Received(data: PageData) | NotOk | NetworkError(message: string)

  datatype Page = Page(
    campaigns: seq<DiscoverCampaign>,
    pagination: Pagination,
    loading: bool,
    error: Option<string>,
    searchTerm: string,
    selected: Selection)

  const DefaultUrl: string := "http://127.0.0.1:8000/api/projects/"
  const FetchFailed: string := "Failed to fetch campaigns"

  /** The page before the first fetch has finished. */
  function InitialPage(): (p: Page)
    ensures p.loading && p.campaigns == [] && p.error.None?
    ensures p.pagination == Pagination(0, None, None, 1)
    ensures p.searchTerm == "" && p.selected == AllCategories
  {
    Page([], Pagination(0, None, None, 1), true, None, "", AllCategories)
  }

  /** `url || 'http://127.0.0.1:8000/api/projects/'`: the address actually requested. */
  function RequestUrl(url: Option<string>): (r: string)
    ensures Truthy(url) ==> r == url.value
    ensures !Truthy(url) ==> r == DefaultUrl
  {
    if Truthy(url) then url.value else DefaultUrl
  }

  /** The message `setError` receives for a failed fetch. */
  function FailureMessage(resp: Response): (m: string)
    requires !resp.Received?
    ensures resp.NotOk? ==> m == FetchFailed
    ensures resp.NetworkError? ==> m == resp.message
  {
    if resp.NotOk? then FetchFailed else resp.message
  }

  /** The state a successful fetch leaves, with the error left as it was. */
  function Loaded(p: Page, url: Option<string>, data: PageData): (r: Page)
    ensures r.campaigns == data.results && !r.loading
    ensures r.pagination == Pagination(data.count, data.next, data.previous, CurrentPage(url))
    ensures r.error == p.error && r.searchTerm == p.searchTerm && r.selected == p.selected
  {
    p.(campaigns := data.results,
       pagination := Pagination(data.count, data.next, data.previous, CurrentPage(url)),
       loading := false)
  }

  /**
    `fetchCampaigns(url)` as written: a success replaces the rows and the
    pagination but never resets `error`, so an error from an earlier fetch stays.
  */
  function FetchAsWritten(p: Page, url: Option<string>, resp: Response): (r: Page)
    ensures !r.loading
    ensures resp.Received? ==> r == Loaded(p, url, resp.data)
    ensures !resp.Received? ==>
      && r.error == Some(FailureMessage(resp)) && r.campaigns == p.campaigns && r.pagination == p.pagination
      && r.searchTerm == p.searchTerm && r.selected == p.selected
  {
    match resp
    case Received(data) => Loaded(p, url, data)
    case _ => p.(error := Some(FailureMessage(resp)), loading := false)
  }

  /** `fetchCampaigns(url)` with the error cleared on success; the rest of the model uses this one. */
  function Fetch(p: Page, url: Option<string>, resp: Response): (r: Page)
    ensures !r.loading
    ensures resp.Received? ==> r == Loaded(p, url, resp.data).(error := None)
    ensures resp.Received? ==>
      r.error.None? && r.campaigns == resp.data.results && r.pagination.currentPage == CurrentPage(url)
    ensures !resp.Received? ==> r == FetchAsWritten(p, url, resp)
  {
    match resp
    case Received(data) => Loaded(p, url, data).(error := None)
    case _ => FetchAsWritten(p, url, resp)
  }

  /** What the page body shows. */
  datatype View = Spinner | ErrorView(message: string) | Cards(shown: seq<DiscoverCampaign>) | NoResults

  /** The render: spinner, then a truthy error, then the filtered cards or the empty notice. */
  function Render(p: Page): (v: View)
    ensures v.ErrorView? <==> !p.loading && Truthy(p.error)
    ensures v.Cards? ==> v.shown == Filtered(p.campaigns, p.searchTerm, p.selected) && v.shown != []
    ensures v.NoResults? ==> Filtered(p.campaigns, p.searchTerm, p.selected) == []
  {
    if p.loading then Spinner
    else if Truthy(p.error) then ErrorView(p.error.value)
    else
      var shown := Filtered(p.campaigns, p.searchTerm, p.selected);
      if shown != [] then Cards(shown) else NoResults
  }

  /**
    As written, Try Again cannot leave the error screen: after a failed
    fetch, a successful retry still renders the old error.
  */
  lemma RetryStillShowsErrorAsWritten(data: PageData)
    ensures var failed := FetchAsWritten(InitialPage(), None, NotOk);
      Render(FetchAsWritten(failed, None, Received(data))) == ErrorView(FetchFailed)
  {
  }

  /** With the corrected fetch, any successful response leaves the error screen. */
  lemma SuccessLeavesErrorView(p: Page, url: Option<string>, data: PageData)
    ensures !Render(Fetch(p, url, Received(data))).ErrorView?
    ensures !Render(Fetch(p, url, Received(data))).Spinner?
  {
  }

  // ---------------------------------------------------------------------------
  // Categories and the filter
  // ---------------------------------------------------------------------------

  /** The category objects of the rows that have one, in row order. */
  function CategoryRefs(cs: seq<DiscoverCampaign>): (r: seq<nat>)
    ensures forall x :: x in r <==> exists k :: 0 <= k < |cs| && cs[k].category == CategoryObject(x)
  {
    if cs == [] then []
    else
      var rest := CategoryRefs(cs[1..]);
      assert forall k :: 1 <= k < |cs| ==> cs[k] == cs[1..][k - 1];
      match cs[0].category
      case NoCategory => rest
      case CategoryObject(x) => [x] + rest
  }

  /** `categories`: each category object once, in the order it first appears; none for an empty page. */
  function Categories(cs: seq<DiscoverCampaign>): (r: seq<nat>)
    ensures NoDuplicates(r)
    ensures forall x :: x in r <==> exists k :: 0 <= k < |cs| && cs[k].category == CategoryObject(x)
  {
    if |cs| == 0 then [] else Distinct(CategoryRefs(cs))
  }

  /** The first row that holds category object `x`. */
  function FirstRow(cs: seq<DiscoverCampaign>, x: nat): (k: nat)
    requires x in CategoryRefs(cs)
    ensures k < |cs| && cs[k].category == CategoryObject(x)
    ensures forall j :: 0 <= j < k ==> cs[j].category != CategoryObject(x)
  {
    if cs[0].category == CategoryObject(x) then 0 else 1 + FirstRow(cs[1..], x)
  }

  /** The reference list meets its objects in the order the rows first hold them. */
  lemma {:induction false} RefsFollowRows(cs: seq<DiscoverCampaign>, x: nat, y: nat)
    requires x in CategoryRefs(cs) && y in CategoryRefs(cs)
    ensures FirstIndex(CategoryRefs(cs), x) < FirstIndex(CategoryRefs(cs), y) <==> FirstRow(cs, x) < FirstRow(cs, y)
  {
    var refs := CategoryRefs(cs);
    var rest := CategoryRefs(cs[1..]);
    if x != y {
      match cs[0].category
      case NoCategory =>
        assert refs == rest;
        RefsFollowRows(cs[1..], x, y);
      case CategoryObject(z) =>
        assert refs == [z] + rest;
        if z != x && z != y {
          assert refs[1..] == rest;
          RefsFollowRows(cs[1..], x, y);
        }
    }
  }

  /** The category buttons come in the order their objects first occur among the rows. */
  lemma CategoriesInFirstOccurrenceOrder(cs: seq<DiscoverCampaign>)
    ensures forall i, j :: 0 <= i < j < |Categories(cs)| ==>
      Categories(cs)[i] in CategoryRefs(cs) && Categories(cs)[j] in CategoryRefs(cs)
      && FirstRow(cs, Categories(cs)[i]) < FirstRow(cs, Categories(cs)[j])
  {
    var r := Categories(cs);
    if cs != [] {
      DistinctFirstOccurrenceOrder(CategoryRefs(cs));
    }
    forall i, j | 0 <= i < j < |r|
      ensures r[i] in CategoryRefs(cs) && r[j] in CategoryRefs(cs) && FirstRow(cs, r[i]) < FirstRow(cs, r[j])
    {
      RefsFollowRows(cs, r[i], r[j]);
    }
  }

  /** `matchesSearch`: an empty search, or the title or the details contain it, ignoring case. */
  predicate MatchesSearch(searchTerm: string, c: DiscoverCampaign) {
    searchTerm == "" || ContainsIgnoreCase(c.title, searchTerm) || ContainsIgnoreCase(c.details, searchTerm)
  }

  /** `matchesCategory`: All, or the row holds the very object selected. */
  predicate MatchesCategory(selected: Selection, c: DiscoverCampaign) {
    selected.AllCategories? || c.category == CategoryObject(selected.ref)
  }

  predicate Shown(searchTerm: string, selected: Selection, c: DiscoverCampaign) {
    MatchesSearch(searchTerm, c) && MatchesCategory(selected, c)
  }

  /** `filteredCampaigns`. */
  function Filtered(cs: seq<DiscoverCampaign>, searchTerm: string, selected: Selection): (r: seq<DiscoverCampaign>)
    ensures IsSubsequence(r, cs)
    ensures forall k :: 0 <= k < |r| ==> Shown(searchTerm, selected, r[k])
    ensures forall c :: c in cs && Shown(searchTerm, selected, c) ==> c in r
  {
    Filter(cs, c => Shown(searchTerm, selected, c))
  }

  /** The search accepts a row exactly when the lower-cased search occurs somewhere in its lower-cased title or details. */
  lemma MatchesSearchIff(searchTerm: string, c: DiscoverCampaign)
    ensures MatchesSearch(searchTerm, c) <==>
      searchTerm == "" || Occurs(ToLower(c.title), ToLower(searchTerm)) || Occurs(ToLower(c.details), ToLower(searchTerm))
  {
    IncludesIffOccurs(ToLower(c.title), ToLower(searchTerm));
    IncludesIffOccurs(ToLower(c.details), ToLower(searchTerm));
  }

  /** No search and the All button show every loaded row. */
  lemma NoFilterShowsAll(cs: seq<DiscoverCampaign>)
    ensures Filtered(cs, "", AllCategories) == cs
  {
    FilterAll(cs, c => Shown("", AllCategories, c));
  }

  /** Without a search, every category button offered selects at least one row. */
  lemma {:induction false} EveryCategoryButtonSelectsSomething(cs: seq<DiscoverCampaign>, x: nat)
    requires x in Categories(cs)
    ensures Filtered(cs, "", Only(x)) != []
  {
    var k :| 0 <= k < |cs| && cs[k].category == CategoryObject(x);
    assert cs[k] in cs && Shown("", Only(x), cs[k]);
  }

  // ---------------------------------------------------------------------------
  // Paging
  // ---------------------------------------------------------------------------

  /** `handleNextPage`: fetch the `next` link when there is one; otherwise nothing happens. */
  function HandleNextPage(p: Page, resp: Response): (r: Page)
    ensures !Truthy(p.pagination.next) ==> r == p
    ensures Truthy(p.pagination.next) && resp.Received? ==> r == Loaded(p, p.pagination.next, resp.data)
    ensures Truthy(p.pagination.next) && !resp.Received? ==>
      && r.error == Some(FailureMessage(resp)) && r.campaigns == p.campaigns && r.pagination == p.pagination
      && r.searchTerm == p.searchTerm && r.selected == p.selected
  {
    if Truthy(p.pagination.next) then FetchAsWritten(p, p.pagination.next, resp) else p
  }

  /** `handlePrevPage`: the same for the `previous` link. */
  function HandlePrevPage(p: Page, resp: Response): (r: Page)
    ensures !Truthy(p.pagination.previous) ==> r == p
    ensures Truthy(p.pagination.previous) && resp.Received? ==> r == Loaded(p, p.pagination.previous, resp.data)
    ensures Truthy(p.pagination.previous) && !resp.Received? ==>
      && r.error == Some(FailureMessage(resp)) && r.campaigns == p.campaigns && r.pagination == p.pagination
      && r.searchTerm == p.searchTerm && r.selected == p.selected
  {
    if Truthy(p.pagination.previous) then FetchAsWritten(p, p.pagination.previous, resp) else p
  }

  /**
    While no error is recorded, the fetch as written and the corrected one agree; the paging
    buttons render only in that case, so following a link never meets the stale error.
  */
  lemma FetchAgreesWhileNoError(p: Page, url: Option<string>, resp: Response)
    requires p.error.None?
    ensures Fetch(p, url, resp) == FetchAsWritten(p, url, resp)
  {
    if resp.Received? {
      assert Loaded(p, url, resp.data).(error := None) == Loaded(p, url, resp.data);
    }
  }

  /** Following a `next` link of the form `<base>?page=<n>` lands on page `n`. */
  lemma NextLinkSetsPage(p: Page, base: string, n: nat, data: PageData)
    requires forall i :: !PrefixAt(base, i)
    requires p.pagination.next == Some(PageUrl(base, n)) && n >= 1
    ensures HandleNextPage(p, Received(data)).pagination == Pagination(data.count, data.next, data.previous, n)
    ensures HandleNextPage(p, Received(data)).campaigns == data.results
    ensures HandleNextPage(p, Received(data)).searchTerm == p.searchTerm
    ensures HandleNextPage(p, Received(data)).selected == p.selected
  {
    PageNumberRoundTrip(base, n);
  }

  /** `campaigns.length || 10`: the page size the total is divided by. */
  function PageSize(shown: nat): (d: nat)
    ensures d >= 1
    ensures shown != 0 ==> d == shown
  {
    if shown == 0 then 10 else shown
  }

  /** `Math.ceil(count / size)` for a positive size. */
  function CeilDiv(count: nat, size: nat): (t: nat)
    requires size >= 1
  {
    (count + size - 1) / size
  }

  /** The ceiling is the least number of pages of `size` rows that hold `count` rows. */
  lemma CeilDivIsLeastCover(count: nat, size: nat)
    requires size >= 1
    ensures CeilDiv(count, size) * size >= count
    ensures CeilDiv(count, size) == 0 || (CeilDiv(count, size) - 1) * size < count
  {
    var t := CeilDiv(count, size);
    var q := (count + size - 1) / size;
    var m := (count + size - 1) % size;
    assert count + size - 1 == q * size + m;
    assert t * size >= count;
    if t > 0 {
      assert (t - 1) * size == t * size - size;
    }
  }

  /** `totalPages`. */
  function TotalPages(count: nat, shown: nat): (t: nat)
    ensures t * PageSize(shown) >= count
    ensures t == 0 || (t - 1) * PageSize(shown) < count
    ensures t == 0 <==> count == 0
  {
    CeilDivIsLeastCover(count, PageSize(shown));
    CeilDiv(count, PageSize(shown))
  }
}

=== FILE: CampaignForm.dfy ===
/**
  The older single-page campaign form (`src/components/campaign/CampaignForm.jsx`):
  two change handlers and the required-fields check on submit. The form keeps
  its values in one object; here it is a map from field name to value.
*/
module CampaignForm {
  /** A field value: the inputs give strings; `daysToRun` starts as the number 30. */
  datatype FormValue = Str(s: string) | Num(n: int)

  type FormData = map<string, FormValue>

  /** JavaScript truthiness of a field; a missing field is `undefined`, which is falsy. */
  predicate Filled(form: FormData, key: string) {
    key in form && match form[key] {
      case Str(s) => s != ""
      case Num(n) => n != 0
    }
  }

  const DaysToRun: string := "daysToRun"
  const CategoryKey: string := "category"
  const HomePath: string := "/"

  /** The six fields `handleSubmit` insists on, in the order it tests them. */
  const Required: seq<string> := ["title", "category", "description", "longDescription", "goalAmount", "image"]

  /** The form as it first renders: every text field empty, a 30-day duration. */
  function Initial(): (form: FormData)
    ensures forall k :: k in Required ==> k in form && !Filled(form, k)
    ensures DaysToRun in form && form[DaysToRun] == Num(30)
  {
    map["title" := Str(""), "category" := Str(""), "description" := Str(""),
        "longDescription" := Str(""), "goalAmount" := Str(""), "image" := Str(""),
        DaysToRun := Num(30)]
  }

  /** `handleChange`: the named field takes the input's string value; nothing else changes. */
  function HandleChange(form: FormData, name: string, value: string): (r: FormData)
    ensures name in r && r[name] == Str(value)
    ensures forall k :: k in r <==> k in form || k == name
    ensures forall k :: k in form && k != name ==> r[k] == form[k]
  {
    form[name := Str(value)]
  }

  /** `handleCategoryChange`: only `category` changes. */
  function HandleCategoryChange(form: FormData, value: string): (r: FormData)
    ensures CategoryKey in r && r[CategoryKey] == Str(value)
    ensures forall k :: k in r <==> k in form || k == CategoryKey
    ensures forall k :: k in form && k != CategoryKey ==> r[k] == form[k]
  {
    form[CategoryKey := Str(value)]
  }

  /** What submitting does: refuse with a toast, or go to the home page. */
  datatype SubmitOutcome = Refused | NavigateTo(path: string)

  /** The fields of `Required` that are still empty, in order. */
  function Missing(form: FormData, keys: seq<string>): (ms: seq<string>)
    ensures forall k :: k in ms <==> k in keys && !Filled(form, k)
  {
    if keys == [] then []
    else (if Filled(form, keys[0]) then [] else [keys[0]]) + Missing(form, keys[1..])
  }

  /** `handleSubmit`: any empty required field refuses; otherwise navigate home. */
  function HandleSubmit(form: FormData): (o: SubmitOutcome)
    ensures o.Refused? <==> exists k :: k in Required && !Filled(form, k)
    ensures o.NavigateTo? ==> o.path == HomePath
  {
    var missing := Missing(form, Required);
    if missing != [] then
      assert missing[0] in missing;
      Refused
    else NavigateTo(HomePath)
  }

  /** The duration is never checked on submit: changing it never changes the outcome. */
  lemma SubmitIgnoresDuration(form: FormData, days: FormValue)
    ensures HandleSubmit(form[DaysToRun := days]) == HandleSubmit(form)
  {
    var form' := form[DaysToRun := days];
    assert forall k :: k in Required ==> k != DaysToRun;
    assert forall k :: k in Required ==> (Filled(form', k) <==> Filled(form, k));
  }

  /** A freshly rendered form is refused. */
  lemma InitialIsRefused()
    ensures HandleSubmit(Initial()) == Refused
  {
    assert "title" in Required;
  }

  /** A run of edits `(name, value)` through `handleChange`, in order. */
  function Fill(form: FormData, edits: seq<(string, string)>): (r: FormData)
    ensures forall k :: k in form ==> k in r
    decreases |edits|
  {
    if edits == [] then form else Fill(HandleChange(form, edits[0].0, edits[0].1), edits[1..])
  }

  /** The names a run of edits writes. */
  function Edited(edits: seq<(string, string)>): set<string> {
    set i | 0 <= i < |edits| :: edits[i].0
  }

  /** Non-empty edits keep filled fields filled and fill every field they write. */
  lemma {:induction false} FillFills(form: FormData, edits: seq<(string, string)>, k: string)
    requires forall i :: 0 <= i < |edits| ==> edits[i].1 != ""
    requires Filled(form, k) || k in Edited(edits)
    ensures Filled(Fill(form, edits), k)
    decreases |edits|
  {
    if edits != [] {
      var f1 := HandleChange(form, edits[0].0, edits[0].1);
      var rest := edits[1..];
      if k != edits[0].0 && !Filled(form, k) {
        var i :| 0 <= i < |edits| && edits[i].0 == k;
        assert rest[i - 1] == edits[i];
      }
      FillFills(f1, rest, k);
    }
  }

  /** From any state of the form, writing non-empty values into (at least) the six required fields is enough to submit. */
  lemma FillingRequiredFieldsSubmits(form: FormData, edits: seq<(string, string)>)
    requires forall i :: 0 <= i < |edits| ==> edits[i].1 != ""
    requires forall k :: k in Required ==> k in Edited(edits)
    ensures HandleSubmit(Fill(form, edits)) == NavigateTo(HomePath)
  {
    forall k | k in Required ensures Filled(Fill(form, edits), k) {
      FillFills(form, edits, k);
    }
  }

  /** The category select's handler is `handleChange` for the `category` field. */
  lemma CategoryChangeIsChange(form: FormData, value: string)
    ensures HandleCategoryChange(form, value) == HandleChange(form, CategoryKey, value)
  {
  }
}

=== FILE: Common.dfy ===
/**
  Helpers shared by every page of the storefront: the optional value that
  stands for JavaScript's `null`/`undefined`, the string primitives the pages
  call (`trim`, `toLowerCase`, `includes`, template-literal numbers,
  `parseInt` on a digit run) and the array primitives (`filter` by predicate,
  `filter` by index, `new Set(...)`, `filter(...).length`).
*/
module Common {

  /** A value that may be missing (`null` or `undefined` in the source). */
  datatype Option<+T> = None | Some(value: T) {
    function GetOr(default: T): T {
      match this
      case Some(v) => v
      case None => default
    }
  }

  /** JavaScript truthiness of a string that may be `null` or `undefined`: those and `''` are falsy. */
  predicate Truthy(v: Option<string>) {
    v.Some? && v.value != ""
  }

  /** The outcome of an operation that resolves with a value or rejects with an error. */
  datatype Result<+T, +E> = Success(value: T) | Failure(error: E)

  /**
    A file picked in a file input: its name, its size in bytes, and the
    object URL `URL.createObjectURL` gives it for a preview.
  */
  datatype File = File(name: string, size: nat, blobUrl: string)

  // ---------------------------------------------------------------------------
  // Characters and strings
  // ---------------------------------------------------------------------------

  /** The characters `String.prototype.trim` strips: ECMAScript WhiteSpace and LineTerminator. */
  predicate IsJsSpace(c: char) {
    var n := c as int;
    || 0x09 <= n <= 0x0D || n == 0x20 || n == 0xA0 || n == 0x1680
    || 0x2000 <= n <= 0x200A
    || n == 0x2028 || n == 0x2029 || n == 0x202F || n == 0x205F
    || n == 0x3000 || n == 0xFEFF
  }

  predicate AllSpace(s: string) {
    forall k :: 0 <= k < |s| ==> IsJsSpace(s[k])
  }

  /** Leading whitespace removed: a suffix of `s` that is empty or starts with a non-space. */
  function TrimStart(s: string): (r: string)
    ensures |r| <= |s| && r == s[|s| - |r|..]
    ensures AllSpace(s[..|s| - |r|])
    ensures r != [] ==> !IsJsSpace(r[0])
  {
    if s == [] then []
    else if IsJsSpace(s[0]) then TrimStart(s[1..])
    else s
  }

  /** Trailing whitespace removed: a prefix of `s` that is empty or ends with a non-space. */
  function TrimEnd(s: string): (r: string)
    ensures |r| <= |s| && r == s[..|r|]
    ensures AllSpace(s[|r|..])
    ensures r != [] ==> !IsJsSpace(r[|r| - 1])
  {
    if s == [] then []
    else if IsJsSpace(s[|s| - 1]) then TrimEnd(s[..|s| - 1])
    else s
  }

  /** `s.trim()`. */
  function Trim(s: string): (r: string)
    ensures |r| <= |s|
    ensures r != [] ==> !IsJsSpace(r[0]) && !IsJsSpace(r[|r| - 1])
  {
    TrimEnd(TrimStart(s))
  }

  /** `s.trim() === ''` holds exactly when every character of `s` is whitespace. */
  lemma TrimEmptyIffAllSpace(s: string)
    ensures Trim(s) == [] <==> AllSpace(s)
  {
    var t := TrimStart(s);
    if t != [] {
      assert !IsJsSpace(t[0]) && t[0] == s[|s| - |t|];
      assert !AllSpace(t[0..]);
    } else {
      assert s[..|s|] == s;
    }
  }

  /** Trimming twice changes nothing more than trimming once. */
  lemma TrimIdempotent(s: string)
    ensures Trim(Trim(s)) == Trim(s)
  {
    var r := Trim(s);
    if r != [] {
      assert TrimStart(r) == r;
      assert TrimEnd(r) == r;
    }
  }

  /** `toLowerCase` on one character (ASCII letters only). */
  function LowerChar(c: char): char {
    if 'A' <= c <= 'Z' then (c as int + 32) as char else c
  }

  /** `s.toLowerCase()`, character by character. */
  function ToLower(s: string): (r: string)
    ensures |r| == |s|
    ensures forall k :: 0 <= k < |s| ==> r[k] == LowerChar(s[k])
  {
    if s == [] then [] else [LowerChar(s[0])] + ToLower(s[1..])
  }

  /** `needle` occurs in `hay` at position `i`. */
  ghost predicate OccursAt(hay: string, needle: string, i: int) {
    0 <= i && i + |needle| <= |hay| && hay[i..i + |needle|] == needle
  }

  /** `hay.includes(needle)`, stated as a search for a position. */
  ghost predicate Occurs(hay: string, needle: string) {
    exists i :: OccursAt(hay, needle, i)
  }

  /** `hay.includes(needle)`, computed by trying every starting position. */
  function Includes(hay: string, needle: string): bool
    decreases |hay|
  {
    if |needle| <= |hay| && hay[..|needle|] == needle then true
    else if |hay| <= |needle| then false
    else Includes(hay[1..], needle)
  }

  /** Dropping the first character shifts every occurrence one place to the left. */
  lemma OccursAtShift(hay: string, needle: string, i: int)
    requires hay != [] && 0 <= i
    ensures OccursAt(hay[1..], needle, i) <==> OccursAt(hay, needle, i + 1)
  {
    if 0 <= i && i + |needle| <= |hay| - 1 {
      assert hay[1..][i..i + |needle|] == hay[i + 1..i + 1 + |needle|];
    }
  }

  /** The computed `includes` agrees with the positional definition. */
  lemma {:induction false} IncludesIffOccurs(hay: string, needle: string)
    ensures Includes(hay, needle) <==> Occurs(hay, needle)
    decreases |hay|
  {
    if |needle| <= |hay| && hay[..|needle|] == needle {
      assert OccursAt(hay, needle, 0);
    } else if |hay| <= |needle| {
      assert !Occurs(hay, needle);
    } else {
      IncludesIffOccurs(hay[1..], needle);
      if Occurs(hay[1..], needle) {
        var i :| OccursAt(hay[1..], needle, i);
        OccursAtShift(hay, needle, i);
      }
      if Occurs(hay, needle) {
        var i :| OccursAt(hay, needle, i);
        assert i != 0 by {
          assert hay[0..0 + |needle|] == hay[..|needle|];
        }
        OccursAtShift(hay, needle, i - 1);
      }
    }
  }

  /** Every string includes the empty string. */
  lemma IncludesEmpty(hay: string)
    ensures Includes(hay, "")
  {
    assert hay[..0] == "";
  }

  /** The case-insensitive `includes` every search box of the storefront uses. */
  function ContainsIgnoreCase(hay: string, needle: string): bool {
    Includes(ToLower(hay), ToLower(needle))
  }

  /** An empty search term matches every string. */
  lemma ContainsEmptySearch(hay: string)
    ensures ContainsIgnoreCase(hay, "")
  {
    IncludesEmpty(ToLower(hay));
  }

  /** Milliseconds in a day; every date in the model is a count of milliseconds. */
  const DayMs: int := 1000 * 60 * 60 * 24

  // ---------------------------------------------------------------------------
  // Decimal digits
  // ---------------------------------------------------------------------------

  predicate IsDigit(c: char) {
    '0' <= c <= '9'
  }

  predicate AllDigits(s: string) {
    forall k :: 0 <= k < |s| ==> IsDigit(s[k])
  }

  function DigitValue(c: char): nat
    requires IsDigit(c)
  {
    c as int - '0' as int
  }

  /** The value of a run of decimal digits, as `parseInt` reads it. */
  function DigitsValue(s: string): nat
    requires AllDigits(s)
  {
    if s == [] then 0 else DigitsValue(s[..|s| - 1]) * 10 + DigitValue(s[|s| - 1])
  }

  /** Length of the run of digits at the start of `u`. */
  function DigitRun(u: string): (k: nat)
    ensures k <= |u| && AllDigits(u[..k])
    ensures k < |u| ==> !IsDigit(u[k])
  {
    if u != [] && IsDigit(u[0]) then
      var k := 1 + DigitRun(u[1..]);
      assert forall j :: 1 <= j < k ==> u[..k][j] == u[1..][..k - 1][j - 1];
      k
    else 0
  }

  function DigitChar(d: nat): (c: char)
    requires d < 10
    ensures IsDigit(c) && DigitValue(c) == d
  {
    ('0' as int + d) as char
  }

  /** A non-negative number written in a template literal (`${n}`). */
  function NatToString(n: nat): (r: string)
    ensures |r| >= 1 && AllDigits(r)
    ensures |r| > 1 ==> r[0] != '0'
  {
    if n < 10 then [DigitChar(n)] else NatToString(n / 10) + [DigitChar(n % 10)]
  }

  /** Reading back the digits of a number gives the number. */
  lemma {:induction false} NatToStringRoundTrip(n: nat)
    ensures DigitsValue(NatToString(n)) == n
  {
    if n >= 10 {
      NatToStringRoundTrip(n / 10);
      var r := NatToString(n);
      assert r[..|r| - 1] == NatToString(n / 10);
    }
  }

  /** Any integer written in a template literal. */
  function IntToString(i: int): (r: string)
    ensures |r| >= 1
    ensures i < 0 <==> r[0] == '-'
  {
    if i < 0 then "-" + NatToString(-i) else NatToString(i)
  }

  // ---------------------------------------------------------------------------
  // Sequences
  // ---------------------------------------------------------------------------

  /** `r` can be obtained from `s` by deleting elements (order is kept). */
  ghost predicate IsSubsequence<T>(r: seq<T>, s: seq<T>)
    decreases |s|
  {
    if r == [] then true
    else if s == [] then false
    else if r[0] == s[0] then IsSubsequence(r[1..], s[1..])
    else IsSubsequence(r, s[1..])
  }

  /** `s.filter(keep)`. */
  function Filter<T>(s: seq<T>, keep: T -> bool): (r: seq<T>)
    ensures |r| <= |s|
    ensures forall k :: 0 <= k < |r| ==> keep(r[k]) && r[k] in s
    ensures forall x :: x in s && keep(x) ==> x in r
    ensures IsSubsequence(r, s)
  {
    if s == [] then []
    else if keep(s[0]) then [s[0]] + Filter(s[1..], keep)
    else Filter(s[1..], keep)
  }

  /** A filter that keeps nothing returns the empty sequence. */
  lemma {:induction false} FilterNone<T>(s: seq<T>, keep: T -> bool)
    requires forall k :: 0 <= k < |s| ==> !keep(s[k])
    ensures Filter(s, keep) == []
  {
    if s != [] {
      assert !keep(s[0]);
      assert forall k :: 0 <= k < |s[1..]| ==> s[1..][k] == s[k + 1];
      FilterNone(s[1..], keep);
    }
  }

  /** A filter that keeps everything returns its input unchanged. */
  lemma {:induction false} FilterAll<T>(s: seq<T>, keep: T -> bool)
    requires forall k :: 0 <= k < |s| ==> keep(s[k])
    ensures Filter(s, keep) == s
  {
    if s != [] {
      FilterAll(s[1..], keep);
    }
  }

  /** `s.filter(p).length`. */
  function Count<T>(s: seq<T>, p: T -> bool): (n: nat)
    ensures n <= |s|
    ensures n == |Filter(s, p)|
  {
    if s == [] then 0 else (if p(s[0]) then 1 else 0) + Count(s[1..], p)
  }

  /** Every element satisfies `p` or its negation, so the two counts add up to the length. */
  lemma {:induction false} CountSplit<T>(s: seq<T>, p: T -> bool, q: T -> bool)
    requires forall x :: q(x) == !p(x)
    ensures Count(s, p) + Count(s, q) == |s|
  {
    if s != [] {
      CountSplit(s[1..], p, q);
    }
  }

  /** `s.filter((_, index) => index !== i)`: every element whose index is not `i`. */
  function RemoveIndex<T>(s: seq<T>, i: int): (r: seq<T>)
    ensures 0 <= i < |s| ==> |r| == |s| - 1 && forall x :: 0 <= x < |r| ==> r[x] == if x < i then s[x] else s[x + 1]
    ensures !(0 <= i < |s|) ==> r == s
  {
    if 0 <= i < |s| then s[..i] + s[i + 1..] else s
  }

  /** No value occurs twice. */
  predicate NoDuplicates<T(==)>(s: seq<T>) {
    forall i, j :: 0 <= i < j < |s| ==> s[i] != s[j]
  }

  /** Dropping the head of a duplicate-free sequence leaves one without duplicates or the head. */
  lemma NoDuplicatesTail<T>(s: seq<T>)
    requires NoDuplicates(s) && s != []
    ensures NoDuplicates(s[1..]) && s[0] !in s[1..]
  {
    var t := s[1..];
    forall i, j | 0 <= i < j < |t| ensures t[i] != t[j] {
      assert t[i] == s[i + 1] && t[j] == s[j + 1];
    }
    forall j | 0 <= j < |t| ensures t[j] != s[0] {
      assert t[j] == s[j + 1];
    }
  }

  /** Index of the first occurrence of `x` in `s`. */
  function FirstIndex<T(==)>(s: seq<T>, x: T): (k: nat)
    requires x in s
    ensures k < |s| && s[k] == x
    ensures forall j :: 0 <= j < k ==> s[j] != x
  {
    if s[0] == x then 0 else 1 + FirstIndex(s[1..], x)
  }

  /** `[...new Set(s)]`: each value once, at the place of its first occurrence. */
  function Distinct<T(==,!new)>(s: seq<T>): (r: seq<T>)
    ensures NoDuplicates(r)
    ensures forall x :: x in r <==> x in s
  {
    if s == [] then []
    else
      var r := Distinct(s[..|s| - 1]);
      if s[|s| - 1] in r then r else r + [s[|s| - 1]]
  }

  lemma FirstIndexInPrefix<T>(s: seq<T>, x: T)
    requires s != [] && x in s[..|s| - 1]
    ensures FirstIndex(s, x) == FirstIndex(s[..|s| - 1], x)
  {
    var p := s[..|s| - 1];
    var k := FirstIndex(p, x);
    assert s[k] == x;
    assert forall j :: 0 <= j < k ==> s[j] == p[j];
  }

  /** The values of `Distinct(s)` come in the order of their first occurrences in `s`. */
  lemma {:induction false} DistinctFirstOccurrenceOrder<T(!new)>(s: seq<T>)
    ensures forall i, j :: 0 <= i < j < |Distinct(s)| ==>
      FirstIndex(s, Distinct(s)[i]) < FirstIndex(s, Distinct(s)[j])
  {
    if s != [] {
      var p := s[..|s| - 1];
      var last := s[|s| - 1];
      var r := Distinct(p);
      DistinctFirstOccurrenceOrder(p);
      forall y | y in r ensures FirstIndex(s, y) == FirstIndex(p, y) && FirstIndex(p, y) < |p| {
        FirstIndexInPrefix(s, y);
      }
      if last !in r {
        assert last !in p;
        assert FirstIndex(s, last) == |p|;
        forall i, j | 0 <= i < j < |Distinct(s)|
          ensures FirstIndex(s, Distinct(s)[i]) < FirstIndex(s, Distinct(s)[j])
        {
          assert Distinct(s) == r + [last];
          assert Distinct(s)[i] == r[i];
          assert r[i] in r;
          if j < |r| {
            assert Distinct(s)[j] == r[j];
            assert r[j] in r;
          }
        }
      }
    }
  }
}

=== FILE: CreateCampaign.dfy ===
/**
  The four-step create-campaign wizard (`src/pages/campaign/CreateCampaignPage.jsx`):
  its tag and image list edits, the Continue and Back buttons, and the way a
  failed submission sends the visitor back to the step holding the first error.

  The page keeps `formData`, `tagInput`, `errors` and `formStep`; here they are
  one immutable `Wizard` value and every handler is a function from the old
  value to the new one. Clearing an error (`errors.x = undefined`) removes the
  key, which renders the same. Toasts, `touched` and scrolling are not modelled.
*/
module CreateCampaign {
  import opened Common
  import opened Validation

  /** What the page shows under a field. */
  datatype Notice = Reported(m: Message) | TagRequired {
    function Text(): string {
      match this
      case Reported(m) => m.Text()
      case TagRequired => "At least one tag is required"
    }
  }

  type PageErrors = map<Field, Notice>

  datatype Wizard = Wizard(step: int, draft: CampaignDraft, tagInput: string, errors: PageErrors)

  const MaxTags: int := 10
  const MaxImages: int := 5
  const LastStep: int := 4

  /** The page as it first renders. */
  function Initial(): (w: Wizard)
    ensures w.step == 1 && w.draft.tags == [] && w.draft.images == [] && w.errors == map[]
  {
    Wizard(1, CampaignDraft("", "", "", None, None, "", [], [], None), "", map[])
  }

  /** The validator's result as the page stores it in `errors`. */
  function Shown(errs: Errors): (p: PageErrors)
    ensures p.Keys == errs.Keys
    ensures forall f :: f in errs ==> p[f] == Reported(errs[f])
  {
    map f | f in errs :: Reported(errs[f])
  }

  // ---------------------------------------------------------------------------
  // Tags
  // ---------------------------------------------------------------------------

  /** The tag list the wizard promises: no duplicates and at most ten entries. */
  predicate TagsOk(tags: seq<string>) {
    NoDuplicates(tags) && |tags| <= MaxTags
  }

  /** `addTag`: append the trimmed input unless it is blank, already present, or the list is full. */
  function AddTag(w: Wizard): (r: Wizard)
    ensures r.step == w.step
    ensures r.draft == w.draft.(tags := r.draft.tags)
    ensures r.draft.tags == w.draft.tags || r.draft.tags == w.draft.tags + [Trim(w.tagInput)]
    ensures TagsOk(w.draft.tags) ==> TagsOk(r.draft.tags)
    ensures r.draft.tags != w.draft.tags ==> r.tagInput == ""
    ensures r.draft.tags == w.draft.tags ==> r == w
    ensures forall f :: f != Tags ==> (f in r.errors <==> f in w.errors) && (f in w.errors ==> r.errors[f] == w.errors[f])
  {
    var t := Trim(w.tagInput);
    if t == "" then w
    else if t in w.draft.tags then w
    else if |w.draft.tags| >= MaxTags then w
    else
      var errors := if Tags in w.errors && |w.draft.tags| == 0 then w.errors - {Tags} else w.errors;
      assert NoDuplicates(w.draft.tags) ==> NoDuplicates(w.draft.tags + [t]) by {
        if NoDuplicates(w.draft.tags) {
          AppendFreshKeepsDistinct(w.draft.tags, t);
        }
      }
      Wizard(w.step, w.draft.(tags := w.draft.tags + [t]), "", errors)
  }

  /** Appending an element the list does not hold keeps it duplicate-free. */
  lemma AppendFreshKeepsDistinct(s: seq<string>, x: string)
    requires NoDuplicates(s) && x !in s
    ensures NoDuplicates(s + [x])
  {
    var r := s + [x];
    forall i, j | 0 <= i < j < |r| ensures r[i] != r[j] {
      if j == |s| {
        assert r[i] == s[i];
      } else {
        assert r[i] == s[i] && r[j] == s[j];
      }
    }
  }

  /** A tag is accepted exactly when its trimmed text is non-empty, new, and fewer than ten tags exist. */
  lemma AddTagAcceptsIff(w: Wizard)
    ensures var t := Trim(w.tagInput);
      AddTag(w).draft.tags == w.draft.tags + [t] && AddTag(w).tagInput == ""
      <==> t != "" && t !in w.draft.tags && |w.draft.tags| < MaxTags
  {
    var t := Trim(w.tagInput);
    assert w.draft.tags + [t] != w.draft.tags by {
      assert |w.draft.tags + [t]| == |w.draft.tags| + 1;
    }
  }

  /** Adding the first tag clears a pending "tag required" notice; every other accepted tag leaves the notices alone. */
  lemma FirstTagClearsNotice(w: Wizard)
    requires Tags in w.errors && w.draft.tags == []
    requires Trim(w.tagInput) != ""
    ensures AddTag(w).draft.tags == [Trim(w.tagInput)]
    ensures Tags !in AddTag(w).errors
  {
  }

  /** `removeTag(i)`: drop exactly index `i`; emptying a one-tag list raises the "tag required" notice. */
  function RemoveTag(w: Wizard, i: int): (r: Wizard)
    ensures r.step == w.step && r.tagInput == w.tagInput
    ensures r.draft == w.draft.(tags := r.draft.tags)
    ensures 0 <= i < |w.draft.tags| ==>
      |r.draft.tags| == |w.draft.tags| - 1
      && (forall k :: 0 <= k < i ==> r.draft.tags[k] == w.draft.tags[k])
      && (forall k :: i <= k < |r.draft.tags| ==> r.draft.tags[k] == w.draft.tags[k + 1])
    ensures !(0 <= i < |w.draft.tags|) ==> r.draft.tags == w.draft.tags
    ensures |w.draft.tags| == 1 ==> Tags in r.errors && r.errors[Tags] == TagRequired
    ensures |w.draft.tags| != 1 ==> r.errors == w.errors
    ensures r.errors - {Tags} == w.errors - {Tags}
  {
    var tags := RemoveIndex(w.draft.tags, i);
    var errors := if |w.draft.tags| == 1 then w.errors[Tags := TagRequired] else w.errors;
    Wizard(w.step, w.draft.(tags := tags), w.tagInput, errors)
  }

  /** Removing a tag keeps the list duplicate-free and within the cap. */
  lemma RemoveTagKeepsTagsOk(w: Wizard, i: int)
    requires TagsOk(w.draft.tags)
    ensures TagsOk(RemoveTag(w, i).draft.tags)
  {
    var s := w.draft.tags;
    var r := RemoveTag(w, i).draft.tags;
    if 0 <= i < |s| {
      forall a, b | 0 <= a < b < |r| ensures r[a] != r[b] {
        var a' := if a < i then a else a + 1;
        var b' := if b < i then b else b + 1;
        assert r[a] == s[a'] && r[b] == s[b'] && a' < b';
      }
    }
  }

  // ---------------------------------------------------------------------------
  // Images
  // ---------------------------------------------------------------------------

  /** `handleImageChange`: append the chosen files; the images notice is set exactly when more than five are held. */
  function AddImages(w: Wizard, files: seq<File>): (r: Wizard)
    ensures r.step == w.step && r.tagInput == w.tagInput
    ensures r.draft == w.draft.(images := w.draft.images + files)
    ensures Images in r.errors <==> |w.draft.images| + |files| > MaxImages
    ensures Images in r.errors ==> r.errors[Images].Text() == "Maximum 5 images allowed"
    ensures forall f :: f != Images ==> (f in r.errors <==> f in w.errors) && (f in w.errors ==> r.errors[f] == w.errors[f])
  {
    var images := w.draft.images + files;
    var errors := if |images| > MaxImages then w.errors[Images := Reported(TooManyImages)] else w.errors - {Images};
    Wizard(w.step, w.draft.(images := images), w.tagInput, errors)
  }

  /** `removeImage(i)`: drop exactly index `i`; the images notice is cleared once at most five would remain. */
  function RemoveImage(w: Wizard, i: int): (r: Wizard)
    ensures r.step == w.step && r.tagInput == w.tagInput
    ensures r.draft == w.draft.(images := RemoveIndex(w.draft.images, i))
    ensures 0 <= i < |w.draft.images| ==> |r.draft.images| == |w.draft.images| - 1
    ensures |w.draft.images| - 1 <= MaxImages ==> Images !in r.errors
    ensures |w.draft.images| - 1 > MaxImages ==> r.errors == w.errors
    ensures forall f :: f != Images ==> (f in r.errors <==> f in w.errors) && (f in w.errors ==> r.errors[f] == w.errors[f])
  {
    var errors := if |w.draft.images| - 1 <= MaxImages then w.errors - {Images} else w.errors;
    Wizard(w.step, w.draft.(images := RemoveIndex(w.draft.images, i)), w.tagInput, errors)
  }

  // ---------------------------------------------------------------------------
  // Moving between steps
  // ---------------------------------------------------------------------------

  /** The keys `nextStep` counts as belonging to a step. */
  predicate StepOwns(step: int, f: Field) {
    if step == 1 then f in {Title, TotalTarget, StartTime, EndTime, Category, Tags}
    else if step == 2 then f == Details
    else if step == 3 then f == Images || f == Thumbnail
    else false
  }

  /** `nextStep`: validate the current step; advance by one when none of its own fields has an error. */
  function NextStep(w: Wizard, today: int): (r: Wizard)
    ensures r.draft == w.draft && r.tagInput == w.tagInput
    ensures r.errors == Shown(Validate(w.draft, w.step, today))
    ensures r.step == w.step + 1 <==> forall f :: f in Validate(w.draft, w.step, today) ==> !StepOwns(w.step, f)
    ensures r.step == w.step || r.step == w.step + 1
  {
    var errs := Validate(w.draft, w.step, today);
    var blocked := exists f :: f in errs && StepOwns(w.step, f);
    Wizard(if blocked then w.step else w.step + 1, w.draft, w.tagInput, Shown(errs))
  }

  /** On steps 1 to 3 the wizard advances exactly when the validator reports nothing for the step. */
  lemma NextStepAdvancesIff(w: Wizard, today: int)
    requires 1 <= w.step <= 3
    ensures NextStep(w, today).step == w.step + 1 <==> Validate(w.draft, w.step, today) == map[]
  {
    var errs := Validate(w.draft, w.step, today);
    if errs != map[] {
      var f :| f in errs;
      ValidateReportsExactly(w.draft, w.step, today, f);
      assert StepOwns(w.step, f);
    }
  }

  /** `prevStep`. */
  function PrevStep(w: Wizard): (r: Wizard)
    ensures r.step == w.step - 1
    ensures r == w.(step := r.step)
  {
    w.(step := w.step - 1)
  }

  // ---------------------------------------------------------------------------
  // Submission
  // ---------------------------------------------------------------------------

  /** What `handleSubmit` does: send the campaign, or stay with the errors shown on some step. */
  datatype SubmitOutcome = Sent(w: Wizard) | Rejected(w: Wizard)

  /** The step `handleSubmit` shows for a non-empty error object. */
  function ErrorStep(errs: Errors, current: int): (s: int)
    ensures s in {1, 2, 3, current}
    ensures (exists f :: f in errs && StepOwns(1, f)) ==> s == 1
  {
    if Title in errs || Category in errs || Tags in errs
       || TotalTarget in errs || StartTime in errs || EndTime in errs then 1
    else if Details in errs then 2
    else if Images in errs || Thumbnail in errs then 3
    else current
  }

  /** `handleSubmit`: validate all steps; with any error, never send and route to the first failing step. */
  function HandleSubmit(w: Wizard, today: int): (o: SubmitOutcome)
    ensures o.Sent? <==> Validate(w.draft, LastStep, today) == map[]
    ensures o.w.draft == w.draft && o.w.tagInput == w.tagInput
    ensures o.w.errors == Shown(Validate(w.draft, LastStep, today))
    ensures o.Sent? ==> o.w.step == w.step
  {
    var errs := Validate(w.draft, LastStep, today);
    var shown := w.(errors := Shown(errs));
    if errs == map[] then Sent(shown)
    else Rejected(shown.(step := ErrorStep(errs, w.step)))
  }

  /**
    A rejected submission lands on a step between 1 and 3 whose own check
    fails, and on the earliest such step.
  */
  lemma RejectedSubmitShowsFailingStep(w: Wizard, today: int)
    requires HandleSubmit(w, today).Rejected?
    ensures var s := HandleSubmit(w, today).w.step;
      && 1 <= s <= 3
      && Validate(w.draft, s, today) != map[]
      && forall earlier :: 1 <= earlier < s ==> Validate(w.draft, earlier, today) == map[]
  {
    var c := RunChecks(w.draft, today);
    assert HandleSubmit(w, today).w.step == ErrorStep(Assemble(c, LastStep), w.step);
    RouteOfChecks(c, w.step);
  }

  /** On a failing draft the route lands on the earliest step whose own block fails. */
  lemma RouteOfChecks(c: Checks, current: int)
    requires Assemble(c, LastStep) != map[]
    ensures var s := ErrorStep(Assemble(c, LastStep), current);
      && 1 <= s <= 3
      && Assemble(c, s) != map[]
      && forall earlier :: 1 <= earlier < s ==> Assemble(c, earlier) == map[]
  {
    var v1, v2, v3 := Assemble(c, 1), Assemble(c, 2), Assemble(c, 3);
    AssembleFourIsUnion(c, 0);
    AssembleStepKeys(c, 1);
    AssembleStepKeys(c, 2);
    AssembleStepKeys(c, 3);
    RouteOfUnion(v1, v2, v3, current);
    var s := ErrorStep(v1 + v2 + v3, current);
    if s == 1 {
      assert Assemble(c, s) == v1;
    } else if s == 2 {
      assert Assemble(c, s) == v2;
    } else {
      assert s == 3 && Assemble(c, s) == v3;
    }
    forall earlier | 1 <= earlier < s ensures Assemble(c, earlier) == map[] {
      if earlier == 1 {
        assert v1 == map[];
      } else {
        assert earlier == 2 && v2 == map[];
      }
    }
  }

  /** Routing an error object made of the three step blocks picks the first non-empty block. */
  lemma RouteOfUnion(v1: Errors, v2: Errors, v3: Errors, current: int)
    requires forall f :: f in v1 ==> IsBasic(f)
    requires forall f :: f in v2 ==> f == Details
    requires forall f :: f in v3 ==> f == Images
    requires v1 + v2 + v3 != map[]
    ensures var s := ErrorStep(v1 + v2 + v3, current);
      && (s == 1 <==> v1 != map[])
      && (s == 2 <==> v1 == map[] && v2 != map[])
      && (s == 3 <==> v1 == map[] && v2 == map[] && v3 != map[])
  {
    var errs := v1 + v2 + v3;
    if v1 != map[] {
      var f :| f in v1;
      assert f in errs && StepOwns(1, f);
    } else if v2 != map[] {
      assert Details in v2;
      assert forall g :: g in errs ==> g == Details || g == Images;
    } else {
      var f :| f in errs;
      assert f in v3;
      assert forall g :: g in errs ==> g == Images;
    }
  }

  // ---------------------------------------------------------------------------
  // The wizard as a state machine
  // ---------------------------------------------------------------------------

  /** The page's controls. */
  datatype Event =
    | TypeTag(text: string)
    | ClickAddTag
    | ClickRemoveTag(index: int)
    | ChooseImages(files: seq<File>)
    | ClickRemoveImage(index: int)
    | ClickContinue
    | ClickBack

  /**
    The controls the page renders on each step: the tag controls on the
    basics panel, the image controls on the media panel, Continue on steps 1
    to 3 and Back on steps 2 to 4.
  */
  function Enabled(w: Wizard, e: Event): (b: bool)
    // The description and review panels offer only the navigation buttons.
    ensures w.step == 2 ==> (b <==> e.ClickContinue? || e.ClickBack?)
    ensures w.step == LastStep ==> (b <==> e.ClickBack?)
    ensures !(1 <= w.step <= LastStep) ==> !b
  {
    match e
    case TypeTag(_) => w.step == 1
    case ClickAddTag => w.step == 1
    case ClickRemoveTag(i) => w.step == 1 && 0 <= i < |w.draft.tags|
    case ChooseImages(_) => w.step == 3
    case ClickRemoveImage(i) => w.step == 3 && 0 <= i < |w.draft.images|
    case ClickContinue => 1 <= w.step <= 3
    case ClickBack => 2 <= w.step <= LastStep
  }

  /** One handler run. */
  function Step(w: Wizard, e: Event, today: int): (r: Wizard)
    // Only Continue and Back move between panels, one panel at a time.
    ensures r.step != w.step ==> e.ClickContinue? || e.ClickBack?
    ensures w.step - 1 <= r.step <= w.step + 1
    // The typed fields are never touched by a handler here; only tags and images change.
    ensures r.draft == w.draft.(tags := r.draft.tags, images := r.draft.images)
    ensures r.draft.tags != w.draft.tags ==> e.ClickAddTag? || e.ClickRemoveTag?
    ensures r.draft.images != w.draft.images ==> e.ChooseImages? || e.ClickRemoveImage?
  {
    match e
    case TypeTag(text) => w.(tagInput := text)
    case ClickAddTag => AddTag(w)
    case ClickRemoveTag(i) => RemoveTag(w, i)
    case ChooseImages(files) => AddImages(w, files)
    case ClickRemoveImage(i) => RemoveImage(w, i)
    case ClickContinue => NextStep(w, today)
    case ClickBack => PrevStep(w)
  }

  /** What every reachable page satisfies: a step from 1 to 4 and a valid tag list. */
  predicate Good(w: Wizard) {
    1 <= w.step <= LastStep && TagsOk(w.draft.tags)
  }

  /** The initial page is good, and every enabled control keeps it good. */
  lemma StepKeepsGood(w: Wizard, e: Event, today: int)
    requires Good(w) && Enabled(w, e)
    ensures Good(Step(w, e, today))
  {
    if e.ClickRemoveTag? {
      RemoveTagKeepsTagsOk(w, e.index);
    }
  }

  /** A rejected submission also leaves the page good. */
  lemma SubmitKeepsGood(w: Wizard, today: int)
    requires Good(w)
    ensures Good(HandleSubmit(w, today).w)
  {
  }

  /** Runs a sequence of control activations, skipping none: each must be enabled when it happens. */
  predicate Run(w: Wizard, events: seq<Event>, today: int)
    decreases |events|
  {
    events == [] || (Enabled(w, events[0]) && Run(Step(w, events[0], today), events[1..], today))
  }

  function Replay(w: Wizard, events: seq<Event>, today: int): Wizard
    decreases |events|
  {
    if events == [] then w else Replay(Step(w, events[0], today), events[1..], today)
  }

  /** From the first render, any run of enabled controls keeps the step in 1..4 and the tags valid. */
  lemma {:induction false} RunKeepsGood(w: Wizard, events: seq<Event>, today: int)
    requires Good(w) && Run(w, events, today)
    ensures Good(Replay(w, events, today))
    decreases |events|
  {
    if events != [] {
      StepKeepsGood(w, events[0], today);
      RunKeepsGood(Step(w, events[0], today), events[1..], today);
    }
  }

  lemma InitialIsGood()
    ensures Good(Initial())
  {
  }
}

=== FILE: Dashboard.dfy ===
/**
  The admin dashboard (`src/pages/admin/Dashboard.jsx`): the search and
  status filter over the campaign list, the per-id updates (approval and
  the active flag), the cascading delete of a campaign and its reported
  comments, and the statistics cards.

  The server calls are left out: `handleStatusUpdate` receives whether the
  server answered 200.
*/
module Dashboard {
  import opened Common

  /** A campaign row as the admin list holds it. `totalDonations` is `None` when missing or null. */
  datatype AdminCampaign = AdminCampaign(
    id: int,
    title: string,
    isActive: bool,
    status: string,
    totalDonations: Option<nat>,
    isFeatured: bool)

  /** A reported comment; `campaignId` may be absent. */
  datatype Comment = Comment(commentId: int, campaignId: Option<int>)

  const All: string := "all"
  const Approved: string := "approved"
  const Pending: string := "pending"

  // ---------------------------------------------------------------------------
  // filteredCampaigns
  // ---------------------------------------------------------------------------

  /** The status select: `all` keeps everything, `approved` the active rows, `pending` the inactive ones. */
  predicate StatusMatches(filterStatus: string, c: AdminCampaign) {
    filterStatus == All
    || (filterStatus == Approved && c.isActive)
    || (filterStatus == Pending && !c.isActive)
  }

  /** The row passes when its lower-cased title contains the lower-cased search and its status matches. */
  predicate Shown(searchTerm: string, filterStatus: string, c: AdminCampaign) {
    ContainsIgnoreCase(c.title, searchTerm) && StatusMatches(filterStatus, c)
  }

  /** `filteredCampaigns`. */
  function FilteredCampaigns(cs: seq<AdminCampaign>, searchTerm: string, filterStatus: string): (r: seq<AdminCampaign>)
    ensures IsSubsequence(r, cs)
    ensures forall k :: 0 <= k < |r| ==> Shown(searchTerm, filterStatus, r[k])
    ensures forall c :: c in cs && Shown(searchTerm, filterStatus, c) ==> c in r
  {
    Filter(cs, c => Shown(searchTerm, filterStatus, c))
  }

  /** With an empty search and the `all` filter the whole list is shown. */
  lemma NoFilterShowsAll(cs: seq<AdminCampaign>)
    ensures FilteredCampaigns(cs, "", All) == cs
  {
    forall k | 0 <= k < |cs| ensures Shown("", All, cs[k]) {
      ContainsEmptySearch(cs[k].title);
    }
    FilterAll(cs, c => Shown("", All, c));
  }

  /** A status value other than the three the select offers matches no row. */
  lemma UnknownStatusShowsNothing(cs: seq<AdminCampaign>, searchTerm: string, filterStatus: string)
    requires filterStatus != All && filterStatus != Approved && filterStatus != Pending
    ensures FilteredCampaigns(cs, searchTerm, filterStatus) == []
  {
    var r := FilteredCampaigns(cs, searchTerm, filterStatus);
    assert forall k :: 0 <= k < |r| ==> !StatusMatches(filterStatus, r[k]);
  }

  /** With no search, the `approved` and `pending` views split the list between them. */
  lemma ApprovedAndPendingPartition(cs: seq<AdminCampaign>)
    ensures |FilteredCampaigns(cs, "", Approved)| + |FilteredCampaigns(cs, "", Pending)| == |cs|
  {
    forall c: AdminCampaign ensures Shown("", Approved, c) == c.isActive && Shown("", Pending, c) == !c.isActive {
      ContainsEmptySearch(c.title);
    }
    var p := (c: AdminCampaign) => Shown("", Approved, c);
    var q := (c: AdminCampaign) => Shown("", Pending, c);
    CountSplit(cs, p, q);
  }

  // ---------------------------------------------------------------------------
  // Updates by id
  // ---------------------------------------------------------------------------

  /** `approveCampaign(id)`: every row with that id gets status `approved`; every other row is untouched. */
  function ApproveCampaign(cs: seq<AdminCampaign>, id: int): (r: seq<AdminCampaign>)
    ensures |r| == |cs|
    ensures forall k :: 0 <= k < |cs| && cs[k].id == id ==> r[k] == cs[k].(status := Approved)
    ensures forall k :: 0 <= k < |cs| && cs[k].id != id ==> r[k] == cs[k]
  {
    if cs == [] then []
    else [if cs[0].id == id then cs[0].(status := Approved) else cs[0]] + ApproveCampaign(cs[1..], id)
  }

  /** A successful `handleStatusUpdate(id, active)`: the rows with that id take the new flag; a failed call changes nothing. */
  function HandleStatusUpdate(cs: seq<AdminCampaign>, id: int, newStatus: bool, serverOk: bool): (r: seq<AdminCampaign>)
    ensures |r| == |cs|
    ensures !serverOk ==> r == cs
    ensures serverOk ==> forall k :: 0 <= k < |cs| ==>
      r[k] == if cs[k].id == id then cs[k].(isActive := newStatus) else cs[k]
  {
    if !serverOk then cs else SetActive(cs, id, newStatus)
  }

  function SetActive(cs: seq<AdminCampaign>, id: int, active: bool): (r: seq<AdminCampaign>)
    ensures |r| == |cs|
    ensures forall k :: 0 <= k < |cs| ==> r[k] == if cs[k].id == id then cs[k].(isActive := active) else cs[k]
  {
    if cs == [] then []
    else [if cs[0].id == id then cs[0].(isActive := active) else cs[0]] + SetActive(cs[1..], id, active)
  }

  /** `deleteCampaign`: with a selected campaign, drop it and its reported comments; with none, change nothing. */
  function DeleteCampaign(cs: seq<AdminCampaign>, comments: seq<Comment>, selectedId: Option<int>)
    : (r: (seq<AdminCampaign>, seq<Comment>))
    ensures selectedId.None? ==> r == (cs, comments)
    ensures selectedId.Some? ==>
      && (forall k :: 0 <= k < |r.0| ==> r.0[k].id != selectedId.value && r.0[k] in cs)
      && (forall c :: c in cs && c.id != selectedId.value ==> c in r.0)
      && (forall k :: 0 <= k < |r.1| ==> r.1[k].campaignId != Some(selectedId.value) && r.1[k] in comments)
      && (forall m :: m in comments && m.campaignId != Some(selectedId.value) ==> m in r.1)
      && IsSubsequence(r.0, cs) && IsSubsequence(r.1, comments)
  {
    match selectedId
    case None => (cs, comments)
    case Some(id) =>
      (Filter(cs, (c: AdminCampaign) => c.id != id), Filter(comments, (m: Comment) => m.campaignId != Some(id)))
  }

  // ---------------------------------------------------------------------------
  // Statistics
  // ---------------------------------------------------------------------------

  /** `campaign.total_donations || 0`. */
  function Donations(c: AdminCampaign): nat {
    c.totalDonations.GetOr(0)
  }

  /** `campaigns.reduce((sum, c) => sum + (c.total_donations || 0), 0)`. */
  function TotalRaised(cs: seq<AdminCampaign>): (n: nat)
    ensures cs == [] ==> n == 0
  {
    if cs == [] then 0 else TotalRaised(cs[..|cs| - 1]) + Donations(cs[|cs| - 1])
  }

  /** Every campaign's donations are part of the total. */
  lemma {:induction false} TotalRaisedBoundsEach(cs: seq<AdminCampaign>, k: int)
    requires 0 <= k < |cs|
    ensures Donations(cs[k]) <= TotalRaised(cs)
  {
    if k < |cs| - 1 {
      assert cs[..|cs| - 1][k] == cs[k];
      TotalRaisedBoundsEach(cs[..|cs| - 1], k);
    }
  }

  /** Rows without donations add nothing. */
  lemma {:induction false} TotalRaisedZeroIff(cs: seq<AdminCampaign>)
    ensures TotalRaised(cs) == 0 <==> forall k :: 0 <= k < |cs| ==> Donations(cs[k]) == 0
  {
    if cs != [] {
      var init := cs[..|cs| - 1];
      TotalRaisedZeroIff(init);
      assert forall k :: 0 <= k < |init| ==> init[k] == cs[k];
      if TotalRaised(cs) == 0 {
        forall k | 0 <= k < |cs| ensures Donations(cs[k]) == 0 {
          if k < |init| {
            assert Donations(init[k]) == 0;
          }
        }
      }
    }
  }

  predicate IsActive(c: AdminCampaign) {
    c.isActive
  }

  predicate IsPending(c: AdminCampaign) {
    !c.isActive
  }

  /** The four statistics cards. */
  datatype Stats = Stats(total: nat, pending: nat, approved: nat, totalRaised: nat, totalBackers: nat)

  function Statistics(cs: seq<AdminCampaign>): (s: Stats)
    ensures s.total == |cs| && s.totalBackers == |cs|
    ensures s.pending + s.approved == s.total
    ensures s.totalRaised == TotalRaised(cs)
  {
    var pending := Count(cs, IsPending);
    var approved := Count(cs, IsActive);
    CountSplit(cs, IsActive, IsPending);
    Stats(|cs|, pending, approved, TotalRaised(cs), |cs|)
  }

  /** Approving sets `status`, but the cards count `is_active`: the statistics do not move. */
  lemma {:induction false} ApproveLeavesStatistics(cs: seq<AdminCampaign>, id: int)
    ensures Statistics(ApproveCampaign(cs, id)) == Statistics(cs)
  {
    var r := ApproveCampaign(cs, id);
    forall k | 0 <= k < |cs| ensures r[k].isActive == cs[k].isActive && Donations(r[k]) == Donations(cs[k]) {
    }
    SameActivityCounts(cs, r);
    SameDonationsTotal(cs, r);
  }

  /** Two lists that agree row by row on the active flag have the same pending and approved counts. */
  lemma {:induction false} SameActivityCounts(a: seq<AdminCampaign>, b: seq<AdminCampaign>)
    requires |a| == |b| && forall k :: 0 <= k < |a| ==> a[k].isActive == b[k].isActive
    ensures Count(a, IsActive) == Count(b, IsActive)
    ensures Count(a, IsPending) == Count(b, IsPending)
  {
    if a != [] {
      SameActivityCounts(a[1..], b[1..]);
    }
  }

  /** Two lists that agree row by row on donations have the same total. */
  lemma {:induction false} SameDonationsTotal(a: seq<AdminCampaign>, b: seq<AdminCampaign>)
    requires |a| == |b| && forall k :: 0 <= k < |a| ==> Donations(a[k]) == Donations(b[k])
    ensures TotalRaised(a) == TotalRaised(b)
  {
    if a != [] {
      SameDonationsTotal(a[..|a| - 1], b[..|b| - 1]);
    }
  }
}

=== FILE: EditProfile.dfy ===
/**
  The profile editor (`src/pages/profile/EditProfile.jsx`): the zod schema
  `profileSchema`, the prefill from the signed-in user, and `submitHandler`,
  which sends only the truthy values.

  The schema's regular expressions are written as sequences of character
  classes, one class per character: both patterns are anchored at both ends
  and have fixed length, so this is exactly what they match. `\d` without
  the `u` flag is the ASCII digits.
*/
module EditProfile {
  import opened Common

  /** A pattern of fixed length: position `k` admits the characters of `pat[k]`. */
  type Pattern = seq<set<char>>

  /** Whole-string match of a fixed-length anchored pattern, scanned left to right. */
  function Matches(s: string, pat: Pattern): (b: bool)
    ensures b ==> |s| == |pat|
  {
    if s == [] || pat == [] then s == [] && pat == []
    else s[0] in pat[0] && Matches(s[1..], pat[1..])
  }

  /** The scan accepts exactly the strings of the pattern's length whose every character is in its class. */
  lemma {:induction false} MatchesIff(s: string, pat: Pattern)
    ensures Matches(s, pat) <==> |s| == |pat| && forall k :: 0 <= k < |s| ==> s[k] in pat[k]
  {
    if s != [] && pat != [] {
      MatchesIff(s[1..], pat[1..]);
      if |s| == |pat| && forall k :: 0 <= k < |s| ==> s[k] in pat[k] {
        assert forall k :: 0 <= k < |s| - 1 ==> s[1..][k] == s[k + 1] && pat[1..][k] == pat[k + 1];
      }
    }
  }

  const Digits: set<char> := {'0', '1', '2', '3', '4', '5', '6', '7', '8', '9'}

  function Repeat(c: set<char>, n: nat): (p: Pattern)
    ensures |p| == n && forall k :: 0 <= k < n ==> p[k] == c
  {
    if n == 0 then [] else [c] + Repeat(c, n - 1)
  }

  /** `/^01[0125][0-9]{8}$/`. */
  const MobilePattern: Pattern := [{'0'}, {'1'}, {'0', '1', '2', '5'}] + Repeat(Digits, 8)

  /** `/^\d{4}-\d{2}-\d{2}$/`. */
  const DatePattern: Pattern := Repeat(Digits, 4) + [{'-'}] + Repeat(Digits, 2) + [{'-'}] + Repeat(Digits, 2)

  /**
    An Egyptian mobile number as the schema reads it: eleven characters,
    starting `01`, then one of `0 1 2 5`, then eight digits.
  */
  predicate EgyptianMobile(s: string) {
    && |s| == 11
    && s[0] == '0' && s[1] == '1'
    && (s[2] == '0' || s[2] == '1' || s[2] == '2' || s[2] == '5')
    && forall k :: 3 <= k < 11 ==> IsDigit(s[k])
  }

  /** The mobile pattern accepts exactly the Egyptian mobile numbers. */
  lemma MobilePatternIff(s: string)
    ensures Matches(s, MobilePattern) <==> EgyptianMobile(s)
  {
    MatchesIff(s, MobilePattern);
    assert forall k :: 3 <= k < 11 ==> MobilePattern[k] == Digits;
    assert forall c: char :: c in Digits <==> IsDigit(c);
  }

  /** A date in the shape `dddd-dd-dd`; the calendar is not consulted. */
  predicate DateShaped(s: string) {
    && |s| == 10
    && s[4] == '-' && s[7] == '-'
    && forall k :: 0 <= k < 10 && k != 4 && k != 7 ==> IsDigit(s[k])
  }

  /** The date pattern accepts exactly the strings of that shape. */
  lemma DatePatternIff(s: string)
    ensures Matches(s, DatePattern) <==> DateShaped(s)
  {
    MatchesIff(s, DatePattern);
    assert forall k :: 0 <= k < 10 && k != 4 && k != 7 ==> DatePattern[k] == Digits;
    assert DatePattern[4] == {'-'} && DatePattern[7] == {'-'};
    assert forall c: char :: c in Digits <==> IsDigit(c);
  }

  /** A date shape does not check the calendar: month 13 passes. */
  lemma DateShapeIgnoresCalendar()
    ensures Matches("2024-13-45", DatePattern)
  {
    DatePatternIff("2024-13-45");
  }

  // ---------------------------------------------------------------------------
  // The schema
  // ---------------------------------------------------------------------------

  /** The values the form hands to the schema; `None` is a value the form never set. */
  datatype ProfileInput = ProfileInput(
    username: string,
    firstName: string,
    lastName: string,
    mobilePhone: string,
    birthdate: Option<string>,
    facebookProfile: Option<string>,
    country: Option<string>)

  datatype ProfileField = Username | FirstName | LastName | MobilePhone | Birthdate

  /** The schema's messages, keyed by field. */
  type SchemaErrors = map<ProfileField, string>

  /** `z.string().regex(date).optional()` as written: absent passes, any present string must be date-shaped. */
  predicate BirthdateOkAsWritten(b: Option<string>) {
    b.None? || Matches(b.value, DatePattern)
  }

  /** The birthdate rule as evidently intended: the empty date input also counts as absent. */
  predicate BirthdateOk(b: Option<string>) {
    b.None? || b.value == "" || Matches(b.value, DatePattern)
  }

  /** The message each rule reports. */
  function RuleMessage(f: ProfileField): string {
    match f
    case Username => "Username must be at least 3 characters"
    case FirstName => "First name is required"
    case LastName => "Last name is required"
    case MobilePhone => "Enter a valid Egyptian mobile number"
    case Birthdate => "Enter a valid date (YYYY-MM-DD)"
  }

  /** Every entry of an error object carries its own field's message. */
  predicate OwnMessages(e: SchemaErrors) {
    forall f :: f in e ==> e[f] == RuleMessage(f)
  }

  /** The schema, with the birthdate rule passed in; `facebook_profile`'s URL rule is not modelled. */
  function CheckWith(p: ProfileInput, birthdateOk: Option<string> -> bool): (e: SchemaErrors)
    ensures Username in e <==> |p.username| < 3
    ensures FirstName in e <==> p.firstName == ""
    ensures LastName in e <==> p.lastName == ""
    ensures MobilePhone in e <==> !EgyptianMobile(p.mobilePhone)
    ensures Birthdate in e <==> !birthdateOk(p.birthdate)
    ensures OwnMessages(e)
  {
    MobilePatternIff(p.mobilePhone);
    var e1 := PutIf(map[], |p.username| < 3, Username);
    var e2 := PutIf(e1, |p.firstName| < 1, FirstName);
    var e3 := PutIf(e2, |p.lastName| < 1, LastName);
    var e4 := PutIf(e3, !Matches(p.mobilePhone, MobilePattern), MobilePhone);
    PutIf(e4, !birthdateOk(p.birthdate), Birthdate)
  }

  /** A failed rule writes its message under its field; the other fields keep their entries. */
  function PutIf(e: SchemaErrors, failed: bool, f: ProfileField): (r: SchemaErrors)
    ensures f in r <==> failed || f in e
    ensures forall g :: g != f ==> (g in r <==> g in e)
    ensures OwnMessages(e) ==> OwnMessages(r)
  {
    if failed then e[f := RuleMessage(f)] else e
  }

  lemma DateRuleShape(b: Option<string>)
    ensures b.Some? ==> (Matches(b.value, DatePattern) <==> DateShaped(b.value))
  {
    if b.Some? {
      DatePatternIff(b.value);
    }
  }

  /** `profileSchema` as written. */
  function CheckAsWritten(p: ProfileInput): (e: SchemaErrors)
    ensures Birthdate in e <==> p.birthdate.Some? && !DateShaped(p.birthdate.value)
    ensures OwnMessages(e)
  {
    DateRuleShape(p.birthdate);
    CheckWith(p, BirthdateOkAsWritten)
  }

  /** `profileSchema` with the birthdate rule corrected; the rest of the model uses this one. */
  function Check(p: ProfileInput): (e: SchemaErrors)
    ensures Birthdate in e <==> p.birthdate.Some? && p.birthdate.value != "" && !DateShaped(p.birthdate.value)
    ensures forall f :: f != Birthdate ==> (f in e <==> f in CheckAsWritten(p))
    ensures OwnMessages(e)
  {
    DateRuleShape(p.birthdate);
    CheckWith(p, BirthdateOk)
  }

  // ---------------------------------------------------------------------------
  // Prefill and submit
  // ---------------------------------------------------------------------------

  /** The signed-in user as the store holds it; `None` is a missing or null field. */
  datatype User = User(
    username: Option<string>,
    firstName: Option<string>,
    lastName: Option<string>,
    mobilePhone: Option<string>,
    birthdate: Option<string>,
    facebookProfile: Option<string>,
    country: Option<string>)

  /** `user.x || ""`. */
  function OrEmpty(v: Option<string>): (s: string)
    ensures v.Some? && v.value != "" ==> s == v.value
    ensures !(v.Some? && v.value != "") ==> s == ""
  {
    if v.Some? && v.value != "" then v.value else ""
  }

  /** The prefill effect: every editable field set from the user, `""` where the user has none. */
  function Prefill(u: User): (p: ProfileInput)
    ensures p.birthdate.Some? && p.facebookProfile.Some? && p.country.Some?
    ensures p.username == OrEmpty(u.username) && p.mobilePhone == OrEmpty(u.mobilePhone)
    ensures p.firstName == OrEmpty(u.firstName) && p.lastName == OrEmpty(u.lastName)
    ensures p.birthdate.value == OrEmpty(u.birthdate)
    ensures p.facebookProfile.value == OrEmpty(u.facebookProfile) && p.country.value == OrEmpty(u.country)
  {
    ProfileInput(OrEmpty(u.username), OrEmpty(u.firstName), OrEmpty(u.lastName), OrEmpty(u.mobilePhone),
                 Some(OrEmpty(u.birthdate)), Some(OrEmpty(u.facebookProfile)), Some(OrEmpty(u.country)))
  }

  /** As written, every user without a birthdate on record gets a prefilled form the schema refuses. */
  lemma BlankBirthdateRefusedAsWritten(u: User)
    requires OrEmpty(u.birthdate) == ""
    ensures Birthdate in CheckAsWritten(Prefill(u))
    ensures CheckAsWritten(Prefill(u))[Birthdate] == "Enter a valid date (YYYY-MM-DD)"
  {
    assert !DateShaped("");
  }

  /**
    A user with no birthdate on record, whose other fields are valid, is
    refused by the schema as written on the birthdate alone: the empty date
    is not date-shaped. The corrected rule lets the same form through.
  */
  lemma NoBirthdateBlocksSubmitAsWritten()
    ensures var u := User(Some("amira"), Some("Amira"), Some("Saleh"), Some("01012345678"), None,
                          Some("https://www.facebook.com/amira"), None);
      && CheckAsWritten(Prefill(u)).Keys == {Birthdate}
      && Check(Prefill(u)) == map[]
  {
    var u := User(Some("amira"), Some("Amira"), Some("Saleh"), Some("01012345678"), None,
                  Some("https://www.facebook.com/amira"), None);
    var p := Prefill(u);
    assert p == ProfileInput("amira", "Amira", "Saleh", "01012345678", Some(""),
                             Some("https://www.facebook.com/amira"), Some(""));
    assert EgyptianMobile(p.mobilePhone) by {
      var s := p.mobilePhone;
      assert forall k :: 3 <= k < 11 ==> IsDigit(s[k]);
    }
    BlankBirthdateRefusedAsWritten(u);
    OnlyBirthdate(CheckAsWritten(p));
    NoErrors(Check(p));
  }

  /** An error object with the birthdate and none of the other four fields holds just the birthdate. */
  lemma OnlyBirthdate(e: SchemaErrors)
    requires Username !in e && FirstName !in e && LastName !in e && MobilePhone !in e && Birthdate in e
    ensures e.Keys == {Birthdate}
  {
    forall f: ProfileField | f in e ensures f == Birthdate {
      match f
      case Username =>
      case FirstName =>
      case LastName =>
      case MobilePhone =>
      case Birthdate =>
    }
  }

  /** An error object with none of the five fields is empty. */
  lemma NoErrors(e: SchemaErrors)
    requires Username !in e && FirstName !in e && LastName !in e && MobilePhone !in e && Birthdate !in e
    ensures e == map[]
  {
    forall f: ProfileField ensures f !in e {
      match f
      case Username =>
      case FirstName =>
      case LastName =>
      case MobilePhone =>
      case Birthdate =>
    }
  }

  /** For a prefilled form, the corrected schema accepts a missing birthdate and otherwise agrees with the one as written. */
  lemma CorrectedAcceptsPrefilledBlank(u: User)
    ensures Birthdate !in Check(Prefill(u)) <==> OrEmpty(u.birthdate) == "" || DateShaped(OrEmpty(u.birthdate))
    ensures OrEmpty(u.birthdate) != "" ==> Check(Prefill(u)).Keys == CheckAsWritten(Prefill(u)).Keys
  {
    var p := Prefill(u);
    var e, w := Check(p), CheckAsWritten(p);
    if OrEmpty(u.birthdate) != "" {
      forall f: ProfileField ensures f in e <==> f in w {
        if f == Birthdate {
          assert p.birthdate.Some? && p.birthdate.value != "";
        }
      }
    }
  }

  /** A value in the data object `handleSubmit` passes on. */
  datatype JsValue = Undefined | Str(s: string) | Upload(files: seq<File>)

  /** `if (data[key])`: empty strings and `undefined` are skipped; a file list is an object, so always kept. */
  predicate Truthy(v: JsValue) {
    match v
    case Undefined => false
    case Str(s) => s != ""
    case Upload(_) => true
  }

  datatype DataEntry = DataEntry(key: string, value: JsValue)

  predicate Kept(e: DataEntry) {
    Truthy(e.value)
  }

  /** `submitHandler`: the entries appended to the `FormData`, in key order. */
  function SubmitEntries(data: seq<DataEntry>): (sent: seq<DataEntry>)
    ensures forall k :: 0 <= k < |sent| ==> Truthy(sent[k].value) && sent[k] in data
    ensures forall e :: e in data && Truthy(e.value) ==> e in sent
    ensures IsSubsequence(sent, data)
  {
    Filter(data, Kept)
  }

  /** Nothing is dropped when every value is truthy, and nothing is sent when none is. */
  lemma SubmitEntriesExtremes(data: seq<DataEntry>)
    ensures (forall k :: 0 <= k < |data| ==> Truthy(data[k].value)) ==> SubmitEntries(data) == data
    ensures (forall k :: 0 <= k < |data| ==> !Truthy(data[k].value)) ==> SubmitEntries(data) == []
  {
    if forall k :: 0 <= k < |data| ==> Truthy(data[k].value) {
      FilterAll(data, Kept);
    }
    if forall k :: 0 <= k < |data| ==> !Truthy(data[k].value) {
      FilterNone(data, Kept);
    }
  }
}

=== FILE: ProfileLists.dfy ===
/**
  The two paged lists on the profile page: the user's campaigns
  (`src/pages/profile/components/Campaign.jsx`) and the user's donations
  (`src/pages/profile/components/Donations.jsx`). Both components hold the
  same four pieces of state and the same fetch, first-page effect and Load
  More handler; they differ only in the first URL.

  The HTTP client is a parameter: each fetch is given the `Reply` it
  receives. Rows are opaque.
*/
module ProfileLists {
  import opened Common

  datatype ListKind = CampaignList | DonationList

  /** `campaignList`/`donationsList`, `loading`, `error` and `nextPageUrl`. */
  datatype ListState<T> = ListState(items: seq<T>, loading: bool, error: Option<string>, nextPageUrl: Option<string>)

  /** A page of a paginated server response. */
  datatype PageBody<T> = PageBody(results: seq<T>, next: Option<string>)

  /** What `axios.get` yields: a body, or a rejection. */
  datatype Reply<T> = Got(body: PageBody<T>) | Failed

  const FetchError: string := "Something went wrong while fetching comments."

  /** The state at first render: nothing loaded, the loading flag set. */
  function Initial<T>(): (st: ListState<T>)
    ensures st.items == [] && st.loading && st.error.None? && st.nextPageUrl.None?
  {
    ListState([], true, None, None)
  }

  /** The first page of a user's list: four rows, filtered by the user's id. */
  function InitialUrl(kind: ListKind, userId: int): (url: string)
    ensures kind == CampaignList ==> url == "http://127.0.0.1:8000/api/projects?user=" + IntToString(userId) + "&page_size=4"
    ensures kind == DonationList ==> url == "http://127.0.0.1:8000/api/users/" + IntToString(userId) + "/donations?page_size=4"
  {
    match kind
    case CampaignList => "http://127.0.0.1:8000/api/projects?user=" + IntToString(userId) + "&page_size=4"
    case DonationList => "http://127.0.0.1:8000/api/users/" + IntToString(userId) + "/donations?page_size=4"
  }

  /**
    The updater handed to the list setter: `seen` is the list the fetch
    closed over and `prev` the list current when React applies the update.
  */
  function Merge<T>(prev: seq<T>, seen: seq<T>, results: seq<T>): (r: seq<T>)
    ensures |seen| > 0 ==> r == prev + results
    ensures |seen| == 0 ==> r == results
  {
    if |seen| > 0 then prev + results else results
  }

  /** Without an update in between, the closed-over list is the current one and every page is appended. */
  lemma MergeSequential<T>(prev: seq<T>, results: seq<T>)
    ensures Merge(prev, prev, results) == prev + results
  {
    if prev == [] {
      assert prev + results == results;
    }
  }

  /** The end of `fetchCampaigns`/`fetchDonations`: the page merged in, or the error set; loading ends either way. */
  function Receive<T>(st: ListState<T>, reply: Reply<T>): (r: ListState<T>)
    ensures !r.loading
    ensures reply.Got? ==> r.nextPageUrl == reply.body.next && r.error == st.error
    ensures reply.Failed? ==> r.items == st.items && r.nextPageUrl == st.nextPageUrl && r.error == Some(FetchError)
  {
    match reply
    case Got(body) => st.(items := Merge(st.items, st.items, body.results), nextPageUrl := body.next, loading := false)
    case Failed => st.(error := Some(FetchError), loading := false)
  }

  /** A received page always ends up after the rows already held, and `next` replaces the Load More link. */
  lemma ReceiveAppends<T>(st: ListState<T>, body: PageBody<T>)
    ensures Receive(st, Got(body)).items == st.items + body.results
  {
    MergeSequential(st.items, body.results);
  }

  /** The effect on `user?.id`: with a user, fetch the first page; without one, nothing happens. */
  function Mount<T>(st: ListState<T>, kind: ListKind, userId: Option<int>, reply: Reply<T>): (r: (Option<string>, ListState<T>))
    ensures userId.None? ==> r == (None, st)
    ensures userId.Some? ==> r.0 == Some(InitialUrl(kind, userId.value)) && r.1 == Receive(st, reply)
  {
    match userId
    case None => (None, st)
    case Some(id) => (Some(InitialUrl(kind, id)), Receive(st, reply))
  }

  /** `handleLoadMore`: with a next link, set loading and fetch it; otherwise nothing happens. */
  function LoadMore<T>(st: ListState<T>, reply: Reply<T>): (r: (Option<string>, ListState<T>))
    ensures !Truthy(st.nextPageUrl) ==> r == (None, st)
    ensures Truthy(st.nextPageUrl) ==> r.0 == st.nextPageUrl && r.1 == Receive(st.(loading := true), reply)
  {
    if Truthy(st.nextPageUrl) then (st.nextPageUrl, Receive(st.(loading := true), reply))
    else (None, st)
  }

  /** Loading more keeps every row already shown, in place, and adds the new page after them. */
  lemma LoadMoreKeepsRows<T>(st: ListState<T>, body: PageBody<T>)
    requires Truthy(st.nextPageUrl)
    ensures var r := LoadMore(st, Got(body)).1;
      |r.items| == |st.items| + |body.results| && r.items[..|st.items|] == st.items
  {
    ReceiveAppends(st.(loading := true), body);
  }

  /** What the component renders. */
  datatype View<T> = LoadingNotice | Rows(items: seq<T>, loadMore: bool)

  /** The placeholder while the first page is on its way, otherwise the rows and, with a next link, Load More. */
  function Render<T>(st: ListState<T>): (v: View<T>)
    ensures v.LoadingNotice? <==> st.loading && st.items == []
    ensures v.Rows? ==> v.items == st.items && (v.loadMore <==> Truthy(st.nextPageUrl))
  {
    if st.loading && |st.items| == 0 then LoadingNotice else Rows(st.items, Truthy(st.nextPageUrl))
  }

  /** The error is stored but never rendered: two states that differ only in it look the same. */
  lemma ErrorNeverRendered<T>(st: ListState<T>, e: Option<string>)
    ensures Render(st.(error := e)) == Render(st)
  {
  }

  /** Without a user nothing is fetched, so the loading notice stays. */
  lemma NoUserKeepsLoading<T>(kind: ListKind, reply: Reply<T>)
    ensures Render(Mount(Initial<T>(), kind, None, reply).1) == LoadingNotice
  {
  }

  /** A failed first fetch leaves an empty list without Load More, not the loading notice. */
  lemma FailedFirstFetchShowsEmptyList<T>(kind: ListKind, userId: int)
    ensures Render(Mount(Initial<T>(), kind, Some(userId), Failed).1) == Rows([], false)
  {
  }
}

=== FILE: SinceLabel.dfy ===
/**
  `getSinceLabel`, the relative age shown next to each row of the profile's
  campaign and donation lists (`src/pages/profile/components/Campaign.jsx`
  and `src/pages/profile/components/Donations.jsx` carry the same copy).

  The clock is a parameter. A moment carries its epoch milliseconds together
  with the local calendar year and month that `getFullYear` and `getMonth`
  report for it; the time zone that relates the two is not modelled.
*/
module SinceLabel {
  import opened Common

  /** A moment: epoch milliseconds, local calendar year, local month (0 is January). */
  datatype Instant = Instant(ms: int, year: int, month: int)

  /** Months counted from year 0, so that month differences are plain subtraction. */
  function MonthIndex(t: Instant): int {
    12 * t.year + t.month
  }

  /** Two moments whose calendar fields are in range and run forward with time. */
  predicate Coherent(created: Instant, now: Instant) {
    && 0 <= created.month < 12 && 0 <= now.month < 12
    && (created.ms <= now.ms ==> MonthIndex(created) <= MonthIndex(now))
  }

  datatype Unit = Day | Week | Month | Year

  /** A label: the number and the unit it counts. */
  datatype Age = Age(n: int, unit: Unit)

  /** `Math.floor(diffInMs / (1000 * 60 * 60 * 24))`: whole days elapsed, rounded down. */
  function DiffInDays(created: Instant, now: Instant): (d: int)
    ensures d * DayMs <= now.ms - created.ms < (d + 1) * DayMs
  {
    (now.ms - created.ms) / DayMs
  }

  /** `diffInMonths`: the difference of the calendar months, ignoring the days. */
  function DiffInMonths(created: Instant, now: Instant): int {
    MonthIndex(now) - MonthIndex(created)
  }

  /** `diffInYears`: the difference of the calendar years. */
  function DiffInYears(created: Instant, now: Instant): int {
    now.year - created.year
  }

  /** `getSinceLabel` as written. */
  function SinceAsWritten(created: Instant, now: Instant): (s: Age)
    ensures s.unit == Day <==> DiffInDays(created, now) < 7
    ensures s.unit == Week <==> 7 <= DiffInDays(created, now) < 28
    ensures s.unit == Month <==> 28 <= DiffInDays(created, now) && DiffInMonths(created, now) < 12
    ensures s.unit == Year <==> 28 <= DiffInDays(created, now) && DiffInMonths(created, now) >= 12
    // The number counts the chosen unit: days, whole weeks, calendar months or calendar years.
    ensures s.unit == Day ==> s.n == DiffInDays(created, now)
    ensures s.unit == Week ==> s.n == DiffInDays(created, now) / 7
    ensures s.unit == Month ==> s.n == DiffInMonths(created, now)
    ensures s.unit == Year ==> s.n == DiffInYears(created, now)
  {
    var days := DiffInDays(created, now);
    if days < 7 then Age(days, Day)
    else
      var weeks := days / 7;
      if weeks < 4 then Age(weeks, Week)
      else
        var months := DiffInMonths(created, now);
        if months < 12 then Age(months, Month)
        else Age(DiffInYears(created, now), Year)
  }

  /**
    A moment four weeks old in the same calendar month (1 February to the
    following 29th) falls past the weeks bucket into the months bucket with
    a count of zero.
  */
  lemma ZeroMonthsAsWritten()
    ensures SinceAsWritten(Instant(1706745600000, 2024, 1), Instant(1709208000000, 2024, 1)) == Age(0, Month)
    ensures Text(Age(0, Month)) == "0 months ago"
  {
  }

  /** `getSinceLabel` with the months bucket counting at least one month; the rest of the model uses this one. */
  function Since(created: Instant, now: Instant): (s: Age)
    ensures s.unit == SinceAsWritten(created, now).unit
    ensures s.unit != Month ==> s == SinceAsWritten(created, now)
    ensures s.unit == Month ==> s.n == if DiffInMonths(created, now) < 1 then 1 else DiffInMonths(created, now)
    ensures s.unit == Day ==> s.n == DiffInDays(created, now)
    ensures s.unit == Week ==> s.n == DiffInDays(created, now) / 7
    ensures s.unit == Year ==> s.n == DiffInYears(created, now)
  {
    var s := SinceAsWritten(created, now);
    if s.unit == Month && s.n < 1 then Age(1, Month) else s
  }

  /** The ranges each bucket's number falls in, for a moment in the past: the months bucket may say 0. */
  lemma SinceRangesAsWritten(created: Instant, now: Instant)
    requires Coherent(created, now) && created.ms <= now.ms
    ensures var s := SinceAsWritten(created, now);
      && (s.unit == Day ==> 0 <= s.n < 7)
      && (s.unit == Week ==> 1 <= s.n < 4)
      && (s.unit == Month ==> 0 <= s.n < 12)
      && (s.unit == Year ==> s.n >= 1)
  {
    var days := DiffInDays(created, now);
    assert days >= 0 by {
      assert (days + 1) * DayMs > 0;
    }
    var s := SinceAsWritten(created, now);
    if s.unit == Year {
      assert DiffInMonths(created, now) >= 12;
      assert 12 * (now.year - created.year) >= 12 + created.month - now.month;
    }
  }

  /** With the correction, every label past the days bucket counts at least one of its unit. */
  lemma SinceRanges(created: Instant, now: Instant)
    requires Coherent(created, now) && created.ms <= now.ms
    ensures var s := Since(created, now);
      && (s.unit == Day ==> 0 <= s.n < 7)
      && (s.unit != Day ==> s.n >= 1)
      && (s.unit == Month ==> s.n < 12)
  {
    SinceRangesAsWritten(created, now);
  }

  // ---------------------------------------------------------------------------
  // The label text
  // ---------------------------------------------------------------------------

  function UnitName(u: Unit): (name: string)
    ensures |name| >= 3 && name[|name| - 1] != 's'
  {
    match u
    case Day => "day"
    case Week => "week"
    case Month => "month"
    case Year => "year"
  }

  /** `` `${n} day${n !== 1 ? "s" : ""} ago` `` and its three siblings. */
  function Text(s: Age): (t: string)
    ensures |t| > |IntToString(s.n)| + 5
    ensures t[..|IntToString(s.n)|] == IntToString(s.n)
  {
    IntToString(s.n) + " " + UnitName(s.unit) + (if s.n != 1 then "s" else "") + " ago"
  }

  /** The unit is plural exactly when the number is not one. */
  lemma TextPluralIff(s: Age)
    ensures var t := Text(s); t[|t| - 5..] == "s ago" <==> s.n != 1
  {
    var t := Text(s);
    var name := UnitName(s.unit);
    if s.n == 1 {
      assert t == IntToString(s.n) + " " + name + " ago";
      assert t[|t| - 5] == name[|name| - 1];
    } else {
      assert t == (IntToString(s.n) + " " + name) + "s ago";
    }
  }

  /** The number at the head of the label reads back as the count, for counts of zero or more. */
  lemma TextNumberRoundTrip(s: Age)
    requires s.n >= 0
    ensures var t := Text(s); DigitsValue(t[..|NatToString(s.n)|]) == s.n
  {
    NatToStringRoundTrip(s.n);
  }
}

=== FILE: StateOverview.dfy ===
/**
  The statistics strip of the admin campaign tab
  (`src/pages/admin/components/StateOverview.jsx`): the total comes from the
  `count` prop the server reports, while the active and featured counts are
  taken over the rows actually held.
*/
module StateOverview {
  import opened Common
  import opened Dashboard

  datatype Overview = Overview(total: nat, active: nat, featured: nat)

  predicate Featured(c: AdminCampaign) {
    c.isFeatured
  }

  /** The three counts shown. */
  function StateOverview(campaigns: seq<AdminCampaign>, count: nat): (o: Overview)
    ensures o.total == count
    ensures o.active <= |campaigns| && o.featured <= |campaigns|
    ensures o.active == |Filter(campaigns, IsActive)| && o.featured == |Filter(campaigns, Featured)|
  {
    Overview(count, Count(campaigns, IsActive), Count(campaigns, Featured))
  }

  /** The active count is the number of active rows: all of them when every row is active, none when none is. */
  lemma {:induction false} ActiveCountExtremes(campaigns: seq<AdminCampaign>, count: nat)
    ensures (forall k :: 0 <= k < |campaigns| ==> campaigns[k].isActive) ==>
      StateOverview(campaigns, count).active == |campaigns|
    ensures (forall k :: 0 <= k < |campaigns| ==> !campaigns[k].isActive) ==>
      StateOverview(campaigns, count).active == 0
  {
    if forall k :: 0 <= k < |campaigns| ==> campaigns[k].isActive {
      FilterAll(campaigns, IsActive);
    }
    if forall k :: 0 <= k < |campaigns| ==> !campaigns[k].isActive {
      FilterAll(campaigns, IsPending);
      CountSplit(campaigns, IsActive, IsPending);
    }
  }

  /** An empty page shows zero active and zero featured campaigns, whatever the reported total. */
  lemma EmptyPageCounts(count: nat)
    ensures StateOverview([], count) == Overview(count, 0, 0)
  {
  }

  /** The active count here equals the dashboard's approved card over the same rows. */
  lemma ActiveMatchesDashboardApproved(campaigns: seq<AdminCampaign>, count: nat)
    ensures StateOverview(campaigns, count).active == Statistics(campaigns).approved
  {
  }
}

=== FILE: StaticDiscover.dfy ===
/**
  The earlier discover page over the bundled sample campaigns
  (`src/pages/DiscoverPage.jsx`): category buttons from the distinct
  category names, the search and category filter, and the Clear Filters
  button of the empty result. Here categories are plain strings, compared
  by value.
*/
module StaticDiscover {
  import opened Common

  datatype SampleCampaign = SampleCampaign(id: int, title: string, description: string, category: string)

  /** The two filter inputs; `""` is the initial value of both. */
  datatype Filters = Filters(searchTerm: string, selectedCategory: string)

  const NoFilters: Filters := Filters("", "")

  function CategoryNames(cs: seq<SampleCampaign>): (r: seq<string>)
    ensures |r| == |cs| && forall k :: 0 <= k < |cs| ==> r[k] == cs[k].category
  {
    if cs == [] then [] else [cs[0].category] + CategoryNames(cs[1..])
  }

  /** `categories`: each category name once, in the order it first appears. */
  function Categories(cs: seq<SampleCampaign>): (r: seq<string>)
    ensures NoDuplicates(r)
    ensures forall x :: x in r <==> exists k :: 0 <= k < |cs| && cs[k].category == x
  {
    var names := CategoryNames(cs);
    assert forall x :: x in names <==> exists k :: 0 <= k < |cs| && cs[k].category == x by {
      forall x | x in names ensures exists k :: 0 <= k < |cs| && cs[k].category == x {
        var k :| 0 <= k < |names| && names[k] == x;
        assert cs[k].category == x;
      }
    }
    Distinct(names)
  }

  /** The buttons follow the order of first occurrence among the campaigns. */
  lemma CategoriesInFirstOccurrenceOrder(cs: seq<SampleCampaign>)
    ensures forall i, j :: 0 <= i < j < |Categories(cs)| ==>
      FirstIndex(CategoryNames(cs), Categories(cs)[i]) < FirstIndex(CategoryNames(cs), Categories(cs)[j])
  {
    DistinctFirstOccurrenceOrder(CategoryNames(cs));
  }

  /** `matchesSearch`, over the title and the description. */
  predicate MatchesSearch(searchTerm: string, c: SampleCampaign) {
    searchTerm == "" || ContainsIgnoreCase(c.title, searchTerm) || ContainsIgnoreCase(c.description, searchTerm)
  }

  /** `matchesCategory`: no category selected, or the same name. */
  predicate MatchesCategory(selected: string, c: SampleCampaign) {
    selected == "" || c.category == selected
  }

  predicate Shown(f: Filters, c: SampleCampaign) {
    MatchesSearch(f.searchTerm, c) && MatchesCategory(f.selectedCategory, c)
  }

  /** `filteredCampaigns`. */
  function Filtered(cs: seq<SampleCampaign>, f: Filters): (r: seq<SampleCampaign>)
    ensures IsSubsequence(r, cs)
    ensures forall k :: 0 <= k < |r| ==> Shown(f, r[k])
    ensures forall c :: c in cs && Shown(f, c) ==> c in r
  {
    Filter(cs, c => Shown(f, c))
  }

  /** The search accepts a campaign exactly when the lower-cased term occurs in its lower-cased title or description. */
  lemma MatchesSearchIff(searchTerm: string, c: SampleCampaign)
    ensures MatchesSearch(searchTerm, c) <==>
      searchTerm == "" || Occurs(ToLower(c.title), ToLower(searchTerm)) || Occurs(ToLower(c.description), ToLower(searchTerm))
  {
    IncludesIffOccurs(ToLower(c.title), ToLower(searchTerm));
    IncludesIffOccurs(ToLower(c.description), ToLower(searchTerm));
  }

  /** The Clear Filters button: both inputs back to `""`. */
  function ClearFilters(f: Filters): (r: Filters)
    ensures r.searchTerm == "" && r.selectedCategory == ""
  {
    NoFilters
  }

  /** After Clear Filters every campaign is shown again, so a non-empty list never stays on the empty notice. */
  lemma ClearFiltersShowsAll(cs: seq<SampleCampaign>, f: Filters)
    ensures Filtered(cs, ClearFilters(f)) == cs
  {
    FilterAll(cs, c => Shown(NoFilters, c));
  }

  /** Selecting a category button without a search shows exactly the campaigns of that category, and at least one. */
  lemma {:induction false} CategoryButtonShowsItsCampaigns(cs: seq<SampleCampaign>, x: string)
    requires x in Categories(cs)
    ensures forall k :: 0 <= k < |Filtered(cs, Filters("", x))| ==>
      x == "" || Filtered(cs, Filters("", x))[k].category == x
    ensures Filtered(cs, Filters("", x)) != []
  {
    var k :| 0 <= k < |cs| && cs[k].category == x;
    assert cs[k] in cs && Shown(Filters("", x), cs[k]);
  }
}

=== FILE: UpdateProject.dfy ===
/**
  The admin form that edits an existing project
  (`src/pages/admin/components/UpdateProjectForm.jsx`): field edits, the tag
  list, the image previews, and the multipart body the form sends.

  `formData` is an ordered list of entries (a JavaScript object keeps its
  keys in insertion order) plus the tag list. The page's media state is
  `previewUrls` (seeded with the project's existing image URLs) and `images`
  (the newly chosen files). `URL.createObjectURL(file)` is the file's
  `blobUrl`.
*/
module UpdateProject {
  import opened Common

  /** A form value: text from an input, or the state of a checkbox. */
  datatype Value = Text(s: string) | Flag(b: bool)

  datatype Entry = Entry(key: string, value: Value)

  /** `formData`: the entries other than `tags`, in key order, and the tag list. */
  datatype Form = Form(entries: seq<Entry>, tags: seq<string>)

  const TagsKey: string := "tags"
  const ThumbnailKey: string := "thumbnail"
  const ImagesKey: string := "images"
  const MaxTags: int := 10

  /** The names of the inputs the page renders; `handleChange` only ever sees these. */
  const InputNames: set<string> := {"title", "details", "total_target", "start_time", "end_time"}

  function Keys(entries: seq<Entry>): (ks: seq<string>)
    ensures |ks| == |entries|
    ensures forall k :: 0 <= k < |entries| ==> ks[k] == entries[k].key
  {
    if entries == [] then [] else [entries[0].key] + Keys(entries[1..])
  }

  /** `formData[name]`: the value under a key, if the key is present. */
  function Lookup(entries: seq<Entry>, name: string): Option<Value> {
    if entries == [] then None
    else if entries[0].key == name then Some(entries[0].value)
    else Lookup(entries[1..], name)
  }

  /** The value under the first entry that carries the key. */
  lemma {:induction false} LookupFirst(entries: seq<Entry>, i: int, name: string)
    requires 0 <= i < |entries| && entries[i].key == name
    requires forall j :: 0 <= j < i ==> entries[j].key != name
    ensures Lookup(entries, name) == Some(entries[i].value)
    decreases i
  {
    if i > 0 {
      LookupFirst(entries[1..], i - 1, name);
    }
  }

  /** Keys are distinct, and none is `tags`, `thumbnail` or `images`, which the body adds itself. */
  predicate WellKeyed(entries: seq<Entry>) {
    NoDuplicates(Keys(entries))
    && TagsKey !in Keys(entries) && ThumbnailKey !in Keys(entries) && ImagesKey !in Keys(entries)
  }

  /** The keys of the loaded form, in the order the page's state object lists them. */
  const LoadedKeys: seq<string> := ["title", "details", "total_target", "start_time", "end_time", "category"]

  /** The form once the project has loaded: the five inputs and the category, then the tags. */
  function Loaded(title: string, details: string, target: string, start: string, end: string,
                  category: string, tags: seq<string>): (f: Form)
    ensures Keys(f.entries) == LoadedKeys
    ensures Lookup(f.entries, "title") == Some(Text(title))
    ensures Lookup(f.entries, "details") == Some(Text(details))
    ensures Lookup(f.entries, "total_target") == Some(Text(target))
    ensures Lookup(f.entries, "start_time") == Some(Text(start))
    ensures Lookup(f.entries, "end_time") == Some(Text(end))
    ensures Lookup(f.entries, "category") == Some(Text(category))
    ensures f.tags == tags
  {
    var es := [Entry("title", Text(title)), Entry("details", Text(details)), Entry("total_target", Text(target)),
               Entry("start_time", Text(start)), Entry("end_time", Text(end)), Entry("category", Text(category))];
    forall i, j | 0 <= j < i < |es| ensures es[j].key != es[i].key {
      assert Unlike(es[j].key, es[i].key);
    }
    LookupFirst(es, 1, "details");
    LookupFirst(es, 2, "total_target");
    LookupFirst(es, 3, "start_time");
    LookupFirst(es, 4, "end_time");
    LookupFirst(es, 5, "category");
    Form(es, tags)
  }

  /** Two strings told apart by their length or their first character. */
  predicate Unlike(a: string, b: string) {
    |a| != |b| || (a != [] && a[0] != b[0])
  }

  /** The loaded form starts well keyed, so every later edit through the page keeps it so. */
  lemma LoadedIsWellKeyed(title: string, details: string, target: string, start: string, end: string,
                          category: string, tags: seq<string>)
    ensures WellKeyed(Loaded(title, details, target, start, end, category, tags).entries)
  {
    var ks := LoadedKeys;
    forall i, j | 0 <= i < j < |ks| ensures ks[i] != ks[j] {
      assert Unlike(ks[i], ks[j]);
    }
    forall k | 0 <= k < |ks| ensures ks[k] != TagsKey && ks[k] != ThumbnailKey && ks[k] != ImagesKey {
      assert Unlike(ks[k], TagsKey) && Unlike(ks[k], ThumbnailKey) && Unlike(ks[k], ImagesKey);
    }
  }

  // ---------------------------------------------------------------------------
  // handleChange
  // ---------------------------------------------------------------------------

  /** `{ ...prev, [name]: v }`: replaces the value in place, or appends a new key at the end. */
  function Set(entries: seq<Entry>, name: string, v: Value): (r: seq<Entry>)
    ensures Lookup(r, name) == Some(v)
    ensures forall n :: n != name ==> Lookup(r, n) == Lookup(entries, n)
    ensures name in Keys(entries) ==> Keys(r) == Keys(entries)
    ensures name !in Keys(entries) ==> Keys(r) == Keys(entries) + [name]
  {
    if entries == [] then [Entry(name, v)]
    else if entries[0].key == name then [Entry(name, v)] + entries[1..]
    else
      var rest := Set(entries[1..], name, v);
      assert Keys(entries) == [entries[0].key] + Keys(entries[1..]);
      [entries[0]] + rest
  }

  /** `handleChange`: a checkbox stores `checked`, any other input stores `value`; nothing else changes. */
  function HandleChange(f: Form, name: string, isCheckbox: bool, value: string, checked: bool): (r: Form)
    requires name in InputNames
    ensures Lookup(r.entries, name) == Some(if isCheckbox then Flag(checked) else Text(value))
    ensures forall n :: n != name ==> Lookup(r.entries, n) == Lookup(f.entries, n)
    ensures r.tags == f.tags
  {
    Form(Set(f.entries, name, if isCheckbox then Flag(checked) else Text(value)), f.tags)
  }

  /** Edits through the page's inputs keep the keys distinct and clear of the names the body adds. */
  lemma HandleChangeKeepsWellKeyed(f: Form, name: string, isCheckbox: bool, value: string, checked: bool)
    requires name in InputNames && WellKeyed(f.entries)
    ensures WellKeyed(HandleChange(f, name, isCheckbox, value, checked).entries)
  {
    var ks := Keys(f.entries);
    var ks' := Keys(HandleChange(f, name, isCheckbox, value, checked).entries);
    assert name != TagsKey && name != ThumbnailKey && name != ImagesKey;
    if name !in ks {
      AppendFreshKeepsDistinct(ks, name);
      assert ks' == ks + [name];
    }
  }

  /** Appending an element the list does not hold keeps it duplicate-free. */
  lemma AppendFreshKeepsDistinct(s: seq<string>, x: string)
    requires NoDuplicates(s) && x !in s
    ensures NoDuplicates(s + [x])
  {
    var r := s + [x];
    forall i, j | 0 <= i < j < |r| ensures r[i] != r[j] {
      assert r[i] == s[i];
    }
  }

  // ---------------------------------------------------------------------------
  // Tags
  // ---------------------------------------------------------------------------

  /** `addTag`: append the trimmed input when it is non-empty and fewer than ten tags exist; duplicates are allowed. */
  function AddTag(f: Form, tagInput: string): (r: (Form, string))
    ensures r.0.entries == f.entries
    ensures var t := Trim(tagInput);
      if t != "" && |f.tags| < MaxTags then r.0.tags == f.tags + [t] && r.1 == ""
      else r.0 == f && r.1 == tagInput
    ensures |f.tags| <= MaxTags ==> |r.0.tags| <= MaxTags
  {
    var t := Trim(tagInput);
    if t != "" && |f.tags| < MaxTags then (f.(tags := f.tags + [t]), "") else (f, tagInput)
  }

  /** Unlike the create wizard, this form accepts a tag it already holds, and the list then repeats it. */
  lemma AddTagAllowsDuplicates(f: Form, tagInput: string)
    requires Trim(tagInput) != "" && Trim(tagInput) in f.tags && |f.tags| < MaxTags
    ensures !NoDuplicates(AddTag(f, tagInput).0.tags)
  {
    var t := Trim(tagInput);
    var i :| 0 <= i < |f.tags| && f.tags[i] == t;
    var r := AddTag(f, tagInput).0.tags;
    assert r[i] == t && r[|f.tags|] == t;
  }

  /** `removeTag(i)`: drop exactly index `i`, keeping the others in order. */
  function RemoveTag(f: Form, i: int): (r: Form)
    ensures r.entries == f.entries
    ensures 0 <= i < |f.tags| ==> r.tags == f.tags[..i] + f.tags[i + 1..]
    ensures !(0 <= i < |f.tags|) ==> r == f
  {
    f.(tags := RemoveIndex(f.tags, i))
  }

  // ---------------------------------------------------------------------------
  // Images and their previews
  // ---------------------------------------------------------------------------

  /** `previewUrls` (existing images first, then one per new file) and `images` (the new files). */
  datatype Media = Media(previewUrls: seq<string>, images: seq<File>)

  function BlobUrls(files: seq<File>): (us: seq<string>)
    ensures |us| == |files|
    ensures forall k :: 0 <= k < |files| ==> us[k] == files[k].blobUrl
  {
    if files == [] then [] else [files[0].blobUrl] + BlobUrls(files[1..])
  }

  /** Previews of the project's existing images, then exactly the previews of the new files, in the same order. */
  predicate Aligned(m: Media) {
    |m.images| <= |m.previewUrls|
    && forall j :: 0 <= j < |m.images| ==> m.previewUrls[|m.previewUrls| - |m.images| + j] == m.images[j].blobUrl
  }

  /** The number of previews that show images already on the server. */
  function ServerCount(m: Media): int {
    |m.previewUrls| - |m.images|
  }

  /** After the project loads: the previews are its image URLs and no file is chosen yet. */
  function Seeded(serverUrls: seq<string>): (m: Media)
    ensures Aligned(m) && ServerCount(m) == |serverUrls|
  {
    Media(serverUrls, [])
  }

  /** `handleImageChange`: one new preview and one new file per chosen file, at the end. */
  function AddImages(m: Media, files: seq<File>): (r: Media)
    ensures r.images == m.images + files
    ensures r.previewUrls == m.previewUrls + BlobUrls(files)
    ensures ServerCount(r) == ServerCount(m)
    ensures Aligned(m) ==> Aligned(r)
  {
    var r := Media(m.previewUrls + BlobUrls(files), m.images + files);
    assert Aligned(m) ==> Aligned(r) by {
      if Aligned(m) {
        var k := ServerCount(m);
        forall j | 0 <= j < |r.images| ensures r.previewUrls[k + j] == r.images[j].blobUrl {
          if j < |m.images| {
            assert r.previewUrls[k + j] == m.previewUrls[k + j];
          } else {
            assert r.previewUrls[k + j] == BlobUrls(files)[j - |m.images|];
          }
        }
      }
    }
    r
  }

  /** `removeImage(i)` as written: index `i` of the previews is also removed from the new files. */
  function RemoveImageAsWritten(m: Media, i: int): (r: Media)
    ensures r.previewUrls == RemoveIndex(m.previewUrls, i)
    ensures r.images == RemoveIndex(m.images, i)
  {
    Media(RemoveIndex(m.previewUrls, i), RemoveIndex(m.images, i))
  }

  /**
    With one existing image and one new file, removing the existing image's
    preview drops the new file from the upload while its preview stays on
    screen.
  */
  lemma RemoveImageAsWrittenDropsWrongFile()
    ensures var f := File("photo.png", 1000, "blob:1");
      var m := AddImages(Seeded(["https://cdn/old.png"]), [f]);
      var r := RemoveImageAsWritten(m, 0);
      && Aligned(m) && m.previewUrls[0] == "https://cdn/old.png"
      && "blob:1" in r.previewUrls && f !in r.images
  {
    var f := File("photo.png", 1000, "blob:1");
    var m := AddImages(Seeded(["https://cdn/old.png"]), [f]);
    assert m.previewUrls == ["https://cdn/old.png", "blob:1"];
    assert RemoveImageAsWritten(m, 0).previewUrls == ["blob:1"];
  }

  /**
    `removeImage(i)` as evidently intended: drop preview `i`; when it is the
    preview of a new file, drop exactly that file.
  */
  function RemoveImage(m: Media, i: int): (r: Media)
    ensures r.previewUrls == RemoveIndex(m.previewUrls, i)
    ensures ServerCount(m) <= i < |m.previewUrls| ==> r.images == RemoveIndex(m.images, i - ServerCount(m))
    ensures !(ServerCount(m) <= i < |m.previewUrls|) ==> r.images == m.images
    ensures Aligned(m) ==> Aligned(r)
  {
    var k := ServerCount(m);
    var images := if k <= i < |m.previewUrls| then RemoveIndex(m.images, i - k) else m.images;
    var r := Media(RemoveIndex(m.previewUrls, i), images);
    assert Aligned(m) ==> Aligned(r) by {
      if Aligned(m) {
        RemoveKeepsAligned(m, i);
      }
    }
    r
  }

  lemma RemoveKeepsAligned(m: Media, i: int)
    requires Aligned(m)
    ensures var k := ServerCount(m);
      var r := Media(RemoveIndex(m.previewUrls, i),
                     if k <= i < |m.previewUrls| then RemoveIndex(m.images, i - k) else m.images);
      Aligned(r)
  {
    if 0 <= i < ServerCount(m) {
      RemoveServerPreviewKeepsAligned(m, i);
    } else if ServerCount(m) <= i < |m.previewUrls| {
      RemoveFilePreviewKeepsAligned(m, i);
    }
  }

  /** One position of `Aligned`: the preview `ServerCount(m) + j` is the one of new file `j`. */
  lemma AlignedAt(m: Media, j: int)
    requires Aligned(m) && 0 <= j < |m.images|
    ensures m.previewUrls[ServerCount(m) + j] == m.images[j].blobUrl
  {
  }

  lemma RemoveServerPreviewKeepsAligned(m: Media, i: int)
    requires Aligned(m) && 0 <= i < ServerCount(m)
    ensures Aligned(Media(RemoveIndex(m.previewUrls, i), m.images))
  {
    var k := ServerCount(m);
    var p := m.previewUrls;
    var p' := RemoveIndex(p, i);
    assert |p'| == |p| - 1;
    forall j | 0 <= j < |m.images| ensures p'[|p'| - |m.images| + j] == m.images[j].blobUrl {
      AlignedAt(m, j);
      assert p'[k - 1 + j] == p[k + j];
    }
  }

  lemma RemoveFilePreviewKeepsAligned(m: Media, i: int)
    requires Aligned(m) && ServerCount(m) <= i < |m.previewUrls|
    ensures Aligned(Media(RemoveIndex(m.previewUrls, i), RemoveIndex(m.images, i - ServerCount(m))))
  {
    var k := ServerCount(m);
    var p := m.previewUrls;
    var imgs := RemoveIndex(m.images, i - k);
    var p' := RemoveIndex(p, i);
    assert |imgs| == |m.images| - 1 && |p'| == |p| - 1;
    forall j | 0 <= j < |imgs| ensures p'[|p'| - |imgs| + j] == imgs[j].blobUrl {
      if j < i - k {
        AlignedAt(m, j);
        assert imgs[j] == m.images[j] && p'[k + j] == p[k + j];
      } else {
        AlignedAt(m, j + 1);
        assert imgs[j] == m.images[j + 1] && p'[k + j] == p[k + j + 1];
      }
    }
  }

  /** The intended removal drops exactly the file whose preview was clicked, and no file when an existing image's preview was. */
  lemma RemoveImageDropsClickedFile(m: Media, i: int)
    requires Aligned(m) && 0 <= i < |m.previewUrls|
    ensures i >= ServerCount(m) ==>
      m.images[i - ServerCount(m)].blobUrl == m.previewUrls[i]
      && |RemoveImage(m, i).images| == |m.images| - 1
    ensures i < ServerCount(m) ==> RemoveImage(m, i).images == m.images
  {
    var k := ServerCount(m);
  }

  // ---------------------------------------------------------------------------
  // The multipart body
  // ---------------------------------------------------------------------------

  /** One `FormData.append(name, value)`: a text value or a file. */
  datatype Part = TextPart(name: string, text: string) | FilePart(name: string, file: File)

  /** How `FormData.append` turns a value into text. */
  function Render(v: Value): string {
    match v
    case Text(s) => s
    case Flag(b) => if b then "true" else "false"
  }

  function EntryParts(entries: seq<Entry>): (ps: seq<Part>)
    ensures |ps| == |entries|
    ensures forall k :: 0 <= k < |entries| ==> ps[k] == TextPart(entries[k].key, Render(entries[k].value))
  {
    if entries == [] then [] else [TextPart(entries[0].key, Render(entries[0].value))] + EntryParts(entries[1..])
  }

  function TagParts(tags: seq<string>): (ps: seq<Part>)
    ensures |ps| == |tags|
    ensures forall k :: 0 <= k < |tags| ==> ps[k] == TextPart(TagsKey, tags[k])
  {
    if tags == [] then [] else [TextPart(TagsKey, tags[0])] + TagParts(tags[1..])
  }

  function ImageParts(files: seq<File>): (ps: seq<Part>)
    ensures |ps| == |files|
    ensures forall k :: 0 <= k < |files| ==> ps[k] == FilePart(ImagesKey, files[k])
  {
    if files == [] then [] else [FilePart(ImagesKey, files[0])] + ImageParts(files[1..])
  }

  /** The body `handleSubmit` builds: the entries, each tag under `tags`, the new thumbnail if any, the new files under `images`. */
  function Payload(f: Form, thumbnail: Option<File>, images: seq<File>): (r: seq<Part>)
    ensures |r| == |f.entries| + |f.tags| + (if thumbnail.Some? then 1 else 0) + |images|
    ensures forall k :: 0 <= k < |images| ==> r[|r| - |images| + k] == FilePart(ImagesKey, images[k])
  {
    EntryParts(f.entries)
    + TagParts(f.tags)
    + ThumbnailParts(thumbnail)
    + ImageParts(images)
  }

  /** The texts sent under `name`, in order. */
  function TextsNamed(ps: seq<Part>, name: string): (ts: seq<string>)
    ensures |ts| <= |ps|
  {
    if ps == [] then []
    else (if ps[0].TextPart? && ps[0].name == name then [ps[0].text] else []) + TextsNamed(ps[1..], name)
  }

  /** The files sent under `name`, in order. */
  function FilesNamed(ps: seq<Part>, name: string): (fs: seq<File>)
    ensures |fs| <= |ps|
  {
    if ps == [] then []
    else (if ps[0].FilePart? && ps[0].name == name then [ps[0].file] else []) + FilesNamed(ps[1..], name)
  }

  lemma {:induction false} TextsNamedAppend(a: seq<Part>, b: seq<Part>, name: string)
    ensures TextsNamed(a + b, name) == TextsNamed(a, name) + TextsNamed(b, name)
  {
    if a != [] {
      assert (a + b)[1..] == a[1..] + b;
      TextsNamedAppend(a[1..], b, name);
    } else {
      assert a + b == b;
    }
  }

  lemma {:induction false} FilesNamedAppend(a: seq<Part>, b: seq<Part>, name: string)
    ensures FilesNamed(a + b, name) == FilesNamed(a, name) + FilesNamed(b, name)
  {
    if a != [] {
      assert (a + b)[1..] == a[1..] + b;
      FilesNamedAppend(a[1..], b, name);
    } else {
      assert a + b == b;
    }
  }

  lemma {:induction false} TagPartsTexts(tags: seq<string>, name: string)
    ensures TextsNamed(TagParts(tags), name) == if name == TagsKey then tags else []
    ensures FilesNamed(TagParts(tags), name) == []
  {
    if tags != [] {
      assert TagParts(tags)[1..] == TagParts(tags[1..]);
      TagPartsTexts(tags[1..], name);
    }
  }

  lemma {:induction false} ImagePartsFiles(files: seq<File>, name: string)
    ensures FilesNamed(ImageParts(files), name) == if name == ImagesKey then files else []
    ensures TextsNamed(ImageParts(files), name) == []
  {
    if files != [] {
      assert ImageParts(files)[1..] == ImageParts(files[1..]);
      ImagePartsFiles(files[1..], name);
    }
  }

  lemma {:induction false} EntryPartsTexts(entries: seq<Entry>, name: string)
    requires NoDuplicates(Keys(entries))
    ensures TextsNamed(EntryParts(entries), name) ==
      if Lookup(entries, name).Some? then [Render(Lookup(entries, name).value)] else []
    ensures FilesNamed(EntryParts(entries), name) == []
    ensures Lookup(entries, name).Some? <==> name in Keys(entries)
  {
    if entries != [] {
      var rest := entries[1..];
      var ks := Keys(entries);
      assert ks == [entries[0].key] + Keys(rest);
      NoDuplicatesTail(ks);
      assert ks[1..] == Keys(rest);
      assert EntryParts(entries)[1..] == EntryParts(rest);
      EntryPartsTexts(rest, name);
    }
  }

  /** The optional thumbnail part: no text, and the file only under `thumbnail`. */
  function ThumbnailParts(thumbnail: Option<File>): (ps: seq<Part>)
    ensures forall n :: TextsNamed(ps, n) == []
    ensures forall n :: FilesNamed(ps, n) == if thumbnail.Some? && n == ThumbnailKey then [thumbnail.value] else []
  {
    if thumbnail.Some? then [FilePart(ThumbnailKey, thumbnail.value)] else []
  }

  /** The texts under one name: the entry's value if the name is a key, then the tags if it is `tags`. */
  lemma PayloadTextsNamed(f: Form, thumbnail: Option<File>, images: seq<File>, n: string)
    requires NoDuplicates(Keys(f.entries))
    ensures TextsNamed(Payload(f, thumbnail, images), n)
      == TextsNamed(EntryParts(f.entries), n) + (if n == TagsKey then f.tags else [])
  {
    var a, b, c, d := EntryParts(f.entries), TagParts(f.tags), ThumbnailParts(thumbnail), ImageParts(images);
    assert Payload(f, thumbnail, images) == ((a + b) + c) + d;
    TextsSplitFour(a, b, c, d, n);
    TagPartsTexts(f.tags, n);
    ImagePartsFiles(images, n);
    var ta, tb := TextsNamed(a, n), TextsNamed(b, n);
    assert TextsNamed(c, n) == [] && TextsNamed(d, n) == [];
    assert ta + tb + [] + [] == ta + tb;
  }

  /** The files under one name: the thumbnail if it is `thumbnail`, then the new files if it is `images`. */
  lemma PayloadFilesNamed(f: Form, thumbnail: Option<File>, images: seq<File>, n: string)
    requires NoDuplicates(Keys(f.entries))
    ensures FilesNamed(Payload(f, thumbnail, images), n)
      == FilesNamed(ThumbnailParts(thumbnail), n) + (if n == ImagesKey then images else [])
  {
    var a, b, c, d := EntryParts(f.entries), TagParts(f.tags), ThumbnailParts(thumbnail), ImageParts(images);
    assert Payload(f, thumbnail, images) == ((a + b) + c) + d;
    FilesSplitFour(a, b, c, d, n);
    EntryPartsTexts(f.entries, n);
    TagPartsTexts(f.tags, n);
    ImagePartsFiles(images, n);
    var fc, fd := FilesNamed(c, n), FilesNamed(d, n);
    assert FilesNamed(a, n) == [] && FilesNamed(b, n) == [];
    assert [] + [] + fc + fd == fc + fd;
  }

  lemma TextsSplitFour(a: seq<Part>, b: seq<Part>, c: seq<Part>, d: seq<Part>, n: string)
    ensures TextsNamed(((a + b) + c) + d, n) == TextsNamed(a, n) + TextsNamed(b, n) + TextsNamed(c, n) + TextsNamed(d, n)
  {
    TextsNamedAppend(a, b, n);
    TextsNamedAppend(a + b, c, n);
    TextsNamedAppend((a + b) + c, d, n);
  }

  lemma FilesSplitFour(a: seq<Part>, b: seq<Part>, c: seq<Part>, d: seq<Part>, n: string)
    ensures FilesNamed(((a + b) + c) + d, n) == FilesNamed(a, n) + FilesNamed(b, n) + FilesNamed(c, n) + FilesNamed(d, n)
  {
    FilesNamedAppend(a, b, n);
    FilesNamedAppend(a + b, c, n);
    FilesNamedAppend((a + b) + c, d, n);
  }

  /** In the body every entry's key carries exactly its one value. */
  lemma PayloadEntryOnce(f: Form, thumbnail: Option<File>, images: seq<File>, name: string)
    requires WellKeyed(f.entries) && Lookup(f.entries, name).Some?
    ensures TextsNamed(Payload(f, thumbnail, images), name) == [Render(Lookup(f.entries, name).value)]
  {
    PayloadTextsNamed(f, thumbnail, images, name);
    EntryPartsTexts(f.entries, name);
    assert name != TagsKey;
    assert [Render(Lookup(f.entries, name).value)] + [] == [Render(Lookup(f.entries, name).value)];
  }

  /** `tags` carries exactly the tag list, in order. */
  lemma PayloadTags(f: Form, thumbnail: Option<File>, images: seq<File>)
    requires WellKeyed(f.entries)
    ensures TextsNamed(Payload(f, thumbnail, images), TagsKey) == f.tags
  {
    PayloadTextsNamed(f, thumbnail, images, TagsKey);
    EntryPartsTexts(f.entries, TagsKey);
    assert [] + f.tags == f.tags;
  }

  /** `thumbnail` carries a file only when one was chosen. */
  lemma PayloadThumbnail(f: Form, thumbnail: Option<File>, images: seq<File>)
    requires WellKeyed(f.entries)
    ensures FilesNamed(Payload(f, thumbnail, images), ThumbnailKey) == if thumbnail.Some? then [thumbnail.value] else []
  {
    PayloadFilesNamed(f, thumbnail, images, ThumbnailKey);
    assert Unlike(ThumbnailKey, ImagesKey);
    var fc := FilesNamed(ThumbnailParts(thumbnail), ThumbnailKey);
    assert fc + [] == fc;
  }

  /** `images` carries exactly the newly chosen files, in order. */
  lemma PayloadImages(f: Form, thumbnail: Option<File>, images: seq<File>)
    requires WellKeyed(f.entries)
    ensures FilesNamed(Payload(f, thumbnail, images), ImagesKey) == images
  {
    PayloadFilesNamed(f, thumbnail, images, ImagesKey);
    assert Unlike(ThumbnailKey, ImagesKey);
    assert FilesNamed(ThumbnailParts(thumbnail), ImagesKey) == [];
    assert [] + images == images;
  }

  /** The entries come first, in key order, ahead of every tag and file. */
  lemma PayloadStartsWithEntries(f: Form, thumbnail: Option<File>, images: seq<File>)
    ensures var p := Payload(f, thumbnail, images);
      |p| >= |f.entries|
      && forall k :: 0 <= k < |f.entries| ==> p[k] == TextPart(f.entries[k].key, Render(f.entries[k].value))
  {
    var p := Payload(f, thumbnail, images);
    var a := EntryParts(f.entries);
    assert p == a + (p[|a|..]);
  }
}

=== FILE: Validation.dfy ===
/**
  The create-campaign validator `validateFormData(data, step)`
  (`src/lib/validation.js`). It returns a map from field to message; the
  step selects which groups of checks run (1 basics, 2 details, 3 images,
  4 all three).

  Dates are integer milliseconds: a date input's string is already parsed
  (`None` is the empty input), and `today` is local midnight of the current
  day, passed in. `Number(...)` on the funding goal is modelled by
  `ParseNumber` below.
*/
module Validation {
  import opened Common

  /** The fields of the campaign wizard. */
  datatype Field = Title | TotalTarget | StartTime | EndTime | Details | Images | Thumbnail | Category | Tags

  type Errors = map<Field, Message>

  /** The messages the validator reports. */
  datatype Message =
    | TitleRequired | TitleTooShort | TitleTooLong
    | GoalRequired | GoalNotPositive
    | StartRequired | StartInPast
    | EndRequired | EndNotAfterStart | DurationTooLong
    | DetailsRequired | DetailsTooShort | DetailsTooLong
    | ImagesRequired | TooManyImages | ImageTooLarge
  {
    /** The text shown under the field. */
    function Text(): string {
      match this
      case TitleRequired => "Title is required"
      case TitleTooShort => "Title must be at least 5 characters"
      case TitleTooLong => "Title must be less than 100 characters"
      case GoalRequired => "Funding goal is required"
      case GoalNotPositive => "Funding goal must be a positive number"
      case StartRequired => "Start date is required"
      case StartInPast => "Start date cannot be in the past"
      case EndRequired => "End date is required"
      case EndNotAfterStart => "End date must be after start date"
      case DurationTooLong => "Campaign duration cannot exceed 90 days"
      case DetailsRequired => "Project details are required"
      case DetailsTooShort => "Project details must be at least 50 characters"
      case DetailsTooLong => "Project details must be less than 5000 characters"
      case ImagesRequired => "At least one image is required"
      case TooManyImages => "Maximum 5 images allowed"
      case ImageTooLarge => "One or more images exceed the 5MB size limit"
    }
  }

  /** The wizard's `formData`. */
  datatype CampaignDraft = CampaignDraft(
    title: string,
    details: string,
    totalTarget: string,
    startTime: Option<int>,
    endTime: Option<int>,
    category: string,
    tags: seq<string>,
    images: seq<File>,
    thumbnail: Option<File>)

  const MaxImageBytes: int := 5 * 1024 * 1024
  const MaxDurationDays: int := 90

  // ---------------------------------------------------------------------------
  // Number(...) on a form string
  // ---------------------------------------------------------------------------

  function Pow10(k: nat): (p: nat)
    ensures p >= 1
  {
    if k == 0 then 1 else 10 * Pow10(k - 1)
  }

  /** An unsigned decimal: digits, optionally `.` and more digits, with at least one digit. */
  function ParseUnsigned(u: string): (v: Option<real>)
    ensures v.Some? ==> v.value >= 0.0
  {
    var k := DigitRun(u);
    var whole := DigitsValue(u[..k]) as real;
    if k == |u| then
      if k > 0 then Some(whole) else None
    else if u[k] == '.' && AllDigits(u[k + 1..]) && |u| > 1 then
      Some(whole + DigitsValue(u[k + 1..]) as real / Pow10(|u| - k - 1) as real)
    else None
  }

  /**
    `Number(s)` for the decimal strings a number input produces: surrounding
    whitespace ignored, empty means 0, an optional sign, then an unsigned
    decimal; anything else is `NaN` (`None`).
  */
  function ParseNumber(s: string): (r: Option<real>)
    ensures Trim(s) == [] ==> r == Some(0.0)
    ensures r.Some? && r.value < 0.0 ==> Trim(s)[0] == '-'
    ensures Trim(s) != [] && Trim(s)[0] == '-' && r.Some? ==> r.value <= 0.0
  {
    var t := Trim(s);
    if t == [] then Some(0.0)
    else if t[0] == '-' then
      match ParseUnsigned(t[1..])
      case Some(v) => Some(-v)
      case None => None
    else if t[0] == '+' then ParseUnsigned(t[1..])
    else ParseUnsigned(t)
  }

  ghost predicate HasNonzeroDigit(s: string) {
    exists k :: 0 <= k < |s| && IsDigit(s[k]) && s[k] != '0'
  }

  lemma {:induction false} DigitsValuePositiveIff(s: string)
    requires AllDigits(s)
    ensures DigitsValue(s) > 0 <==> HasNonzeroDigit(s)
  {
    if s != [] {
      var p := s[..|s| - 1];
      DigitsValuePositiveIff(p);
      if HasNonzeroDigit(p) {
        var k :| 0 <= k < |p| && IsDigit(p[k]) && p[k] != '0';
        assert s[k] == p[k];
      }
      if HasNonzeroDigit(s) {
        var k :| 0 <= k < |s| && IsDigit(s[k]) && s[k] != '0';
        if k < |p| {
          assert p[k] == s[k];
        }
      }
    }
  }

  lemma NonzeroDigitSplit(a: string, b: string)
    ensures HasNonzeroDigit(a + b) <==> HasNonzeroDigit(a) || HasNonzeroDigit(b)
  {
    if HasNonzeroDigit(a + b) {
      var k :| 0 <= k < |a + b| && IsDigit((a + b)[k]) && (a + b)[k] != '0';
      if k >= |a| {
        assert b[k - |a|] == (a + b)[k];
      } else {
        assert a[k] == (a + b)[k];
      }
    }
    if HasNonzeroDigit(a) {
      var k :| 0 <= k < |a| && IsDigit(a[k]) && a[k] != '0';
      assert (a + b)[k] == a[k];
    }
    if HasNonzeroDigit(b) {
      var k :| 0 <= k < |b| && IsDigit(b[k]) && b[k] != '0';
      assert (a + b)[|a| + k] == b[k];
    }
  }

  /** A digit string followed by a `.` and a digit string has a non-zero digit when either part has one. */
  lemma PointSplit(w: string, f: string)
    ensures HasNonzeroDigit(w + "." + f) <==> HasNonzeroDigit(w) || HasNonzeroDigit(f)
  {
    NonzeroDigitSplit(w, ".");
    NonzeroDigitSplit(w + ".", f);
    assert !HasNonzeroDigit(".");
  }

  /** An unsigned decimal is positive exactly when one of its digits is not zero. */
  lemma {:induction false} ParseUnsignedPositiveIff(u: string)
    requires ParseUnsigned(u).Some?
    ensures ParseUnsigned(u).value > 0.0 <==> HasNonzeroDigit(u)
  {
    var k := DigitRun(u);
    var w := u[..k];
    DigitsValuePositiveIff(w);
    if k == |u| {
      assert u == w;
    } else {
      var f := u[k + 1..];
      assert u == w + "." + f;
      PointSplit(w, f);
      DigitsValuePositiveIff(f);
      QuotientPositiveIff(DigitsValue(f), Pow10(|u| - k - 1));
    }
  }

  /** A fraction with a positive denominator is positive exactly when its numerator is. */
  lemma QuotientPositiveIff(n: nat, p: nat)
    requires p >= 1
    ensures n as real / p as real >= 0.0
    ensures n as real / p as real > 0.0 <==> n > 0
  {
    var q := n as real / p as real;
    assert q * p as real == n as real;
  }

  // ---------------------------------------------------------------------------
  // One field at a time
  // ---------------------------------------------------------------------------

  /** `title`: required, then 5 to 100 characters. */
  function TitleError(title: string): (e: Option<Message>)
    ensures e.None? <==> 5 <= |title| <= 100
    ensures title == "" ==> e == Some(TitleRequired)
    ensures 1 <= |title| < 5 ==> e == Some(TitleTooShort)
    ensures |title| > 100 ==> e == Some(TitleTooLong)
  {
    if title == "" then Some(TitleRequired)
    else if |title| < 5 then Some(TitleTooShort)
    else if |title| > 100 then Some(TitleTooLong)
    else None
  }

  /** `total_target`: required, then a number greater than zero. */
  function TargetError(target: string): (e: Option<Message>)
    ensures e.None? <==> target != "" && ParseNumber(target).Some? && ParseNumber(target).value > 0.0
    ensures target == "" ==> e == Some(GoalRequired)
    ensures target != "" && e.Some? ==> e == Some(GoalNotPositive)
  {
    if target == "" then Some(GoalRequired)
    else
      match ParseNumber(target)
      case None => Some(GoalNotPositive)
      case Some(v) => if v <= 0.0 then Some(GoalNotPositive) else None
  }

  /**
    A funding goal passes exactly when, after trimming, it is an unsigned
    decimal or one with a `+` sign that has a non-zero digit.
  */
  lemma {:induction false} TargetAcceptedIff(target: string)
    ensures TargetError(target).None? <==>
      var t := Trim(target);
      && t != []
      && t[0] != '-'
      && var u := if t[0] == '+' then t[1..] else t;
         ParseUnsigned(u).Some? && HasNonzeroDigit(u)
  {
    var t := Trim(target);
    if t != [] {
      var u := if t[0] == '-' || t[0] == '+' then t[1..] else t;
      if ParseUnsigned(u).Some? {
        ParseUnsignedPositiveIff(u);
      }
    }
  }

  /**
    `start_time` and `end_time`. Each is "required" when missing; the range
    checks run only when both are present: a start before today, an end not
    after the start, or a duration that rounds to more than 90 days.
  */
  function DateErrors(start: Option<int>, end: Option<int>, today: int): (e: (Option<Message>, Option<Message>))
    ensures start.None? ==> e.0 == Some(StartRequired)
    ensures end.None? ==> e.1 == Some(EndRequired)
    ensures start.Some? && end.None? ==> e.0.None?
    ensures end.Some? && start.None? ==> e.1.None?
    ensures start.Some? && end.Some? ==>
      && (e.0.Some? <==> start.value < today)
      && (e.0.Some? ==> e.0 == Some(StartInPast))
      && (e.1.Some? <==> end.value <= start.value || RoundDays(end.value - start.value) > MaxDurationDays)
      && (end.value <= start.value ==> e.1 == Some(EndNotAfterStart))
      && (RoundDays(end.value - start.value) > MaxDurationDays ==> e.1 == Some(DurationTooLong))
  {
    var startErr := if start.None? then Some(StartRequired) else None;
    var endErr := if end.None? then Some(EndRequired) else None;
    if start.Some? && end.Some? then
      var s := start.value;
      var t := end.value;
      var startErr' := if s < today then Some(StartInPast) else startErr;
      var endErr' := if t <= s then Some(EndNotAfterStart) else endErr;
      var endErr'' := if RoundDays(t - s) > MaxDurationDays then Some(DurationTooLong) else endErr';
      (startErr', endErr'')
    else (startErr, endErr)
  }

  /** `Math.round(ms / DayMs)`: halves round up. */
  function RoundDays(ms: int): (d: int)
    ensures 2 * d * DayMs - DayMs <= 2 * ms < 2 * d * DayMs + DayMs
  {
    (2 * ms + DayMs) / (2 * DayMs)
  }

  /** The rounded duration exceeds 90 days exactly when the span is at least ninety and a half days. */
  lemma DurationTooLongIff(ms: int)
    ensures RoundDays(ms) > MaxDurationDays <==> 2 * ms >= 181 * DayMs
  {
    var q := RoundDays(ms);
    assert q * (2 * DayMs) <= 2 * ms + DayMs < (q + 1) * (2 * DayMs);
  }

  /** `details`: required, then 50 to 5000 characters. */
  function DetailsError(details: string): (e: Option<Message>)
    ensures e.None? <==> 50 <= |details| <= 5000
    ensures details == "" ==> e == Some(DetailsRequired)
    ensures 1 <= |details| < 50 ==> e == Some(DetailsTooShort)
    ensures |details| > 5000 ==> e == Some(DetailsTooLong)
  {
    if details == "" then Some(DetailsRequired)
    else if |details| < 50 then Some(DetailsTooShort)
    else if |details| > 5000 then Some(DetailsTooLong)
    else None
  }

  predicate Oversized(f: File) {
    f.size > MaxImageBytes
  }

  /** `images`: one to five files, none larger than 5 MiB. */
  function ImagesError(images: seq<File>): (e: Option<Message>)
    ensures e.None? <==> 1 <= |images| <= 5 && forall k :: 0 <= k < |images| ==> images[k].size <= MaxImageBytes
    ensures |images| == 0 ==> e == Some(ImagesRequired)
    ensures |images| > 5 ==> e == Some(TooManyImages)
    ensures 1 <= |images| <= 5 && (exists k :: 0 <= k < |images| && Oversized(images[k])) ==> e == Some(ImageTooLarge)
  {
    if |images| == 0 then Some(ImagesRequired)
    else if |images| > 5 then Some(TooManyImages)
    else if |Filter(images, Oversized)| > 0 then
      assert Oversized(Filter(images, Oversized)[0]);
      Some(ImageTooLarge)
    else
      assert forall k :: 0 <= k < |images| ==> images[k] in images && !Oversized(images[k]);
      None
  }

  // ---------------------------------------------------------------------------
  // validateFormData
  // ---------------------------------------------------------------------------

  /** The outcome of every field check of `validateFormData` for one draft. */
  datatype Checks = Checks(
    title: Option<Message>,
    target: Option<Message>,
    start: Option<Message>,
    end: Option<Message>,
    details: Option<Message>,
    images: Option<Message>)

  /** Runs each field check once; all of them are pure, so running them up front changes nothing. */
  function RunChecks(d: CampaignDraft, today: int): Checks {
    var dates := DateErrors(d.startTime, d.endTime, today);
    Checks(TitleError(d.title), TargetError(d.totalTarget), dates.0, dates.1,
           DetailsError(d.details), ImagesError(d.images))
  }

  /** The outcome of the check for field `f`; fields without a check never fail. */
  function CheckOf(c: Checks, f: Field): Option<Message> {
    match f
    case Title => c.title
    case TotalTarget => c.target
    case StartTime => c.start
    case EndTime => c.end
    case Details => c.details
    case Images => c.images
    case _ => None
  }

  /** The error `validateFormData` can report for a field, whichever step is asked. */
  function FieldError(d: CampaignDraft, today: int, f: Field): Option<Message> {
    CheckOf(RunChecks(d, today), f)
  }

  /** The fields a step checks. */
  predicate StepChecks(step: int, f: Field) {
    || ((step == 1 || step == 4) && IsBasic(f))
    || ((step == 2 || step == 4) && f == Details)
    || ((step == 3 || step == 4) && f == Images)
  }

  /** The fields of the basics block. */
  predicate IsBasic(f: Field) {
    f == Title || f == TotalTarget || f == StartTime || f == EndTime
  }

  /** `errors.f = msg` when a check failed; nothing otherwise. */
  function Put(e: Errors, f: Field, msg: Option<Message>): (r: Errors)
    ensures msg.Some? ==> f in r && r[f] == msg.value
    ensures msg.None? ==> r == e
  {
    if msg.Some? then e[f := msg.value] else e
  }

  /** What `Put` leaves under one field: the new message for the field written, the old entry elsewhere. */
  lemma PutAt(e: Errors, f: Field, msg: Option<Message>, g: Field)
    ensures g in Put(e, f, msg) <==> (g == f && msg.Some?) || g in e
    ensures g in Put(e, f, msg) ==> Put(e, f, msg)[g] == if g == f && msg.Some? then msg.value else e[g]
  {
  }

  /** The basics block: title, goal, start and end, in that order. */
  function Basics(c: Checks, e: Errors): Errors {
    Put(Put(Put(Put(e, Title, c.title), TotalTarget, c.target), StartTime, c.start), EndTime, c.end)
  }

  lemma BasicsAt(c: Checks, e: Errors, g: Field)
    ensures g in Basics(c, e) <==> (IsBasic(g) && CheckOf(c, g).Some?) || g in e
    ensures g in Basics(c, e) ==> Basics(c, e)[g] == if IsBasic(g) && CheckOf(c, g).Some? then CheckOf(c, g).value else e[g]
  {
    var b1 := Put(e, Title, c.title);
    var b2 := Put(b1, TotalTarget, c.target);
    var b3 := Put(b2, StartTime, c.start);
    PutAt(e, Title, c.title, g);
    PutAt(b1, TotalTarget, c.target, g);
    PutAt(b2, StartTime, c.start, g);
    PutAt(b3, EndTime, c.end, g);
  }

  /** The blocks `step` selects, written in source order into one error object. */
  function Assemble(c: Checks, step: int): Errors {
    var e0: Errors := map[];
    var e1 := if step == 1 || step == 4 then Basics(c, e0) else e0;
    var e2 := if step == 2 || step == 4 then Put(e1, Details, c.details) else e1;
    if step == 3 || step == 4 then Put(e2, Images, c.images) else e2
  }

  /** `validateFormData(data, step)`: its ordered writes produce exactly the reference error object. */
  function Validate(d: CampaignDraft, step: int, today: int): (errs: Errors)
    ensures errs == Expected(d, step, today)
  {
    AssembleMatchesReference(RunChecks(d, today), step);
    Assemble(RunChecks(d, today), step)
  }

  /** The writes of one step put an entry for exactly the checked fields whose check failed. */
  lemma AssembleReportsExactly(c: Checks, step: int, f: Field)
    ensures f in Assemble(c, step) <==> StepChecks(step, f) && CheckOf(c, f).Some?
    ensures f in Assemble(c, step) ==> Assemble(c, step)[f] == CheckOf(c, f).value
  {
    var e0: Errors := map[];
    var b4 := Basics(c, e0);
    BasicsAt(c, e0, f);
    if step == 1 {
      assert Assemble(c, step) == b4;
    } else if step == 2 {
      PutAt(e0, Details, c.details, f);
    } else if step == 3 {
      PutAt(e0, Images, c.images, f);
    } else if step == 4 {
      var b5 := Put(b4, Details, c.details);
      PutAt(b4, Details, c.details, f);
      PutAt(b5, Images, c.images, f);
      assert Assemble(c, step) == Put(b5, Images, c.images);
    }
  }

  /** A field carries an error exactly when the step checks it and its check fails; the message is that check's. */
  lemma ValidateReportsExactly(d: CampaignDraft, step: int, today: int, f: Field)
    ensures f in Validate(d, step, today) <==> StepChecks(step, f) && FieldError(d, today, f).Some?
    ensures f in Validate(d, step, today) ==> Validate(d, step, today)[f] == FieldError(d, today, f).value
  {
    AssembleReportsExactly(RunChecks(d, today), step, f);
  }

  /** The fields `validateFormData` has a check for. */
  const ValidatedFields: set<Field> := {Title, TotalTarget, StartTime, EndTime, Details, Images}

  /** An entry for exactly the fields the step checks whose check fails, carrying that check's message. */
  function Reference(c: Checks, step: int): Errors {
    map f | f in ValidatedFields && StepChecks(step, f) && CheckOf(c, f).Some? :: CheckOf(c, f).value
  }

  /** The reference reading of the validator, for one draft. */
  function Expected(d: CampaignDraft, step: int, today: int): Errors {
    Reference(RunChecks(d, today), step)
  }

  /** The ordered writes produce exactly the reference error object. */
  lemma AssembleMatchesReference(c: Checks, step: int)
    ensures Assemble(c, step) == Reference(c, step)
  {
    var v := Assemble(c, step);
    var x := Reference(c, step);
    forall f | true
      ensures f in v <==> f in x
      ensures f in v ==> v[f] == x[f]
    {
      AssembleReportsExactly(c, step, f);
    }
  }

  lemma AssembleKeysValidated(c: Checks, step: int)
    ensures Assemble(c, step).Keys <= ValidatedFields
  {
    forall f | f in Assemble(c, step) ensures f in ValidatedFields {
      AssembleReportsExactly(c, step, f);
    }
  }

  /** Only the six validated fields can carry an error; thumbnail, tags and category never do. */
  lemma ErrorKeysValidated(d: CampaignDraft, step: int, today: int)
    ensures Validate(d, step, today).Keys <= ValidatedFields
    ensures Thumbnail !in Validate(d, step, today) && Tags !in Validate(d, step, today)
    ensures Category !in Validate(d, step, today)
  {
    var c := RunChecks(d, today);
    AssembleKeysValidated(c, step);
    AssembleReportsExactly(c, step, Thumbnail);
    AssembleReportsExactly(c, step, Tags);
    AssembleReportsExactly(c, step, Category);
  }

  lemma AssembleStepKeys(c: Checks, step: int)
    ensures step == 1 ==> forall f :: f in Assemble(c, step) ==> IsBasic(f)
    ensures step == 2 ==> forall f :: f in Assemble(c, step) ==> f == Details
    ensures step == 3 ==> forall f :: f in Assemble(c, step) ==> f == Images
  {
    forall f | f in Assemble(c, step) ensures StepChecks(step, f) {
      AssembleReportsExactly(c, step, f);
    }
  }

  /** Steps 1 to 3 each report only their own fields. */
  lemma StepKeys(d: CampaignDraft, step: int, today: int)
    ensures step == 1 ==> forall f :: f in Validate(d, step, today) ==> IsBasic(f)
    ensures step == 2 ==> forall f :: f in Validate(d, step, today) ==> f == Details
    ensures step == 3 ==> forall f :: f in Validate(d, step, today) ==> f == Images
  {
    AssembleStepKeys(RunChecks(d, today), step);
  }

  lemma AssembleFourIsUnion(c: Checks, step: int)
    ensures Assemble(c, 4) == Assemble(c, 1) + Assemble(c, 2) + Assemble(c, 3)
    ensures !(1 <= step <= 4) ==> Assemble(c, step) == map[]
  {
    var all := Assemble(c, 4);
    var u := Assemble(c, 1) + Assemble(c, 2) + Assemble(c, 3);
    forall f | true
      ensures f in all <==> f in u
      ensures f in all ==> all[f] == u[f]
    {
      AssembleReportsExactly(c, 1, f);
      AssembleReportsExactly(c, 2, f);
      AssembleReportsExactly(c, 3, f);
      AssembleReportsExactly(c, 4, f);
    }
    if !(1 <= step <= 4) {
      forall f | true ensures f !in Assemble(c, step) {
        AssembleReportsExactly(c, step, f);
      }
    }
  }

  /** Step 4 reports exactly the union of steps 1, 2 and 3; any other step reports nothing. */
  lemma StepFourIsUnion(d: CampaignDraft, today: int, step: int)
    ensures Validate(d, 4, today) == Validate(d, 1, today) + Validate(d, 2, today) + Validate(d, 3, today)
    ensures !(1 <= step <= 4) ==> Validate(d, step, today) == map[]
  {
    AssembleFourIsUnion(RunChecks(d, today), step);
  }

  /** The validator never looks at category, tags or thumbnail. */
  lemma IgnoresUnvalidatedFields(d: CampaignDraft, step: int, today: int,
                                 category: string, tags: seq<string>, thumbnail: Option<File>)
    ensures Validate(d.(category := category, tags := tags, thumbnail := thumbnail), step, today)
         == Validate(d, step, today)
  {
    var d' := d.(category := category, tags := tags, thumbnail := thumbnail);
    assert forall f :: FieldError(d', today, f) == FieldError(d, today, f);
  }
}
